=== FILE: README.md ===
# Data structures in Python, modelled in Dafny

This project models three families of recursive data-structure exercises from a
Python teaching repository and proves properties about them:

- **Binary trees** (BinaryTree/BSTQueue.py, BinaryTree/BinaryTree.py,
  BinaryTree/BtLinkedList.py). Covered:
  - structural equality and full-scan membership;
  - visitor traversals (postorder, inorder, by level, and level order by
    iterative deepening);
  - binary-search-tree lookup and insertion;
  - the parenthesised expression printer;
  - longest path, range listing, leaf-range listing and depth-bounded counting;
  - swapping children at even depths;
  - the local `is_bst` check;
  - traversals and the longest path returned as linked lists.
- **General trees** (Tree/tree.py, Tree/SimpleTree.py). Covered:
  - equality and membership, and the two-slot `BinaryTree` subclass;
  - `leaf_count`, `height`, `flatten`, `count_if` and both `arity` functions;
  - `list_internal`, `contains_test_passer`, `list_if`, `count`, `con`,
    `gather_lists` and `deepen`;
  - the queue-driven builder `descendants_from_list`.
- **A singly linked list** with `front`, `back` and `size` (LinkedList/LinkedList.py).
  Covered:
  - indexing;
  - prepend, append and delete-front;
  - delete-after and insert-before;
  - copy and concatenation;
  - removal of the first repeated neighbour;
  - the free function `merge_list`.

## Representation

- `None` is `Nil` in both tree datatypes:
  - `BinaryTrees.BTree` for binary trees;
  - `Trees.Tree`, whose children are a `seq` that may hold `Nil` entries.
- A visitor's `act(node)` is modelled by its trace: the sequence of subtrees it is
  applied to, in call order.
- Python exceptions are `Results.Error` values:
  - an explicit `IndexError`;
  - a failing `assert`;
  - an attribute read on `None`.
- A linked list is the record `LinkedLists.LList(vals, back, size)`:
  - `vals` are the values reachable from `front`;
  - `back` says which node the `back` reference denotes: none, an index of the
    chain, or a node no longer on the chain;
  - an unlinked node keeps its link, so it still shares its successors with the
    chain. `Detached(own, rejoin)` records the values of its own nodes and the
    chain index where the walk from it rejoins the chain. Later edits to shared
    nodes are therefore seen from `back`, and `LinkedLists.BackChain` is the walk
    from `back`;
  - `size` is the stored counter, kept apart from the chain's length.

  Several methods break the class invariant `LinkedLists.Valid` (the counter and
  `back` agree with the chain), and this representation lets the model show how.
- `descendants_from_list` mutates nodes through a FIFO queue. It is modelled as a
  method over a table from node ids to child ids, with the queue as a `seq`. The
  model proves that the table it fills equals a closed form,
  `TreeBuilder.ClosedKids`: node `j` receives ids `j*arity + 1 .. j*arity + arity`,
  cut off after the last list value. The tree the builder returns is
  `TreeBuilder.Grown`.

## Code and documentation

Where a routine's doctest and its code disagree, the model follows the code:

- `con` in Tree/SimpleTree.py: the doctest expects `"bcr"` at depth 2. The code
  gives `"bcr"` at depth 1 and `"d"` at depth 2 (`SimpleTree.ConDoctestTree`).
- `list_longest_path` in BinaryTree/BinaryTree.py: the doctest promises a list of
  values, but the code returns the height as a number
  (`BinaryTreeExercises.ListLongestPathIsHeight`).
- `remove_first_double`: the doctest prints a list starting with 3 after appending
  4 first. The model follows the appended values.
- `is_bst` compares each internal node only with its two children. It is true on
  some trees that are not search trees (`BinaryTreeExercises.LocalCheckMissesDeepViolation`),
  and it fails on a node with exactly one child.

## Model

| member | source | states |
|---|---|---|
| BSTQueue.Equal | BinaryTree/BSTQueue.py:25-41 | tree equality holds exactly when the two trees are structurally identical |
| BSTQueue.Contains | BinaryTree/BSTQueue.py:77-97 | membership holds exactly when some node holds the value; BinaryTree/BinaryTree.py:79-92 is the same code |
| BSTQueue.PostorderVisit | BinaryTree/BSTQueue.py:129-159 | every node is visited exactly once, and the root is visited last |
| BSTQueue.InorderVisit | BinaryTree/BSTQueue.py:163-193 | every node is visited exactly once, and the root comes right after the whole left subtree |
| BSTQueue.VisitLevel | BinaryTree/BSTQueue.py:197-241 | the count returned equals the number of nodes visited; it is positive exactly when the depth lies within the height, so `None`, a negative depth and a depth past the height give 0; depth 0 visits only the root |
| BSTQueue.VisitLevelIsDepth | BinaryTree/BSTQueue.py:197-241 | a node is handed to `act` exactly when it lies at depth `n`, the depth being the number of child steps from the root |
| BSTQueue.DepthOfChild | BinaryTree/BSTQueue.py:236-238 | below the root, depth `n` of a node is depth `n - 1` of its left or right child |
| BinaryTreeExercises.VisitLevelCountsLevel | BinaryTree/BSTQueue.py:197-241 | the count returned for depth `n` is the number of nodes shallower than `n + 1` minus those shallower than `n` |
| BSTQueue.DoctestTreeBuilt | BinaryTree/BSTQueue.py:205-211 | inserting 4, 2, 6, 12, 14, 10 into a leaf holding 8 gives the tree 8(4(2, 6), 12(10, 14)) |
| BSTQueue.VisitLevelDoctest | BinaryTree/BSTQueue.py:205-220 | on the doctest's tree depth 2 visits 2, 6, 10, 14 in that order and returns 4, and depth 17 returns 0 |
| BSTQueue.LevelsCoverNodes | BinaryTree/BSTQueue.py:197-241 | the levels from depth 0 to the height together hold every node exactly once |
| BSTQueue.LevelorderVisit | BinaryTree/BSTQueue.py:244-273 | the visit is levels 0, 1, 2, ... in turn, ending at the first empty level; it visits each node exactly once |
| BSTQueue.BstContains | BinaryTree/BSTQueue.py:277-299 | a hit always means the value is in the tree; on a search tree the one-path search agrees with the full scan |
| BSTQueue.Insert | BinaryTree/BSTQueue.py:302-328 | inserting into `None` gives a fresh leaf; otherwise the root stays the same node; inserting a value the search finds changes nothing |
| BSTQueue.InsertAddsValue | BinaryTree/BSTQueue.py:319-328 | when the search misses the value, insertion adds exactly one copy of it to the bag of values |
| BSTQueue.InsertHas | BinaryTree/BSTQueue.py:319-328 | after insertion, a value is present exactly when it was present before or is the inserted one |
| BSTQueue.InsertKeepsOrder | BinaryTree/BSTQueue.py:302-328 | insertion into a search tree gives a search tree |
| BSTQueue.InsertAllOrdered | BinaryTree/BSTQueue.py:302-328 | repeated insertion keeps search-tree order, and the result holds exactly the old values and the inserted ones |
| BSTQueue.InorderValues | BinaryTree/BSTQueue.py:163-193 | the inorder visit sees every value of the tree, with its multiplicity |
| BSTQueue.InorderIncreasing | BinaryTree/BSTQueue.py:163-193 | on a search tree the inorder visit sees strictly increasing values |
| BSTQueue.BuiltTreeVisitsIncreasing | BinaryTree/BSTQueue.py:171-187 | a tree built by inserting values into `None` is visited inorder in strictly increasing order, and each inserted value appears |
| BinaryTreeExercises.Parenthesize | BinaryTree/BinaryTree.py:95-129 | `None` gives the empty string and a leaf gives its value; an internal node gives a string that is wrapped in parentheses |
| BinaryTreeExercises.ParenthesesCountInternalNodes | BinaryTree/BinaryTree.py:120-129 | when no value contains a parenthesis, the number of `(` and the number of `)` both equal the number of internal nodes |
| BinaryTreeExercises.ParenthesizeReadsInorder | BinaryTree/BinaryTree.py:95-129 | when no value contains a parenthesis or a space, removing those characters from the string leaves the inorder values joined together |
| BinaryTreeExercises.ListLongestPath | BinaryTree/BinaryTree.py:132-158 | the result is 0 exactly for an empty tree, and for a node it exceeds both children's results |
| BinaryTreeExercises.ListLongestPathIsHeight | BinaryTree/BinaryTree.py:132-158 | the number returned is the height; no root-to-leaf path is longer; it is the length of the path that `longest()` lists |
| BinaryTreeExercises.ListBetween | BinaryTree/BinaryTree.py:161-198 | a value is listed exactly when it is in the tree and between the bounds, inclusive |
| BinaryTreeExercises.ListBetweenFiltersPreorder | BinaryTree/BinaryTree.py:178-198 | the listing is the preorder values filtered by the range, in root-left-right order |
| BinaryTreeExercises.ListLeavesBetween | BinaryTree/BinaryTree.py:211-230 | every listed value is in the tree and within the range |
| BinaryTreeExercises.ListLeavesBetweenFiltersLeaves | BinaryTree/BinaryTree.py:211-230 | the listing is exactly the in-range leaf values in preorder; internal values never appear |
| BinaryTreeExercises.CountShallower | BinaryTree/BinaryTree.py:233-253 | the count is 0 for `None` or a depth of at most 0; it never exceeds the node count; it equals the node count once the depth reaches the height |
| BinaryTreeExercises.CountShallowerCountsLevels | BinaryTree/BinaryTree.py:233-253 | the count is the number of nodes on levels above the given depth |
| BinaryTreeExercises.SwapEven | BinaryTree/BinaryTree.py:256-273 | the result is empty exactly when the input is, and a node keeps its value at the root |
| BinaryTreeExercises.SwapEvenKeepsValues | BinaryTree/BinaryTree.py:256-273 | swapping children at even depths keeps the bag of values |
| BinaryTreeExercises.SwapEvenKeepsShape | BinaryTree/BinaryTree.py:256-273 | swapping keeps the node count and the height |
| BinaryTreeExercises.SwapEvenTwice | BinaryTree/BinaryTree.py:256-273 | applying the swap twice from the same depth restores the tree |
| BinaryTreeExercises.SwapEvenThenOddMirrors | BinaryTree/BinaryTree.py:256-273 | swapping at even depths and then at odd depths mirrors the tree |
| BinaryTreeExercises.IsBst | BinaryTree/BinaryTree.py:345-357 | the check fails (reading a child of `None`) exactly when some node has one child; otherwise it is true exactly when every internal node is ordered with its two children |
| BinaryTreeExercises.SearchTreePasses | BinaryTree/BinaryTree.py:345-357 | a search tree with no one-child node passes the check |
| BinaryTreeExercises.LocalCheckMissesDeepViolation | BinaryTree/BinaryTree.py:345-357 | a tree with a grandchild on the wrong side passes the check without being a search tree |
| BtLinkedList.Copy | BinaryTree/BtLinkedList.py:354-373 | the copy is a valid list with the same values |
| BtLinkedList.Concat | BinaryTree/BtLinkedList.py:375-405 | the result is a valid list holding the first operand's values, then the second's, so its size is the sum |
| BtLinkedList.Longest | BinaryTree/BtLinkedList.py:172-204 | the list is a root-to-leaf path whose length is the height |
| BtLinkedList.LongestIsLongest | BinaryTree/BtLinkedList.py:172-204 | no root-to-leaf path is longer than the listed one |
| BtLinkedList.LongestPrefersLeft | BinaryTree/BtLinkedList.py:200-204 | when both children are present and the left one is at least as tall, the left path is kept |
| BtLinkedList.Inorder | BinaryTree/BtLinkedList.py:79-108 | the inorder list is a valid linked list |
| BtLinkedList.Preorder | BinaryTree/BtLinkedList.py:110-139 | the preorder list is a valid linked list |
| BtLinkedList.Postorder | BinaryTree/BtLinkedList.py:141-170 | the postorder list is a valid linked list |
| BtLinkedList.InorderShape | BinaryTree/BtLinkedList.py:94-108 | inorder lists the left subtree, then the value, then the right subtree, with an absent child contributing nothing |
| BtLinkedList.PreorderShape | BinaryTree/BtLinkedList.py:125-139 | preorder lists the value, then the left subtree, then the right |
| BtLinkedList.PostorderShape | BinaryTree/BtLinkedList.py:156-170 | postorder lists the left subtree, then the right, then the value |
| BtLinkedList.TraversalsHoldValues | BinaryTree/BtLinkedList.py:79-170 | all three traversals have one entry per node and hold the same bag of values as the tree |
| BtLinkedList.InorderFollowsVisit | BinaryTree/BtLinkedList.py:79-108 | the inorder list holds the values of the nodes the inorder visitor reaches, in the same order |
| BtLinkedList.PostorderFollowsVisit | BinaryTree/BtLinkedList.py:141-170 | the postorder list holds the values of the nodes the postorder visitor reaches, in the same order |
| BtLinkedList.PreorderFollowsNodes | BinaryTree/BtLinkedList.py:110-139 | the preorder list is the values of the preorder node list |
| BtLinkedList.PreorderMirrorsPostorder | BinaryTree/BtLinkedList.py:110-170 | preorder is postorder of the mirror image, reversed |
| BtLinkedList.InorderOfMirror | BinaryTree/BtLinkedList.py:79-108 | inorder of the mirror image is inorder reversed |
| TreePy.Equal | Tree/tree.py:53-71 | tree equality holds exactly when the trees are structurally identical, including `None` entries |
| TreePy.Contains | Tree/tree.py:110-138 | membership holds exactly when the value is among the flattened values |
| TreePy.BinarySlots | Tree/tree.py:141-178 | the `left` and `right` properties read back what the constructor or a setter stored; a setter leaves the other slot alone |
| TreePy.LeafCount | Tree/tree.py:181-202 | the leaf count of a tree is at least 1 |
| TreePy.LeafCountCountsLeaves | Tree/tree.py:181-202 | the leaf count is the number of nodes with no present child |
| TreePy.Left | Tree/tree.py:167-168 | the left child is slot 0: the node is rebuilt from its value, this child and slot 1 |
| TreePy.Right | Tree/tree.py:175-176 | the right child is slot 1: the node is rebuilt from its value, slot 0 and this child |
| TreePy.SetLeft | Tree/tree.py:164-165 | after setting the left child, reading it gives the new child, the right child and the value are unchanged, and there are still two slots |
| TreePy.SetRight | Tree/tree.py:172-173 | after setting the right child, reading it gives the new child, the left child and the value are unchanged, and there are still two slots |
| TreePy.Height | Tree/tree.py:205-226 | the height of a tree is at least 1 |
| TreePy.PathWithinHeight | Tree/tree.py:205-226 | no root-to-leaf path is longer than the height |
| TreePy.HeightIsReached | Tree/tree.py:205-226 | some root-to-leaf path is exactly as long as the height, so the height is the longest path's length |
| TreePy.TallestChild | Tree/tree.py:223-226 | the maximum over the children is reached by some present child |
| TreePy.Flatten | Tree/tree.py:229-251 | the flattened list starts with the root's value |
| TreePy.FlattenIsPreorder | Tree/tree.py:229-251 | flattening lists the values of the nodes in preorder, one per node |
| TreePy.CountIf | Tree/tree.py:254-277 | a root that satisfies the predicate counts at least 1, and the count never exceeds the number of values in the tree |
| TreePy.CountIfCountsFlatten | Tree/tree.py:254-277 | `count_if` is the number of flattened values that satisfy the predicate |
| TreePy.Arity | Tree/tree.py:280-298 | an empty children list gives 0; a successful result is at least the number of children |
| TreePy.ArityIsMaxBranching | Tree/tree.py:280-298 | `arity` fails exactly when a `None` child is reachable; otherwise it is the largest number of children any node has |
| SimpleTree.ListInternal | Tree/SimpleTree.py:97-121 | the listing is empty exactly for a leaf |
| SimpleTree.ListInternalIsPreorder | Tree/SimpleTree.py:97-121 | the listing is the values of the nodes with a present child, in preorder |
| SimpleTree.Arity | Tree/SimpleTree.py:124-155 | a leaf has arity 0; an internal node's arity is at least the length of its children list, `None` entries included |
| SimpleTree.AritiesAgree | Tree/SimpleTree.py:124-155 | on a tree without `None` children this arity equals the one of Tree/tree.py |
| SimpleTree.AritiesDifferOnNone | Tree/SimpleTree.py:139-155 | with a `None` child next to a present one, this arity counts the slot where the other fails |
| SimpleTree.ArityIsMaxInternalBranching | Tree/SimpleTree.py:124-155 | no internal node has more children slots than the arity, and a positive arity is reached by some internal node |
| SimpleTree.ContainsTestPasser | Tree/SimpleTree.py:158-188 | a root whose value passes the test makes the result true; the exact condition is `SimpleTree.PasserIsNonEmptyListIf` |
| SimpleTree.PasserIsNonEmptyListIf | Tree/SimpleTree.py:158-188 | `contains_test_passer` holds exactly when `list_if` is not empty |
| SimpleTree.ListIf | Tree/SimpleTree.py:191-229 | every listed value satisfies the predicate |
| SimpleTree.ListIfFiltersFlatten | Tree/SimpleTree.py:191-229 | `list_if` is the flattened values filtered by the predicate, in preorder |
| SimpleTree.PredicateQueriesAgree | Tree/SimpleTree.py:158-229 | `count_if` is the length of `list_if`, and `contains_test_passer` holds exactly when `list_if` is not empty |
| SimpleTree.Count | Tree/SimpleTree.py:232-258 | the count is at least 1 |
| SimpleTree.CountCountsNodes | Tree/SimpleTree.py:232-258 | the count is the number of nodes, which is the length of the flattened list |
| SimpleTree.LeavesAndInternalMakeCount | Tree/SimpleTree.py:97-258 | the node count is the leaf count plus the number of internal values |
| SimpleTree.Con | Tree/SimpleTree.py:260-283 | `None` gives the empty string, and depth 0 gives the root's value |
| SimpleTree.ConBeyondHeight | Tree/SimpleTree.py:278-283 | a negative depth, or a depth at or past the height, gives the empty string |
| SimpleTree.ConJoinsLevel | Tree/SimpleTree.py:260-283 | the string at depth `d` joins, in preorder, exactly the values of the nodes at depth `d` |
| SimpleTree.ConDoctestTree | Tree/SimpleTree.py:260-283 | on the doctest's tree the code gives `"a"`, `"bcr"` and `"d"` at depths 0, 1 and 2 |
| SimpleTree.GatherLists | Tree/SimpleTree.py:289-306 | one sublist gathers to itself |
| SimpleTree.GatherListsConcat | Tree/SimpleTree.py:289-306 | gathering distributes over joining the outer lists |
| SimpleTree.GatherListsLayout | Tree/SimpleTree.py:289-306 | the gathered list is as long as all sublists together, and each sublist sits in it at the offset of the lengths before it |
| SimpleTree.Deepen | Tree/SimpleTree.py:309-321 | `None` stays `None`; a node keeps its value and gets exactly one child |
| SimpleTree.DeepenDoublesCount | Tree/SimpleTree.py:309-321 | deepening doubles the node count |
| SimpleTree.DeepenDoublesHeight | Tree/SimpleTree.py:309-321 | deepening doubles the height |
| SimpleTree.DeepenDoublesValues | Tree/SimpleTree.py:309-321 | after deepening, each value occurs twice as often |
| SimpleTree.DeepenSpreadsLevels | Tree/SimpleTree.py:309-321 | the original's level `d` appears at levels `2d` and `2d+1` of the deepened tree |
| TreeBuilder.DescendantsFromList | Tree/tree.py:302-328 | the queue-driven builder returns the tree described by the closed-form child table; Tree/SimpleTree.py:325-351 is the same code |
| TreeBuilder.FillNode | Tree/tree.py:319-327 | one dequeue gives the node its whole block of ids, or runs out of values with the table complete |
| TreeBuilder.Grown | Tree/tree.py:302-328 | the returned tree is the given root, keeping its value |
| TreeBuilder.GrownAddsList | Tree/tree.py:313-328 | with arity at least 1, the grown tree holds the old values plus every list value, one node per value |
| TreeBuilder.GrownWithoutArity | Tree/tree.py:313-328 | with arity at most 0 the tree is unchanged |
| TreeBuilder.GrownWithinArity | Tree/tree.py:313-328 | growing a single node never gives any node more than `arity` children |
| TreeBuilder.BuilderDoctest | Tree/tree.py:302-312 | the doctest tree `Tree(0, [Tree(1, [Tree(3), Tree(4)]), Tree(2)])` is what the builder gives |
| TreeBuilder.EightShapeQueries | Tree/SimpleTree.py:97-121 | eight values grown with arity 3 give six leaves, height 3, and internal values root, first and second value |
| TreeBuilder.LeafCountAndHeightDoctests | Tree/tree.py:181-226 | the `leaf_count` and `height` doctests give 6 and 3 |
| TreeBuilder.CountIfDoctest | Tree/tree.py:254-277 | the `count_if` doctest gives 3 |
| TreeBuilder.CountDoctest | Tree/SimpleTree.py:232-258 | the `count` doctest gives 8 |
| TreeBuilder.ListInternalDoctest | Tree/SimpleTree.py:97-121 | the `list_internal` doctest gives `[0, 1, 2]` |
| TreeBuilder.ListIfOfGrown | Tree/SimpleTree.py:191-229 | on a tree grown from a single node, `list_if` keeps exactly the root's value and the list's values that satisfy the predicate |
| TreeBuilder.ListIfDoctests | Tree/SimpleTree.py:191-229 | the `list_if` doctests give the sets `{5, 6, 7, 8}` and `{0, 2, 4, 6, 8}` |
| LinkedLists.Prepend | LinkedList/LinkedList.py:195-220 | the value goes in front and `size` grows by one; a valid list stays valid |
| LinkedLists.Append | LinkedList/LinkedList.py:161-193 | it fails exactly when `size` is 0 on a non-empty chain or stale `back`, or `size` is not 0 with no `back`; a valid list gains the value last, grows `size` by one and stays valid |
| LinkedLists.DeleteFront | LinkedList/LinkedList.py:222-252 | the assertion fails exactly on an empty chain; otherwise the first value goes and `size` drops by one, and a valid list stays valid |
| LinkedLists.DeleteFrontUndoesPrepend | LinkedList/LinkedList.py:195-252 | on a valid list, deleting the front after a prepend restores the list |
| LinkedLists.SetItem | LinkedList/LinkedList.py:254-295 | `IndexError` is raised exactly when `index >= size` or `index < -size`; a negative index counts from `size`; only that position changes |
| LinkedLists.GetItem | LinkedList/LinkedList.py:404-432 | on a valid list it succeeds exactly for `-size <= index < size` with the value at that position; `index == size` fails reading `None`, and other indices raise `IndexError` |
| LinkedLists.SetThenGet | LinkedList/LinkedList.py:282-295 | reading back a written position gives the written value, and other positions read as before |
| LinkedLists.AppendThenGetLast | LinkedList/LinkedList.py:181-193 | after an append, index `size` (old) and index -1 both read the appended value |
| LinkedLists.Contains | LinkedList/LinkedList.py:434-460 | the walk finds the value exactly when it is in the chain |
| LinkedLists.DeleteAfter | LinkedList/LinkedList.py:128-159 | with `size` not 0, it drops the node after the first occurrence and decrements `size`, or leaves the list alone when the value is absent or last; `size` 0 on a non-empty list fails the assertion |
| LinkedLists.InsertBefore | LinkedList/LinkedList.py:330-356 | an absent `value2` leaves the list alone; when `size` is 1 or the front holds `value2`, `prepend` puts `value1` in front and `size` grows, so a stale `size` of 1 on a longer chain puts it in front even when `value2` lies further on; otherwise `value1` goes just before the first `value2` and `size` stays |
| LinkedLists.Copy | LinkedList/LinkedList.py:358-383 | the copy is a valid list with the same values; one whose `size` is 0 copies as empty |
| LinkedLists.CopyKeepsValues | LinkedList/LinkedList.py:358-402 | a copy of a valid list has its values and its length |
| LinkedLists.Concat | LinkedList/LinkedList.py:297-328 | the result holds the first operand's values, then the second's; it is valid when both are non-empty, and for valid operands its size is the sum |
| LinkedLists.RemoveFirstDouble | LinkedList/LinkedList.py:462-487 | with no equal neighbours the walk reads `None`; otherwise the second node of the first equal pair goes, `size` drops by one and a valid list stays valid; when that node was last, `back` moves to its predecessor, on any list |
| LinkedLists.Len | LinkedList/LinkedList.py:385-402 | on a valid list the length is the number of nodes |
| LinkedLists.MergeList | LinkedList/LinkedList.py:584-598 | the two-index loop followed by both tails computes the merge that takes the smaller head and the second list's head on ties |
| LinkedLists.MergePermutes | LinkedList/LinkedList.py:584-598 | the merge is a permutation of the two inputs together |
| LinkedLists.MergeSorted | LinkedList/LinkedList.py:584-598 | merging two sorted lists gives a sorted list |
| LinkedLists.MergeHead | LinkedList/LinkedList.py:590-596 | the first merged value is the first value of one of the inputs |
| LinkedLists.DeleteAfterStaleBack | LinkedList/LinkedList.py:154-157 | removing the last node leaves `back` on the unlinked node, and the list is no longer valid |
| LinkedLists.DeleteAfterLosesAppend | LinkedList/LinkedList.py:154-193 | on `[1, 2]`, `delete_after(1)` then `append(3)` leaves the chain `[1]` with `size` 2 |
| LinkedLists.DeleteAfterKeepingBack | LinkedList/LinkedList.py:154-157 | moving `back` to the predecessor gives the same chain and keeps a valid list valid |
| LinkedLists.InsertBeforeMiscounts | LinkedList/LinkedList.py:351-356 | the hand-linked branch leaves `size` one short, so the list is no longer valid |
| LinkedLists.InsertBeforeAfterMiscount | LinkedList/LinkedList.py:222-356 | on `[1, 3]`, `insert_before(2, 3)` then `delete_front()` leave chain `[2, 3]` with `size` 1, and `insert_before(9, 3)` then gives `[9, 2, 3]` |
| LinkedLists.InsertBeforeCounting | LinkedList/LinkedList.py:348-356 | counting the new node on every branch gives the same chain and keeps a valid list valid |
| LinkedLists.GetItemPastEnd | LinkedList/LinkedList.py:421-432 | on `[1]`, index 1 passes the range check and then reads `None` |
| LinkedLists.GetItemChecked | LinkedList/LinkedList.py:421-432 | with the range check `-size <= index < size`, a valid list succeeds exactly within the range with the same value, and raises `IndexError` outside it |
| LinkedLists.Empty | LinkedList/LinkedList.py:79-86 | a new list has no values, a counter of 0, and is valid |
| LinkedLists.UnlinkSeenFromBack | LinkedList/LinkedList.py:5-22 | unlinking chain node `k` removes it from the walk from `back` exactly when that walk passes its predecessor; otherwise the walk is unchanged, also when `back` is the unlinked node |
| LinkedLists.LinkSeenFromBack | LinkedList/LinkedList.py:5-22 | linking a node in before chain node `k` adds it to the walk from `back` exactly when that walk passes the predecessor whose link changes |
| LinkedLists.WriteSeenFromBack | LinkedList/LinkedList.py:5-22 | writing the value of chain node `k` changes the walk from `back` exactly when that walk reaches the node |
| LinkedLists.UnlinkedAt | LinkedList/LinkedList.py:5-22 | the unlinking property holds for any list with the shortened chain and moved `back`, whatever its counter |
| LinkedLists.LinkedAt | LinkedList/LinkedList.py:5-22 | the linking property holds for any list with the lengthened chain and moved `back`, whatever its counter |
| LinkedLists.DeleteAfterSeenFromBack | LinkedList/LinkedList.py:128-159 | when `delete_after` unlinks a node, a `back` whose walk passes the node's predecessor loses that node, and any other `back` reaches the same values |
| LinkedLists.RemoveFirstDoubleSeenFromBack | LinkedList/LinkedList.py:462-487 | when `remove_first_double` unlinks the last node, the walk from `back` is the new last node alone; otherwise a `back` whose walk passes the unlinked node's predecessor loses that node, and any other `back` reaches the same values |
| LinkedLists.DeleteFrontSeenFromBack | LinkedList/LinkedList.py:222-252 | `delete_front` clears `back` when the walks from `front` and `back` are equal; otherwise `back` reaches the same values as before |
| LinkedLists.InsertBeforeSeenFromBack | LinkedList/LinkedList.py:195-356 | the prepend branch of `insert_before` leaves the walk from `back` alone when `size` is not 0, and on a counter of 0 makes it the whole new chain; the hand-linked branch adds `value1` to it exactly when the walk passes the changed predecessor |
| LinkedLists.SetItemSeenFromBack | LinkedList/LinkedList.py:254-295 | `__setitem__` changes the walk from `back` exactly at the written node, and only when the walk reaches it |
| LinkedLists.AppendMovesBack | LinkedList/LinkedList.py:161-193 | after a successful `append`, the walk from `back` is the new node alone, whatever `back` was before |
| LinkedLists.SharedBackFollowsUnlinking | LinkedList/LinkedList.py:128-252 | on `[5, 5, 3, 3, 2]` with `back` on the second 5: `delete_after(5)` leaves `back` off the chain but still reaching `5, 3, 3, 2`; `remove_first_double` makes that walk equal the chain; `delete_front` then clears `back`, and `append(6)` fails reading `None` |
| LinkedLists.SharedBackSeesInsertion | LinkedList/LinkedList.py:195-220 | in that run, `prepend(7)` then `insert_before(9, 2)` adds 9 to the walk from the unlinked `back` as well |
| LinkedLists.SharedBackStartReached | LinkedList/LinkedList.py:161-356 | that run's starting state is reached from an empty list by `append(1)`, `append(2)`, `insert_before(3, 2)` twice, `insert_before(4, 3)`, `delete_front` twice and `prepend(5)` twice; `LinkedLists.SharedBackFollowsUnlinking` continues with `delete_after(5)` |

## Left out

- `evaluate` (BinaryTree/BSTQueue.py): it computes float arithmetic through `eval`, which has no counterpart here.
- `BinaryTreeExercises.Parenthesize`: values are strings standing for their printed forms, so Python's float-to-string formatting is not modelled.
- `SimpleTree.Con`: values are strings standing for `str(t.value)`.
- `__str__` and `__repr__` in every file: these pretty-printers only lay out text.
- `merge_list2` (LinkedList/LinkedList.py): unfinished code with no expected behaviour.
- The bodiless `swap_even` method of BinaryTree/BtLinkedList.py: it has no body to model.
- The commented-out `collect`, `reversed_linked_list` and `merge_lists`: they are not live code.
- `level_nums` (BinaryTree/BinaryTree.py): it records the queue length after each expansion that added a child. This is a trace of its own queue rather than a property of the tree, and no other routine uses it.
- `merge_strings` (BinaryTree/BinaryTree.py): it is the two-index merge of `merge_list` applied to characters, and `LinkedLists.MergeList` models that loop.
- The queue classes `csc148_queue` and `Queue1` used by `descendants_from_list` are not part of this model. They are used only as a FIFO and are modelled by a `seq`.
- Object identity and aliasing are not visible in a value model:
  - `__add__` in LinkedList/LinkedList.py returns an operand itself when the other is empty;
  - the `left` and `right` properties of the `BinaryTree` subclass alias slots 0 and 1 of `children`;
  - the tree constructors copy the children list.
- The mutation of `t` is not modelled:
  - `insert`, `swap_even` and `descendants_from_list` change `t` in place, but the model returns the resulting tree as a value;
  - `TreeBuilder.DescendantsFromList` returns the grown tree and does not change the input list, since its arguments are values.
- `TreePy.Equal`: the `type(self) is type(other)` test of Tree/tree.py:69 is not modelled, because both tree classes share one datatype. A `BinaryTree` is an ordinary node with two children slots, so a `Tree` and a `BinaryTree` with equal value and children are equal in the model but unequal in Python. Comparing a tree with a non-tree cannot be expressed.
- `BSTQueue.Equal`: the `type(self) == type(other)` test is not modelled, because every operand is a tree or `None`.
- `LinkedList.__eq__` and `LinkedListNode.__eq__`: not modelled as operations. Node equality appears only inside `delete_front`, as `LinkedLists.FrontIsBack`.
- `LinkedLists.FrontIsBack`: Python's recursion limit is not modelled. The recursive node comparison that `delete_front` runs raises `RecursionError` on chains longer than about a thousand nodes; the model compares chains of any length.
- `BtLinkedList.Concat`: requires valid operands. The linked-list class of BinaryTree/BtLinkedList.py has only `prepend`, `append`, `copy` and `__add__`, and these build only valid lists.
- `TreeBuilder.DescendantsFromList`: the `arity <= 0` case returns at once. Tree/tree.py makes one pass over the root with an empty `range`, which adds nothing and ends the same way.
- `BtLinkedList.Inorder`, `BtLinkedList.Preorder`, `BtLinkedList.Postorder`: their own contracts state only validity. The contents are stated by `BtLinkedList.InorderShape`, `BtLinkedList.PreorderShape`, `BtLinkedList.PostorderShape`, `BtLinkedList.TraversalsHoldValues` and the `FollowsVisit` lemmas.
- `BinaryTreeExercises.Parenthesize`: its own contract states only the outer form. The contents are stated by `BinaryTreeExercises.ParenthesizeReadsInorder` and `BinaryTreeExercises.ParenthesesCountInternalNodes`.
- `BinaryTreeExercises.ListLongestPath`: its own contract gives only bounds. The exact result is `BinaryTreeExercises.ListLongestPathIsHeight`.
- `BinaryTreeExercises.SwapEven`: its own contract states only the root. The whole result is stated by `BinaryTreeExercises.SwapEvenKeepsValues`, `BinaryTreeExercises.SwapEvenKeepsShape`, `BinaryTreeExercises.SwapEvenTwice` and `BinaryTreeExercises.SwapEvenThenOddMirrors`.
- `TreePy.CountIf`: its own contract gives only bounds. The exact count is `TreePy.CountIfCountsFlatten`.
- `SimpleTree.ContainsTestPasser`: its own contract gives only the root case. The exact condition is `SimpleTree.PasserIsNonEmptyListIf`.
- `BinaryTreeExercises.ListLeavesBetween`: its own contract states only soundness. Completeness is `BinaryTreeExercises.ListLeavesBetweenFiltersLeaves`.
- `BSTQueue.PostorderVisit`, `BSTQueue.InorderVisit`: the order of the whole visit is stated by `BtLinkedList.PostorderFollowsVisit`, `BtLinkedList.InorderFollowsVisit` and `BSTQueue.InorderIncreasing`.
- `BSTQueue.Insert`: its own contract does not say where the new value goes. That is stated by `BSTQueue.InsertAddsValue`, `BSTQueue.InsertHas` and `BSTQueue.InsertKeepsOrder`.
- `TreePy.LeafCount`, `TreePy.Height`, `TreePy.Flatten`, `TreePy.Arity`: their own contracts give only bounds. The exact results are `TreePy.LeafCountCountsLeaves`, `TreePy.PathWithinHeight` with `TreePy.HeightIsReached`, `TreePy.FlattenIsPreorder` and `TreePy.ArityIsMaxBranching`.
- `SimpleTree.ListInternal`, `SimpleTree.Arity`, `SimpleTree.ListIf`, `SimpleTree.Count`, `SimpleTree.GatherLists`, `SimpleTree.Deepen`, `SimpleTree.Con`: their own contracts are partial. The full statements are the lemmas listed after each of them in the table.
- `TreeBuilder.Grown`: its own contract states only the root. The contents are `TreeBuilder.GrownAddsList` and `TreeBuilder.GrownWithinArity`.
- The doctests that show printed output, such as the traversals' `print(lnk)` lines, are stated about the value sequences instead of their printed form.

## Findings

| source | as written | input that shows it | evidently intended | confidence | as-written member | corrected member |
|---|---|---|---|---|---|---|
| LinkedList/LinkedList.py:154-157 | `delete_after` unlinks the last node without moving `back` | `[1, 2]`, `delete_after(1)`, then `append(3)`: the 3 is linked after the unlinked node, the chain stays `[1]` and `size` is 2 | `back` moves to the node before the removed one, so the class invariant holds | not executed | LinkedLists.DeleteAfterStaleBack | LinkedLists.DeleteAfterKeepingBack |
| LinkedList/LinkedList.py:351-356 | `insert_before` links a node in by hand without incrementing `size` | `[1, 2]`, `insert_before(0, 2)`: the chain is `[1, 0, 2]` but `len` is 2 | `size` grows by one on every insertion | not executed | LinkedLists.InsertBeforeMiscounts | LinkedLists.InsertBeforeCounting |
| LinkedList/LinkedList.py:421-423 | the range check of `__getitem__` rejects only `index > size` | `[1]`, index 1: the walk ends on `None` and `.value` fails instead of raising `IndexError` | reject `index >= size`, as `__setitem__` does | not executed | LinkedLists.GetItemPastEnd | LinkedLists.GetItemChecked |

=== FILE: binary_tree_exercises.dfy ===
/** BinaryTree/BinaryTree.py: free functions over binary trees. Its `BinaryTree`
    class and `__contains__` are the ones of BinaryTree/BSTQueue.py, modelled by
    `BinaryTrees.BTree` and `BSTQueue.Contains`. */
module BinaryTreeExercises {
  import opened Results
  import opened Seqs
  import opened BinaryTrees
  import BSTQueue
  import BtLinkedList
  import SimpleTree

  /** A node with at least one child present. */
  predicate IsInternal<T>(n: BTree<T>) {
    n.Node? && !IsLeaf(n)
  }

  /** The number of internal nodes, counted on the preorder node list. */
  ghost function InternalCount<T>(t: BTree<T>): nat {
    |Filter(Nodes(t), IsInternal)|
  }

  /** No value of the tree contains a parenthesis. */
  ghost predicate PlainValues(t: BTree<string>) {
    forall x | x in Values(t) :: '(' !in x && ')' !in x
  }

  /** `parenthesize(b)`: `None` gives the empty string, a leaf its value, any
      other node its operands around its value, in parentheses. Values stand for
      their string forms. */
  function Parenthesize(t: BTree<string>): (s: string)
    ensures t.Nil? ==> s == ""
    ensures IsLeaf(t) ==> s == t.value
    ensures IsInternal(t) ==> |s| >= 4 && s[0] == '(' && s[|s| - 1] == ')'
  {
    match t
    case Nil => ""
    case Node(v, l, r) =>
      if l.Nil? && r.Nil? then v
      else "(" + Parenthesize(l) + " " + v + " " + Parenthesize(r) + ")"
  }

  /** The internal-node count of a node is its own contribution plus its
      subtrees' counts. */
  lemma InternalCountSplit<T>(t: BTree<T>)
    requires t.Node?
    ensures InternalCount(t) == (if IsInternal(t) then 1 else 0) + InternalCount(t.left) + InternalCount(t.right)
  {
    FilterConcat([t] + Nodes(t.left), Nodes(t.right), IsInternal);
    FilterConcat([t], Nodes(t.left), IsInternal);
  }

  /** Parentheses in a wrapped operand string come from the operands plus the
      two added around them. */
  lemma OccurrencesWrapped(pl: string, v: string, pr: string, c: char)
    requires c !in v && c != ' '
    ensures Occurrences("(" + pl + " " + v + " " + pr + ")", c)
         == Occurrences(pl, c) + Occurrences(pr, c) + (if c == '(' then 1 else 0) + (if c == ')' then 1 else 0)
  {
    OccurrencesAbsent(v, c);
    OccurrencesConcat("(" + pl + " " + v + " " + pr, ")", c);
    OccurrencesConcat("(" + pl + " " + v + " ", pr, c);
    OccurrencesConcat("(" + pl + " " + v, " ", c);
    OccurrencesConcat("(" + pl + " ", v, c);
    OccurrencesConcat("(" + pl, " ", c);
    OccurrencesConcat("(", pl, c);
  }

  /** With no parenthesis among the values, the serialisation has one opening
      and one closing parenthesis per internal node. */
  lemma ParenthesesCountInternalNodes(t: BTree<string>)
    requires PlainValues(t)
    ensures Occurrences(Parenthesize(t), '(') == InternalCount(t)
    ensures Occurrences(Parenthesize(t), ')') == InternalCount(t)
  {
    ParenthesisCount(t, '(');
    ParenthesisCount(t, ')');
  }

  /** One parenthesis character `c` occurs once per internal node. */
  lemma {:induction false} ParenthesisCount(t: BTree<string>, c: char)
    requires PlainValues(t) && (c == '(' || c == ')')
    ensures Occurrences(Parenthesize(t), c) == InternalCount(t)
  {
    match t
    case Nil =>
    case Node(v, l, r) =>
      assert PlainValues(l) && PlainValues(r) && c !in v;
      ParenthesisCount(l, c);
      ParenthesisCount(r, c);
      ParenthesisStep(v, l, r, c);
  }

  /** The inductive step of `ParenthesisCount` at one node. */
  lemma ParenthesisStep(v: string, l: BTree<string>, r: BTree<string>, c: char)
    requires c !in v && (c == '(' || c == ')')
    requires Occurrences(Parenthesize(l), c) == InternalCount(l)
    requires Occurrences(Parenthesize(r), c) == InternalCount(r)
    ensures Occurrences(Parenthesize(Node(v, l, r)), c) == InternalCount(Node(v, l, r))
  {
    var t := Node(v, l, r);
    InternalCountSplit(t);
    if l.Nil? && r.Nil? {
      OccurrencesAbsent(v, c);
    } else {
      OccurrencesWrapped(Parenthesize(l), v, Parenthesize(r), c);
    }
  }

  /** A character that is neither a parenthesis nor the separating space. */
  predicate Shown(c: char) {
    c != '(' && c != ')' && c != ' '
  }

  /** No value of the tree contains a parenthesis or a space. */
  ghost predicate TokenValues(t: BTree<string>) {
    forall x | x in Values(t) :: forall i | 0 <= i < |x| :: Shown(x[i])
  }

  /** With parentheses and spaces removed, the serialisation reads the values in
      order: it is the in-order values joined together. */
  lemma {:induction false} ParenthesizeReadsInorder(t: BTree<string>)
    requires TokenValues(t)
    ensures Filter(Parenthesize(t), Shown) == SimpleTree.GatherLists(ValuesOf(BSTQueue.InorderVisit(t)))
  {
    match t
    case Nil =>
    case Node(v, l, r) =>
      TokenValuesSplit(t);
      ParenthesizeReadsInorder(l);
      ParenthesizeReadsInorder(r);
      GatheredInorderSplit(t);
      if l.Nil? && r.Nil? {
        FilterKeepsAll(v, Shown);
      } else {
        StrippedWrapped(Parenthesize(l), v, Parenthesize(r));
      }
  }

  /** The values of a node's subtrees, and the node's own value, are free of
      parentheses and spaces when the node's are. */
  lemma TokenValuesSplit(t: BTree<string>)
    requires t.Node? && TokenValues(t)
    ensures TokenValues(t.left) && TokenValues(t.right)
    ensures forall i | 0 <= i < |t.value| :: Shown(t.value[i])
  {
    assert t.value in Values(t);
  }

  /** The in-order values of a node, joined, are its left subtree's joined,
      its own value, then its right subtree's joined. */
  lemma GatheredInorderSplit<T>(t: BTree<seq<T>>)
    requires t.Node?
    ensures SimpleTree.GatherLists(ValuesOf(BSTQueue.InorderVisit(t)))
         == SimpleTree.GatherLists(ValuesOf(BSTQueue.InorderVisit(t.left))) + t.value
          + SimpleTree.GatherLists(ValuesOf(BSTQueue.InorderVisit(t.right)))
  {
    var vl, vr := ValuesOf(BSTQueue.InorderVisit(t.left)), ValuesOf(BSTQueue.InorderVisit(t.right));
    BSTQueue.InorderValuesSplit(t);
    SimpleTree.GatherListsConcat(vl + [t.value], vr);
    SimpleTree.GatherListsConcat(vl, [t.value]);
  }

  /** Removing parentheses and spaces from a wrapped node keeps the operands'
      remains around the value. */
  lemma StrippedWrapped(pl: string, v: string, pr: string)
    requires forall i | 0 <= i < |v| :: Shown(v[i])
    ensures Filter("(" + pl + " " + v + " " + pr + ")", Shown) == Filter(pl, Shown) + v + Filter(pr, Shown)
  {
    var a, b, c := "(" + pl + " ", v, " " + pr + ")";
    assert Filter(a, Shown) == Filter(pl, Shown) by {
      FilterConcat3("(", pl, " ", Shown);
      assert Filter("(", Shown) == [] && Filter(" ", Shown) == [];
    }
    assert Filter(c, Shown) == Filter(pr, Shown) by {
      FilterConcat3(" ", pr, ")", Shown);
      assert Filter(" ", Shown) == [] && Filter(")", Shown) == [];
    }
    assert Filter(b, Shown) == v by {
      FilterKeepsAll(v, Shown);
    }
    assert "(" + pl + " " + v + " " + pr + ")" == a + b + c;
    FilterConcat3(a, b, c, Shown);
  }

  /** `list_longest_path(node)`: despite its name and its examples, it returns a
      number, one more than the larger of the children's results. */
  function ListLongestPath<T>(t: BTree<T>): (r: nat)
    ensures r == 0 <==> t.Nil?
    ensures t.Node? ==> r > ListLongestPath(t.left) && r > ListLongestPath(t.right)
  {
    match t
    case Nil => 0
    case Node(_, l, r) =>
      var a := 1 + ListLongestPath(l);
      var b := 1 + ListLongestPath(r);
      if a > b then a else b
  }

  /** The number `list_longest_path` returns is the height: no root-to-leaf path
      is longer, and the path `longest()` lists has exactly that length. */
  lemma {:induction false} ListLongestPathIsHeight<T>(t: BTree<T>)
    ensures ListLongestPath(t) == Height(t) == |BtLinkedList.Longest(t).vals|
    ensures forall p | IsRootLeafPath(t, p) :: |p| <= ListLongestPath(t)
    ensures t.Node? ==> IsRootLeafPath(t, BtLinkedList.Longest(t).vals)
  {
    ListLongestPathCountsLevels(t);
    forall p | IsRootLeafPath(t, p) ensures |p| <= ListLongestPath(t) {
      PathWithinHeight(t, p);
    }
  }

  lemma {:induction false} ListLongestPathCountsLevels<T>(t: BTree<T>)
    ensures ListLongestPath(t) == Height(t)
  {
    match t
    case Nil =>
    case Node(_, l, r) =>
      ListLongestPathCountsLevels(l);
      ListLongestPathCountsLevels(r);
  }

  /** `list_between(node, start, end)`: the values within `[start, end]`, root
      first, then the left subtree's, then the right subtree's. */
  function ListBetween(t: BTree<int>, lo: int, hi: int): (r: seq<int>)
    ensures forall x :: x in r <==> x in Values(t) && lo <= x <= hi
    ensures |r| <= Size(t)
  {
    match t
    case Nil => []
    case Node(v, l, rt) =>
      if l.Nil? && rt.Nil? then (if lo <= v <= hi then [v] else [])
      else (if lo <= v <= hi then [v] else []) + ListBetween(l, lo, hi) + ListBetween(rt, lo, hi)
  }

  /** `list_between` is the in-range part of the preorder value list, duplicates
      and order included. */
  lemma {:induction false} ListBetweenFiltersPreorder(t: BTree<int>, lo: int, hi: int)
    ensures ListBetween(t, lo, hi) == Filter(ValuesOf(Nodes(t)), x => lo <= x <= hi)
  {
    match t
    case Nil =>
    case Node(v, l, r) =>
      var p := x => lo <= x <= hi;
      assert ListBetween(l, lo, hi) == Filter(ValuesOf(Nodes(l)), p)
          && ListBetween(r, lo, hi) == Filter(ValuesOf(Nodes(r)), p) by {
        ListBetweenFiltersPreorder(l, lo, hi);
        ListBetweenFiltersPreorder(r, lo, hi);
      }
      PreorderValuesSplit(t);
      FilterJoin(v, ValuesOf(Nodes(l)), ValuesOf(Nodes(r)), p);
  }

  /** `list_leaves_between(t, start, stop)`: the in-range values of leaves,
      left subtree before right subtree. */
  function ListLeavesBetween(t: BTree<int>, lo: int, hi: int): (r: seq<int>)
    ensures forall x :: x in r ==> x in Values(t) && lo <= x <= hi
    ensures |r| <= Size(t)
  {
    match t
    case Nil => []
    case Node(v, l, rt) =>
      if l.Nil? && rt.Nil? then (if lo <= v <= hi then [v] else [])
      else ListLeavesBetween(l, lo, hi) + ListLeavesBetween(rt, lo, hi)
  }

  /** `list_leaves_between` lists exactly the in-range leaves, in preorder:
      internal values never appear. */
  lemma {:induction false} ListLeavesBetweenFiltersLeaves(t: BTree<int>, lo: int, hi: int)
    ensures ListLeavesBetween(t, lo, hi) == ValuesOf(Filter(Nodes(t), n => IsLeaf(n) && lo <= n.value <= hi))
  {
    match t
    case Nil =>
    case Node(v, l, r) =>
      var p := (n: BTree<int>) => IsLeaf(n) && lo <= n.value <= hi;
      if l.Nil? && r.Nil? {
        assert Nodes(t) == [t];
      } else {
        var fl, fr := Filter(Nodes(l), p), Filter(Nodes(r), p);
        assert Filter(Nodes(t), p) == fl + fr by {
          FilterConcat([t] + Nodes(l), Nodes(r), p);
          FilterConcat([t], Nodes(l), p);
          assert Filter([t], p) == [];
        }
        assert ListLeavesBetween(l, lo, hi) == ValuesOf(fl) && ListLeavesBetween(r, lo, hi) == ValuesOf(fr) by {
          ListLeavesBetweenFiltersLeaves(l, lo, hi);
          ListLeavesBetweenFiltersLeaves(r, lo, hi);
        }
        ValuesOfConcat(fl, fr);
      }
  }

  /** `count_shallower(t, n)`: the nodes at depth less than `n`. */
  function CountShallower<T>(t: BTree<T>, n: int): (c: nat)
    ensures t.Nil? || n <= 0 ==> c == 0
    ensures c <= Size(t)
    ensures n >= Height(t) ==> c == Size(t)
  {
    match t
    case Nil => 0
    case Node(_, l, r) =>
      if n > 0 then 1 + CountShallower(l, n - 1) + CountShallower(r, n - 1) else 0
  }

  /** The count is the number of nodes that the first `n` level passes of
      `levelorder_visit` visit. */
  lemma {:induction false} CountShallowerCountsLevels<T>(t: BTree<T>, n: nat)
    ensures CountShallower(t, n) == |BSTQueue.LevelsUpTo(t, n)|
  {
    match t
    case Nil =>
      BSTQueue.LevelsBeyondHeight(t, n);
    case Node(_, l, r) =>
      if n > 0 {
        CountShallowerCountsLevels(l, n - 1);
        CountShallowerCountsLevels(r, n - 1);
        BSTQueue.LevelsSplit(t, n - 1);
        assert |multiset(BSTQueue.LevelsUpTo(t, n))| == |BSTQueue.LevelsUpTo(t, n)|;
        assert |multiset(BSTQueue.LevelsUpTo(l, n - 1))| == |BSTQueue.LevelsUpTo(l, n - 1)|;
        assert |multiset(BSTQueue.LevelsUpTo(r, n - 1))| == |BSTQueue.LevelsUpTo(r, n - 1)|;
      }
  }

  /** The count `visit_level` returns for depth `n` is the number of nodes
      shallower than `n + 1` minus those shallower than `n`. */
  lemma {:induction false} VisitLevelCountsLevel<T>(t: BTree<T>, n: int)
    ensures BSTQueue.VisitLevel(t, n).0 == CountShallower(t, n + 1) - CountShallower(t, n)
  {
    match t
    case Nil =>
    case Node(_, l, r) =>
      if n > 0 {
        VisitLevelCountsLevel(l, n - 1);
        VisitLevelCountsLevel(r, n - 1);
      }
  }

  /** `swap_even(t, d)`: exchange the children of every node whose depth,
      counted from `d` at the root, is even. The exchange happens before the
      recursion, which therefore runs on the swapped children. */
  function SwapEven<T>(t: BTree<T>, d: int): (r: BTree<T>)
    ensures r.Nil? <==> t.Nil?
    ensures t.Node? ==> r.value == t.value
  {
    match t
    case Nil => Nil
    case Node(v, l, rt) =>
      if d % 2 == 0 then Node(v, SwapEven(rt, d + 1), SwapEven(l, d + 1))
      else Node(v, SwapEven(l, d + 1), SwapEven(rt, d + 1))
  }

  /** Swapping children keeps the values. */
  lemma {:induction false} SwapEvenKeepsValues<T>(t: BTree<T>, d: int)
    ensures Values(SwapEven(t, d)) == Values(t)
  {
    match t
    case Nil =>
    case Node(v, l, r) =>
      var sl, sr := SwapEven(l, d + 1), SwapEven(r, d + 1);
      assert Values(sl) == Values(l) && Values(sr) == Values(r) by {
        SwapEvenKeepsValues(l, d + 1);
        SwapEvenKeepsValues(r, d + 1);
      }
      if d % 2 == 0 {
        assert SwapEven(t, d) == Node(v, sr, sl);
        SwapOperands(multiset{v}, Values(l), Values(r));
      } else {
        assert SwapEven(t, d) == Node(v, sl, sr);
      }
  }

  lemma SwapOperands<T>(a: multiset<T>, b: multiset<T>, c: multiset<T>)
    ensures a + c + b == a + b + c
  {
  }

  /** Swapping children keeps the node count and the height. */
  lemma {:induction false} SwapEvenKeepsShape<T>(t: BTree<T>, d: int)
    ensures Size(SwapEven(t, d)) == Size(t) && Height(SwapEven(t, d)) == Height(t)
  {
    match t
    case Nil =>
    case Node(v, l, r) =>
      SwapEvenKeepsShape(l, d + 1);
      SwapEvenKeepsShape(r, d + 1);
  }

  /** Swapping at the same depths twice restores the tree. */
  lemma {:induction false} SwapEvenTwice<T>(t: BTree<T>, d: int)
    ensures SwapEven(SwapEven(t, d), d) == t
  {
    match t
    case Nil =>
    case Node(v, l, r) =>
      SwapEvenTwice(l, d + 1);
      SwapEvenTwice(r, d + 1);
      var a, b := SwapEven(l, d + 1), SwapEven(r, d + 1);
      if d % 2 == 0 {
        assert SwapEven(t, d) == Node(v, b, a);
        assert SwapEven(Node(v, b, a), d) == Node(v, SwapEven(a, d + 1), SwapEven(b, d + 1));
      } else {
        assert SwapEven(t, d) == Node(v, a, b);
        assert SwapEven(Node(v, a, b), d) == Node(v, SwapEven(a, d + 1), SwapEven(b, d + 1));
      }
  }

  /** Swapping at even depths and then at odd depths swaps at every depth: the
      mirror image. */
  lemma {:induction false} SwapEvenThenOddMirrors<T>(t: BTree<T>, d: int)
    ensures SwapEven(SwapEven(t, d), d + 1) == Mirror(t)
  {
    match t
    case Nil =>
    case Node(v, l, r) =>
      SwapEvenThenOddMirrors(l, d + 1);
      SwapEvenThenOddMirrors(r, d + 1);
      assert (d + 1) % 2 == 0 <==> d % 2 != 0;
  }

  /** A node with exactly one child present. */
  predicate IsHalfNode<T>(n: BTree<T>) {
    n.Node? && n.left.Nil? != n.right.Nil?
  }

  /** Some node of the tree has exactly one child. */
  ghost predicate HasHalfNode<T>(t: BTree<T>) {
    exists n | n in Nodes(t) :: IsHalfNode(n)
  }

  /** An internal node with both children, the left one holding a smaller value
      and the right one a larger value. */
  predicate OrderedWithChildren(n: BTree<int>) {
    n.Node? && n.left.Node? && n.right.Node? && n.left.value < n.value < n.right.value
  }

  /** Every internal node is ordered with its children. */
  ghost predicate LocallyOrdered(t: BTree<int>) {
    forall n | n in Nodes(t) && IsInternal(n) :: OrderedWithChildren(n)
  }

  /** Both node-wide properties split into the root and the two subtrees. */
  lemma NodeWideSplit(t: BTree<int>)
    requires t.Node?
    ensures HasHalfNode(t) <==> IsHalfNode(t) || HasHalfNode(t.left) || HasHalfNode(t.right)
    ensures LocallyOrdered(t) <==>
      (IsInternal(t) ==> OrderedWithChildren(t)) && LocallyOrdered(t.left) && LocallyOrdered(t.right)
  {
    assert Nodes(t) == [t] + Nodes(t.left) + Nodes(t.right);
    assert forall n :: n in Nodes(t) <==> n == t || n in Nodes(t.left) || n in Nodes(t.right);
  }

  /** `is_bst(t)`: compares every internal node with its two children only. It
      builds the list of both recursive results and both comparisons before
      `all` looks at it, so a node with one child fails (reading a field of
      `None`) wherever it is in the tree. */
  function IsBst(t: BTree<int>): (r: Result<bool>)
    ensures r.Err? <==> HasHalfNode(t)
    ensures r.Err? ==> r.error == NoneAccess
    ensures r.Ok? ==> (r.value <==> LocallyOrdered(t))
  {
    match t
    case Nil => Ok(true)
    case Node(v, l, rt) =>
      NodeWideSplit(t);
      if l.Nil? && rt.Nil? then
        assert LocallyOrdered(l) && LocallyOrdered(rt) && !HasHalfNode(l) && !HasHalfNode(rt);
        Ok(true)
      else
        var a := IsBst(l);
        var b := IsBst(rt);
        if a.Err? then a
        else if b.Err? then b
        else if l.Nil? || rt.Nil? then Err(NoneAccess)
        else Ok(a.value && b.value && l.value < v && rt.value > v)
  }

  /** A search tree without half nodes passes the check. */
  lemma {:induction false} SearchTreePasses(t: BTree<int>)
    requires IsSearchTree(t) && !HasHalfNode(t)
    ensures IsBst(t) == Ok(true)
  {
    match t
    case Nil =>
    case Node(v, l, r) =>
      NodeWideSplit(t);
      SearchTreePasses(l);
      SearchTreePasses(r);
      if l.Node? {
        assert l.value in Values(l);
      }
      if r.Node? {
        assert r.value in Values(r);
      }
  }

  /** The check is local only: a 7 below the root 5, in its left subtree,
      goes unnoticed. */
  lemma LocalCheckMissesDeepViolation()
    ensures var t := Node(5, Node(3, Leaf(1), Leaf(7)), Leaf(9));
      IsBst(t) == Ok(true) && !IsSearchTree(t)
  {
    var t := Node(5, Node(3, Leaf(1), Leaf(7)), Leaf(9));
    assert 7 in Values(t.left);
    assert !HasHalfNode(t) by {
      NodeWideSplit(t);
      NodeWideSplit(t.left);
      NodeWideSplit(t.left.left);
      NodeWideSplit(t.left.right);
      NodeWideSplit(t.right);
    }
  }
}

=== FILE: binary_trees.dfy ===
/** The binary tree shared by BinaryTree/BSTQueue.py, BinaryTree/BinaryTree.py and
    BinaryTree/BtLinkedList.py, together with the reference notions (size, height,
    the bag of values, the preorder list of nodes, mirror image, search-tree order,
    root-to-leaf paths) that the contracts of the other modules are stated against. */
module BinaryTrees {
  import opened Seqs

  /** A `BinaryTree(value, left, right)` node, or `Nil` for Python's `None`
      (an absent child, or the empty tree). */
  datatype BTree<T> = Nil | Node(value: T, left: BTree<T>, right: BTree<T>)

  /** `BinaryTree(v)`: a node with both children absent. */
  function Leaf<T>(v: T): BTree<T> {
    Node(v, Nil, Nil)
  }

  predicate IsLeaf<T>(t: BTree<T>) {
    t.Node? && t.left.Nil? && t.right.Nil?
  }

  /** Number of nodes. */
  function Size<T>(t: BTree<T>): nat {
    match t
    case Nil => 0
    case Node(_, l, r) => 1 + Size(l) + Size(r)
  }

  /** Number of nodes on a longest root-to-leaf path; 0 for the empty tree. */
  function Height<T>(t: BTree<T>): nat {
    match t
    case Nil => 0
    case Node(_, l, r) => 1 + Max(Height(l), Height(r))
  }

  function Max(a: int, b: int): int {
    if a < b then b else a
  }

  /** The bag of values held by the nodes. */
  ghost function Values<T>(t: BTree<T>): multiset<T> {
    match t
    case Nil => multiset{}
    case Node(v, l, r) => multiset{v} + Values(l) + Values(r)
  }

  /** Every node (as the subtree rooted there), root first, then the left
      subtree's nodes, then the right subtree's. */
  ghost function Nodes<T>(t: BTree<T>): seq<BTree<T>> {
    match t
    case Nil => []
    case Node(_, l, r) => [t] + Nodes(l) + Nodes(r)
  }

  /** The values of the nodes in `ns`, in order; absent entries contribute nothing. */
  ghost function ValuesOf<T>(ns: seq<BTree<T>>): seq<T> {
    if ns == [] then []
    else if ns[0].Node? then [ns[0].value] + ValuesOf(ns[1..])
    else ValuesOf(ns[1..])
  }

  /** The tree with left and right exchanged at every node. */
  function Mirror<T>(t: BTree<T>): BTree<T> {
    match t
    case Nil => Nil
    case Node(v, l, r) => Node(v, Mirror(r), Mirror(l))
  }

  /** The binary-search-tree order: every value in a left subtree is smaller than
      the node's value and every value in a right subtree is larger. */
  ghost predicate IsSearchTree(t: BTree<int>) {
    match t
    case Nil => true
    case Node(v, l, r) =>
      && IsSearchTree(l) && IsSearchTree(r)
      && (forall x | x in Values(l) :: x < v)
      && (forall x | x in Values(r) :: v < x)
  }

  /** `p` lists the values met on a walk from the root of `t` down to a leaf. */
  ghost predicate IsRootLeafPath<T>(t: BTree<T>, p: seq<T>) {
    match t
    case Nil => false
    case Node(v, l, r) =>
      && |p| >= 1 && p[0] == v
      && if l.Nil? && r.Nil? then |p| == 1
         else IsRootLeafPath(l, p[1..]) || IsRootLeafPath(r, p[1..])
  }

  /** The subtree reached from the root of `t` by the steps of `p`, where
      `true` goes left and `false` goes right; walking off the tree gives `Nil`. */
  function Follow<T>(t: BTree<T>, p: seq<bool>): BTree<T> {
    if p == [] || t.Nil? then t
    else Follow(if p[0] then t.left else t.right, p[1..])
  }

  /** `s` is a node at depth `n` of `t`: the root is reached by no step, and
      each step down adds one. */
  ghost predicate AtDepth<T>(t: BTree<T>, s: BTree<T>, n: int) {
    n >= 0 && s.Node? && exists p: seq<bool> | |p| == n :: Follow(t, p) == s
  }

  lemma {:induction false} ValuesOfConcat<T>(a: seq<BTree<T>>, b: seq<BTree<T>>)
    ensures ValuesOf(a + b) == ValuesOf(a) + ValuesOf(b)
  {
    if a == [] {
      assert a + b == b;
    } else {
      assert (a + b)[1..] == a[1..] + b;
      ValuesOfConcat(a[1..], b);
    }
  }

  /** The preorder values of a node: its own, then the left subtree's, then
      the right subtree's. */
  lemma PreorderValuesSplit<T>(t: BTree<T>)
    requires t.Node?
    ensures ValuesOf(Nodes(t)) == [t.value] + ValuesOf(Nodes(t.left)) + ValuesOf(Nodes(t.right))
  {
    ValuesOfConcat([t] + Nodes(t.left), Nodes(t.right));
    ValuesOfConcat([t], Nodes(t.left));
    assert ValuesOf([t]) == [t.value];
  }

  /** The preorder node list has one entry per node. */
  lemma {:induction false} NodesSize<T>(t: BTree<T>)
    ensures |Nodes(t)| == Size(t)
  {
    match t
    case Nil =>
    case Node(v, l, r) =>
      NodesSize(l);
      NodesSize(r);
  }

  /** Every entry of the preorder node list is a present node. */
  lemma {:induction false} NodesPresent<T>(t: BTree<T>)
    ensures forall n | n in Nodes(t) :: n.Node?
  {
    match t
    case Nil =>
    case Node(v, l, r) =>
      NodesPresent(l);
      NodesPresent(r);
  }

  /** The values of the preorder node list make up the tree's bag of values. */
  lemma {:induction false} NodesValues<T>(t: BTree<T>)
    ensures multiset(ValuesOf(Nodes(t))) == Values(t)
  {
    match t
    case Nil =>
    case Node(v, l, r) =>
      NodesValues(l);
      NodesValues(r);
      PreorderValuesSplit(t);
      var vs := ValuesOf(Nodes(t));
      assert vs == [v] + ValuesOf(Nodes(l)) + ValuesOf(Nodes(r));
      assert multiset(vs) == multiset{v} + multiset(ValuesOf(Nodes(l))) + multiset(ValuesOf(Nodes(r)));
  }

  /** Mirroring twice gives the tree back, and keeps size, height and values. */
  lemma {:induction false} MirrorFacts<T>(t: BTree<T>)
    ensures Mirror(Mirror(t)) == t
    ensures Size(Mirror(t)) == Size(t)
    ensures Height(Mirror(t)) == Height(t)
    ensures Values(Mirror(t)) == Values(t)
  {
    match t
    case Nil =>
    case Node(v, l, r) =>
      MirrorFacts(l);
      MirrorFacts(r);
  }

  /** No root-to-leaf path is longer than the height. */
  lemma {:induction false} PathWithinHeight<T>(t: BTree<T>, p: seq<T>)
    requires IsRootLeafPath(t, p)
    ensures |p| <= Height(t)
  {
    match t
    case Node(v, l, r) =>
      if !(l.Nil? && r.Nil?) {
        if IsRootLeafPath(l, p[1..]) {
          PathWithinHeight(l, p[1..]);
        } else {
          PathWithinHeight(r, p[1..]);
        }
      }
  }

  /** A tree with a node of height `h` has at least `h` nodes. */
  lemma {:induction false} HeightWithinSize<T>(t: BTree<T>)
    ensures Height(t) <= Size(t)
  {
    match t
    case Nil =>
    case Node(_, l, r) =>
      HeightWithinSize(l);
      HeightWithinSize(r);
  }
}

=== FILE: bst_queue.dfy ===
/** BinaryTree/BSTQueue.py: structural equality and membership on binary trees,
    the visitor traversals (postorder, inorder, by level, level order by iterative
    deepening) and the binary-search-tree lookup and insertion.

    A visitor `act(node)` is modelled by the trace it would observe: the sequence of
    nodes (as subtrees) it is applied to, in call order. The action's own effects are
    the caller's business and are not modelled. */
module BSTQueue {
  import opened BinaryTrees
  import opened Seqs

  /** `BinaryTree.__eq__`: same value and recursively equal children, `None`
      equal only to `None`. It is exactly structural equality. */
  function Equal<T(==)>(a: BTree<T>, b: BTree<T>): (r: bool)
    ensures r <==> a == b
  {
    match (a, b)
    case (Nil, Nil) => true
    case (Node(v1, l1, r1), Node(v2, l2, r2)) => v1 == v2 && Equal(l1, l2) && Equal(r1, r2)
    case _ => false
  }

  /** `BinaryTree.__contains__`: full scan, root first, then left, then right,
      skipping absent children. */
  function Contains<T(==)>(t: BTree<T>, v: T): (r: bool)
    ensures r <==> v in Values(t)
  {
    t.Node? && (t.value == v || Contains(t.left, v) || Contains(t.right, v))
  }

  /** `postorder_visit(t, act)`: the nodes handed to `act`. */
  function PostorderVisit<T>(t: BTree<T>): (acted: seq<BTree<T>>)
    ensures |acted| == Size(t)
    ensures t.Node? ==> acted[|acted| - 1] == t
    ensures multiset(acted) == multiset(Nodes(t))
  {
    match t
    case Nil => []
    case Node(_, l, r) => PostorderVisit(l) + PostorderVisit(r) + [t]
  }

  /** `inorder_visit(root, act)`: the nodes handed to `act`. */
  function InorderVisit<T>(t: BTree<T>): (acted: seq<BTree<T>>)
    ensures |acted| == Size(t)
    ensures t.Node? ==> acted[Size(t.left)] == t
    ensures multiset(acted) == multiset(Nodes(t))
  {
    match t
    case Nil => []
    case Node(_, l, r) => InorderVisit(l) + [t] + InorderVisit(r)
  }

  /** `visit_level(t, n, act)`: the count it returns and the nodes handed to
      `act`. Depth `n` is a remaining budget: it drops by one per step down and
      the node where it reaches exactly 0 is visited. */
  function VisitLevel<T>(t: BTree<T>, n: int): (r: (nat, seq<BTree<T>>))
    ensures r.0 == |r.1|
    ensures r.0 > 0 <==> 0 <= n < Height(t)
    ensures n == 0 && t.Node? ==> r.1 == [t]
  {
    if t.Nil? then (0, [])
    else if n == 0 then (1, [t])
    else if n > 0 then
      var (a, xs) := VisitLevel(t.left, n - 1);
      var (b, ys) := VisitLevel(t.right, n - 1);
      (a + b, xs + ys)
    else (0, [])
  }

  /** A node is handed to `act` exactly when it lies at depth `n`. */
  lemma {:induction false} VisitLevelIsDepth<T>(t: BTree<T>, n: int, s: BTree<T>)
    ensures s in VisitLevel(t, n).1 <==> AtDepth(t, s, n)
  {
    match t
    case Nil =>
    case Node(_, l, r) =>
      if n == 0 {
        if AtDepth(t, s, n) {
          var p: seq<bool> :| |p| == 0 && Follow(t, p) == s;
        }
        assert Follow(t, []) == t;
      } else if n > 0 {
        VisitLevelIsDepth(l, n - 1, s);
        VisitLevelIsDepth(r, n - 1, s);
        DepthOfChild(t, s, n);
      }
  }

  /** Below the root, depth `n` of a node is depth `n - 1` of one of its children. */
  lemma DepthOfChild<T>(t: BTree<T>, s: BTree<T>, n: int)
    requires t.Node? && n > 0
    ensures AtDepth(t, s, n) <==> AtDepth(t.left, s, n - 1) || AtDepth(t.right, s, n - 1)
  {
    if AtDepth(t, s, n) {
      var p: seq<bool> :| |p| == n && Follow(t, p) == s;
      if p[0] {
        assert Follow(t.left, p[1..]) == s;
      } else {
        assert Follow(t.right, p[1..]) == s;
      }
    }
    if AtDepth(t.left, s, n - 1) {
      var q: seq<bool> :| |q| == n - 1 && Follow(t.left, q) == s;
      assert ([true] + q)[1..] == q;
      assert Follow(t, [true] + q) == s;
    }
    if AtDepth(t.right, s, n - 1) {
      var q: seq<bool> :| |q| == n - 1 && Follow(t.right, q) == s;
      assert ([false] + q)[1..] == q;
      assert Follow(t, [false] + q) == s;
    }
  }

  /** The tree the `visit_level` doctest builds by inserting 4, 2, 6, 12, 14
      and 10 into a leaf holding 8. */
  lemma DoctestTreeBuilt()
    ensures InsertAll(Leaf(8), [4, 2, 6, 12, 14, 10])
         == Node(8, Node(4, Leaf(2), Leaf(6)), Node(12, Leaf(10), Leaf(14)))
  {
    var b1 := Insert(Leaf(8), 4);
    assert b1 == Node(8, Leaf(4), Nil);
    var b2 := Insert(b1, 2);
    assert b2 == Node(8, Node(4, Leaf(2), Nil), Nil);
    var b3 := Insert(b2, 6);
    assert b3 == Node(8, Node(4, Leaf(2), Leaf(6)), Nil);
    var b4 := Insert(b3, 12);
    assert b4 == Node(8, Node(4, Leaf(2), Leaf(6)), Leaf(12));
    var b5 := Insert(b4, 14);
    assert b5 == Node(8, Node(4, Leaf(2), Leaf(6)), Node(12, Nil, Leaf(14)));
    var b6 := Insert(b5, 10);
    assert b6 == Node(8, Node(4, Leaf(2), Leaf(6)), Node(12, Leaf(10), Leaf(14)));
    assert InsertAll(b6, []) == b6;
    assert [4, 2, 6, 12, 14, 10][1..] == [2, 6, 12, 14, 10];
    assert [2, 6, 12, 14, 10][1..] == [6, 12, 14, 10];
    assert [6, 12, 14, 10][1..] == [12, 14, 10];
    assert [12, 14, 10][1..] == [14, 10];
    assert [14, 10][1..] == [10];
  }

  /** The doctest of `visit_level`: on that tree depth 2 holds 2, 6, 10 and 14,
      visited in that order, and depth 17 holds nothing. */
  lemma VisitLevelDoctest()
    ensures var b := InsertAll(Leaf(8), [4, 2, 6, 12, 14, 10]);
      && ValuesOf(VisitLevel(b, 2).1) == [2, 6, 10, 14]
      && VisitLevel(b, 2).0 == 4
      && VisitLevel(b, 17).0 == 0
  {
    DoctestTreeBuilt();
    var b := Node(8, Node(4, Leaf(2), Leaf(6)), Node(12, Leaf(10), Leaf(14)));
    var level := [Leaf(2), Leaf(6), Leaf(10), Leaf(14)];
    assert VisitLevel(b, 2).1 == level;
    assert level[1..][1..][1..] == [Leaf(14)] && ValuesOf([Leaf(14)]) == [14];
    assert ValuesOf(level[1..][1..]) == [10, 14];
    assert ValuesOf(level[1..]) == [6, 10, 14];
    assert Height(b) == 3;
  }

  /** The nodes of depths 0, 1, ..., k-1, one level after the other. */
  ghost function LevelsUpTo<T>(t: BTree<T>, k: nat): seq<BTree<T>> {
    if k == 0 then [] else LevelsUpTo(t, k - 1) + VisitLevel(t, k - 1).1
  }

  /** Below the root, the levels of a node are its children's levels, one deeper. */
  lemma {:induction false} LevelsSplit<T>(t: BTree<T>, k: nat)
    requires t.Node?
    ensures multiset(LevelsUpTo(t, k + 1))
         == multiset{t} + multiset(LevelsUpTo(t.left, k)) + multiset(LevelsUpTo(t.right, k))
  {
    if k == 0 {
      assert LevelsUpTo(t, 1) == [t];
    } else {
      LevelsSplit(t, k - 1);
      var xs, ys := VisitLevel(t.left, k - 1).1, VisitLevel(t.right, k - 1).1;
      assert VisitLevel(t, k).1 == xs + ys;
      RegroupLevels(t, LevelsUpTo(t, k), LevelsUpTo(t.left, k - 1), LevelsUpTo(t.right, k - 1), xs, ys);
    }
  }

  /** The multiset step behind `LevelsSplit`: appending the next level of the
      left and the right child keeps the split. */
  lemma RegroupLevels<T>(t: T, a: seq<T>, l: seq<T>, r: seq<T>, xs: seq<T>, ys: seq<T>)
    requires multiset(a) == multiset{t} + multiset(l) + multiset(r)
    ensures multiset(a + (xs + ys)) == multiset{t} + multiset(l + xs) + multiset(r + ys)
  {
  }

  /** Levels at or below the height are empty. */
  lemma {:induction false} LevelsBeyondHeight<T>(t: BTree<T>, k: nat)
    requires k >= Height(t)
    ensures LevelsUpTo(t, k) == LevelsUpTo(t, Height(t))
  {
    if k > Height(t) {
      LevelsBeyondHeight(t, k - 1);
      assert VisitLevel(t, k - 1).1 == [];
    }
  }

  /** Every node lies on exactly one level above the height. */
  lemma {:induction false} LevelsCoverNodes<T>(t: BTree<T>)
    ensures multiset(LevelsUpTo(t, Height(t))) == multiset(Nodes(t))
  {
    match t
    case Nil =>
    case Node(_, l, r) =>
      var k := Max(Height(l), Height(r));
      assert Height(t) == k + 1;
      LevelsSplit(t, k);
      LevelsBeyondHeight(l, k);
      LevelsBeyondHeight(r, k);
      LevelsCoverNodes(l);
      LevelsCoverNodes(r);
      assert multiset(Nodes(t)) == multiset{t} + multiset(Nodes(l)) + multiset(Nodes(r));
  }

  /** `levelorder_visit(t, act)`: iterative deepening, one `visit_level` pass per
      depth, stopping at the first pass that visits nothing. */
  method LevelorderVisit<T>(t: BTree<T>) returns (acted: seq<BTree<T>>)
    ensures acted == LevelsUpTo(t, Height(t))
    ensures multiset(acted) == multiset(Nodes(t))
    ensures |acted| == Size(t)
  {
    var n := 0;
    var (visited, trace) := VisitLevel(t, 0);
    acted := trace;
    while visited > 0
      invariant 0 <= n <= Height(t)
      invariant visited > 0 <==> n < Height(t)
      invariant acted == LevelsUpTo(t, n + 1)
      decreases Height(t) - n
    {
      n := n + 1;
      var (count, level) := VisitLevel(t, n);
      visited := count;
      acted := acted + level;
    }
    LevelsBeyondHeight(t, n + 1);
    LevelsCoverNodes(t);
    NodesSize(t);
    assert |multiset(acted)| == |acted|;
  }

  /** `bst_contains(node, value)`: search along one path, assuming search-tree order.
      A hit is always genuine; on a search tree a miss is genuine too. */
  function BstContains(t: BTree<int>, v: int): (r: bool)
    ensures r ==> v in Values(t)
    ensures IsSearchTree(t) ==> r == Contains(t, v)
  {
    match t
    case Nil => false
    case Node(x, l, rt) =>
      if x > v then BstContains(l, v)
      else if x < v then BstContains(rt, v)
      else true
  }

  /** `insert(node, value)`: the root to use afterwards. A new leaf is attached
      where the search for `v` falls off the tree; if the search finds `v`,
      nothing changes. */
  function Insert(t: BTree<int>, v: int): (r: BTree<int>)
    ensures t.Nil? ==> r == Leaf(v)
    ensures t.Node? ==> r.Node? && r.value == t.value
    ensures BstContains(t, v) ==> r == t
  {
    match t
    case Nil => Leaf(v)
    case Node(x, l, rt) =>
      if v < x then Node(x, Insert(l, v), rt)
      else if v > x then Node(x, l, Insert(rt, v))
      else t
  }

  /** When the search misses `v`, insertion adds exactly one `v`. */
  lemma {:induction false} InsertAddsValue(t: BTree<int>, v: int)
    ensures !BstContains(t, v) ==> Values(Insert(t, v)) == Values(t) + multiset{v}
  {
    match t
    case Nil =>
    case Node(x, l, r) =>
      if v < x && !BstContains(l, v) {
        InsertAddsValue(l, v);
        assert Insert(t, v) == Node(x, Insert(l, v), r);
        AddInside(multiset{x}, Values(l), Values(r), multiset{v});
      } else if v > x && !BstContains(r, v) {
        InsertAddsValue(r, v);
        assert Insert(t, v) == Node(x, l, Insert(r, v));
      }
  }

  lemma AddInside<T>(a: multiset<T>, b: multiset<T>, c: multiset<T>, d: multiset<T>)
    ensures a + (b + d) + c == a + b + c + d
  {
  }

  /** Insertion keeps the search-tree order. */
  lemma {:induction false} InsertKeepsOrder(t: BTree<int>, v: int)
    requires IsSearchTree(t)
    ensures IsSearchTree(Insert(t, v))
  {
    match t
    case Nil =>
    case Node(x, l, r) =>
      if v < x {
        var l' := Insert(l, v);
        assert IsSearchTree(l') by { InsertKeepsOrder(l, v); }
        forall y | y in Values(l') ensures y < x {
          InsertHas(l, v, y);
        }
        assert Insert(t, v) == Node(x, l', r);
      } else if v > x {
        var r' := Insert(r, v);
        assert IsSearchTree(r') by { InsertKeepsOrder(r, v); }
        forall y | y in Values(r') ensures x < y {
          InsertHas(r, v, y);
        }
        assert Insert(t, v) == Node(x, l, r');
      }
  }

  /** The values of the inorder trace are the tree's values. */
  lemma {:induction false} InorderValues<T>(t: BTree<T>)
    ensures multiset(ValuesOf(InorderVisit(t))) == Values(t)
  {
    match t
    case Nil =>
    case Node(v, l, r) =>
      InorderValues(l);
      InorderValues(r);
      InorderValuesSplit(t);
      MultisetJoin(ValuesOf(InorderVisit(l)), v, ValuesOf(InorderVisit(r)));
  }

  /** The inorder values of a node: the left subtree's, the node's, the right's. */
  lemma InorderValuesSplit<T>(t: BTree<T>)
    requires t.Node?
    ensures ValuesOf(InorderVisit(t))
         == ValuesOf(InorderVisit(t.left)) + [t.value] + ValuesOf(InorderVisit(t.right))
  {
    ValuesOfConcat(InorderVisit(t.left) + [t], InorderVisit(t.right));
    ValuesOfConcat(InorderVisit(t.left), [t]);
    assert ValuesOf([t]) == [t.value];
  }

  lemma MultisetJoin<T>(a: seq<T>, v: T, b: seq<T>)
    ensures multiset(a + [v] + b) == multiset(a) + multiset{v} + multiset(b)
  {
  }

  /** On a search tree the inorder visit meets the values in strictly increasing order. */
  lemma {:induction false} InorderIncreasing(t: BTree<int>)
    requires IsSearchTree(t)
    ensures Increasing(ValuesOf(InorderVisit(t)))
  {
    match t
    case Nil =>
    case Node(v, l, r) =>
      InorderIncreasing(l);
      InorderIncreasing(r);
      InorderValues(l);
      InorderValues(r);
      var a, b := ValuesOf(InorderVisit(l)), ValuesOf(InorderVisit(r));
      InorderValuesSplit(t);
      forall i | 0 <= i < |a| ensures a[i] < v {
        assert a[i] in multiset(a);
      }
      forall i | 0 <= i < |b| ensures v < b[i] {
        assert b[i] in multiset(b);
      }
      IncreasingJoin(a, v, b);
  }

  lemma IncreasingJoin(a: seq<int>, v: int, b: seq<int>)
    requires Increasing(a) && Increasing(b)
    requires forall i | 0 <= i < |a| :: a[i] < v
    requires forall i | 0 <= i < |b| :: v < b[i]
    ensures Increasing(a + [v] + b)
  {
    var s := a + [v] + b;
    forall i, j | 0 <= i < j < |s| ensures s[i] < s[j] {
      if j < |a| {
      } else if i < |a| {
        assert s[i] < v;
      } else if i == |a| {
      } else {
      }
    }
  }

  /** Inserting the values of `vs` one by one, as `b = insert(b, x)` does. */
  function InsertAll(t: BTree<int>, vs: seq<int>): BTree<int>
    decreases |vs|
  {
    if vs == [] then t else InsertAll(Insert(t, vs[0]), vs[1..])
  }

  /** A tree built by repeated insertion into a search tree is a search tree
      holding exactly the old values and the inserted ones. */
  lemma InsertAllOrdered(t: BTree<int>, vs: seq<int>)
    requires IsSearchTree(t)
    ensures IsSearchTree(InsertAll(t, vs))
    ensures forall x :: x in Values(InsertAll(t, vs)) <==> x in Values(t) || x in vs
  {
    InsertAllKeepsOrder(t, vs);
    InsertAllValues(t, vs);
  }

  lemma {:induction false} InsertAllKeepsOrder(t: BTree<int>, vs: seq<int>)
    requires IsSearchTree(t)
    ensures IsSearchTree(InsertAll(t, vs))
    decreases |vs|
  {
    if vs != [] {
      InsertKeepsOrder(t, vs[0]);
      InsertAllKeepsOrder(Insert(t, vs[0]), vs[1..]);
    }
  }

  /** Repeated insertion, into any tree, adds exactly the inserted values. */
  lemma InsertAllValues(t: BTree<int>, vs: seq<int>)
    ensures forall x :: x in Values(InsertAll(t, vs)) <==> x in Values(t) || x in vs
  {
    forall x ensures x in Values(InsertAll(t, vs)) <==> x in Values(t) || x in vs {
      InsertAllHas(t, vs, x);
    }
  }

  lemma MemberSplit(vs: seq<int>, x: int)
    requires vs != []
    ensures x in vs <==> x == vs[0] || x in vs[1..]
  {
    assert vs == [vs[0]] + vs[1..];
  }

  /** A single insertion adds exactly the inserted value. */
  lemma InsertHas(t: BTree<int>, v: int, x: int)
    ensures x in Values(Insert(t, v)) <==> x in Values(t) || x == v
  {
    if !BstContains(t, v) {
      InsertAddsValue(t, v);
    } else {
      assert v in Values(t);
    }
  }

  /** `InsertAllValues` for one value `x`. */
  lemma {:induction false} InsertAllHas(t: BTree<int>, vs: seq<int>, x: int)
    ensures x in Values(InsertAll(t, vs)) <==> x in Values(t) || x in vs
    decreases |vs|
  {
    if vs != [] {
      var t' := Insert(t, vs[0]);
      assert InsertAll(t, vs) == InsertAll(t', vs[1..]);
      InsertAllHas(t', vs[1..], x);
      InsertHas(t, vs[0], x);
      MemberSplit(vs, x);
    }
  }

  /** A tree built by inserting values into the empty tree, as the doctests
      build theirs, is visited in order with strictly increasing values, each
      inserted value appearing. */
  lemma BuiltTreeVisitsIncreasing(vs: seq<int>)
    ensures Increasing(ValuesOf(InorderVisit(InsertAll(Nil, vs))))
    ensures forall x :: x in ValuesOf(InorderVisit(InsertAll(Nil, vs))) <==> x in vs
  {
    var t := InsertAll(Nil, vs);
    InsertAllOrdered(Nil, vs);
    InorderIncreasing(t);
    InorderValues(t);
    assert forall x :: x in ValuesOf(InorderVisit(t)) <==> x in multiset(ValuesOf(InorderVisit(t)));
  }
}

=== FILE: bt_linked_list.dfy ===
/** BinaryTree/BtLinkedList.py: binary-tree traversals and the longest
    root-to-leaf path, each returned as a freshly built linked list.

    That file carries its own copy of the linked-list class. Its `prepend`,
    `append` and `__len__` are the ones of LinkedList/LinkedList.py and are reused
    from `LinkedLists`; its `copy` and `__add__` differ and are defined here. */
module BtLinkedList {
  import opened BinaryTrees
  import opened Seqs
  import BSTQueue
  import LL = LinkedLists

  /** `copy()`: a fresh list built by appending every value reachable from
      `front`. Unlike the other copy it has no shortcut for `size == 0`. */
  function Copy<T>(l: LL.LList<T>): (r: LL.LList<T>)
    ensures LL.Valid(r) && r.vals == l.vals
  {
    LL.AppendAll(LL.Empty(), l.vals)
  }

  /** `__add__(other)`: copies of both operands, the second linked after the
      first. An operand whose `len` is 0 contributes nothing. The operands are
      lists of this class, which only ever builds valid ones. */
  function Concat<T>(a: LL.LList<T>, b: LL.LList<T>): (r: LL.LList<T>)
    requires LL.Valid(a) && LL.Valid(b)
    ensures LL.Valid(r)
    ensures r.vals == a.vals + b.vals
  {
    if LL.Len(a) == 0 then Copy(b)
    else if LL.Len(b) == 0 then Copy(a)
    else
      var c1 := Copy(a);
      var c2 := Copy(b);
      LL.LList(c1.vals + c2.vals, LL.At(|c1.vals| + c2.back.index), c1.size + c2.size)
  }

  /** A list holding just `v`: `m = LinkedList(); m.append(v)`. */
  function Single<T>(v: T): (m: LL.LList<T>)
    ensures LL.Valid(m) && m.vals == [v]
  {
    LL.Append(LL.Empty(), v).value
  }

  /** `inorder()`, with its four-way split on which children are present. */
  function Inorder<T>(t: BTree<T>): (r: LL.LList<T>)
    ensures LL.Valid(r)
  {
    match t
    case Nil => LL.Empty()
    case Node(v, l, rt) =>
      var m := Single(v);
      if rt.Nil? || l.Nil? then
        if l.Node? then Concat(Inorder(l), m)
        else if rt.Node? then Concat(m, Inorder(rt))
        else m
      else Concat(Concat(Inorder(l), m), Inorder(rt))
  }

  /** `preorder()`. */
  function Preorder<T>(t: BTree<T>): (r: LL.LList<T>)
    ensures LL.Valid(r)
  {
    match t
    case Nil => LL.Empty()
    case Node(v, l, rt) =>
      var m := Single(v);
      if rt.Nil? || l.Nil? then
        if l.Node? then Concat(m, Preorder(l))
        else if rt.Node? then Concat(m, Preorder(rt))
        else m
      else Concat(Concat(m, Preorder(l)), Preorder(rt))
  }

  /** `postorder()`. */
  function Postorder<T>(t: BTree<T>): (r: LL.LList<T>)
    ensures LL.Valid(r)
  {
    match t
    case Nil => LL.Empty()
    case Node(v, l, rt) =>
      var m := Single(v);
      if rt.Nil? || l.Nil? then
        if l.Node? then Concat(Postorder(l), m)
        else if rt.Node? then Concat(Postorder(rt), m)
        else m
      else Concat(Concat(Postorder(l), Postorder(rt)), m)
  }

  /** `longest()`: the root followed by the longer of the children's longest
      paths; on equal lengths the left one. */
  function Longest<T>(t: BTree<T>): (r: LL.LList<T>)
    ensures LL.Valid(r)
    ensures t.Node? ==> IsRootLeafPath(t, r.vals)
    ensures |r.vals| == Height(t)
  {
    match t
    case Nil => LL.Empty()
    case Node(v, l, rt) =>
      var m := Single(v);
      var a := if l.Node? then Concat(m, Longest(l)) else if rt.Node? then Concat(m, Longest(rt)) else m;
      var b := if rt.Node? then Concat(m, Longest(rt)) else a;
      if LL.Len(b) > LL.Len(a) then b else a
  }

  /** Whatever children are present, each traversal is the concatenation its
      order prescribes; the case split in BinaryTree/BtLinkedList.py only avoids recursing on `None`. */
  lemma {:induction false} InorderShape<T>(v: T, l: BTree<T>, r: BTree<T>)
    ensures Inorder(Node(v, l, r)).vals == Inorder(l).vals + [v] + Inorder(r).vals
  {
  }

  lemma {:induction false} PreorderShape<T>(v: T, l: BTree<T>, r: BTree<T>)
    ensures Preorder(Node(v, l, r)).vals == [v] + Preorder(l).vals + Preorder(r).vals
  {
  }

  lemma {:induction false} PostorderShape<T>(v: T, l: BTree<T>, r: BTree<T>)
    ensures Postorder(Node(v, l, r)).vals == Postorder(l).vals + Postorder(r).vals + [v]
  {
    var pl, pr := Postorder(l).vals, Postorder(r).vals;
    if l.Nil? && r.Nil? {
      assert pl == [] && pr == [];
      assert Postorder(Node(v, l, r)).vals == [v];
    } else if l.Nil? {
      assert pl == [];
      assert Postorder(Node(v, l, r)).vals == pr + [v];
      assert pl + pr == pr;
    } else if r.Nil? {
      assert pr == [];
      assert Postorder(Node(v, l, r)).vals == pl + [v];
      assert pl + pr == pl;
    } else {
      assert Postorder(Node(v, l, r)).vals == pl + pr + [v];
    }
  }

  /** The in-order list holds the values of the nodes `inorder_visit` visits, in
      the same order. */
  lemma {:induction false} InorderFollowsVisit<T>(t: BTree<T>)
    ensures Inorder(t).vals == ValuesOf(BSTQueue.InorderVisit(t))
  {
    match t
    case Nil =>
    case Node(v, l, r) =>
      InorderFollowsVisit(l);
      InorderFollowsVisit(r);
      InorderShape(v, l, r);
      var vl, vr := BSTQueue.InorderVisit(l), BSTQueue.InorderVisit(r);
      ValuesOfConcat(vl + [t], vr);
      ValuesOfConcat(vl, [t]);
      assert ValuesOf([t]) == [v];
  }

  /** The postorder list holds the values of the nodes `postorder_visit` visits,
      in the same order. */
  lemma {:induction false} PostorderFollowsVisit<T>(t: BTree<T>)
    ensures Postorder(t).vals == ValuesOf(BSTQueue.PostorderVisit(t))
  {
    match t
    case Nil =>
    case Node(v, l, r) =>
      PostorderFollowsVisit(l);
      PostorderFollowsVisit(r);
      PostorderShape(v, l, r);
      var pl, pr := BSTQueue.PostorderVisit(l), BSTQueue.PostorderVisit(r);
      ValuesOfConcat(pl + pr, [t]);
      ValuesOfConcat(pl, pr);
      assert ValuesOf([t]) == [v];
  }

  /** The preorder list holds the values of the preorder node list. */
  lemma {:induction false} PreorderFollowsNodes<T>(t: BTree<T>)
    ensures Preorder(t).vals == ValuesOf(Nodes(t))
  {
    match t
    case Nil =>
    case Node(v, l, r) =>
      PreorderFollowsNodes(l);
      PreorderFollowsNodes(r);
      PreorderShape(v, l, r);
      PreorderValuesSplit(t);
  }

  /** Every traversal lists each value of the tree once: its length is the node
      count and its bag of values is the tree's. */
  lemma TraversalsHoldValues<T>(t: BTree<T>)
    ensures |Preorder(t).vals| == |Inorder(t).vals| == |Postorder(t).vals| == Size(t)
    ensures multiset(Preorder(t).vals) == multiset(Inorder(t).vals) == multiset(Postorder(t).vals) == Values(t)
  {
    PreorderHoldsValues(t);
    InorderHoldsValues(t);
    PostorderHoldsValues(t);
  }

  lemma {:induction false} PreorderHoldsValues<T>(t: BTree<T>)
    ensures |Preorder(t).vals| == Size(t) && multiset(Preorder(t).vals) == Values(t)
  {
    match t
    case Nil =>
    case Node(v, l, r) =>
      PreorderHoldsValues(l);
      PreorderHoldsValues(r);
      PreorderShape(v, l, r);
  }

  lemma {:induction false} InorderHoldsValues<T>(t: BTree<T>)
    ensures |Inorder(t).vals| == Size(t) && multiset(Inorder(t).vals) == Values(t)
  {
    match t
    case Nil =>
    case Node(v, l, r) =>
      InorderHoldsValues(l);
      InorderHoldsValues(r);
      InorderShape(v, l, r);
  }

  lemma {:induction false} PostorderHoldsValues<T>(t: BTree<T>)
    ensures |Postorder(t).vals| == Size(t) && multiset(Postorder(t).vals) == Values(t)
  {
    match t
    case Nil =>
    case Node(v, l, r) =>
      PostorderHoldsValues(l);
      PostorderHoldsValues(r);
      PostorderShape(v, l, r);
  }

  /** Preorder is postorder of the mirror image, read backwards. */
  lemma {:induction false} PreorderMirrorsPostorder<T>(t: BTree<T>)
    ensures Preorder(t).vals == Reverse(Postorder(Mirror(t)).vals)
  {
    match t
    case Nil =>
    case Node(v, l, r) =>
      var ql, qr := Postorder(Mirror(l)).vals, Postorder(Mirror(r)).vals;
      assert Preorder(l).vals == Reverse(ql) && Preorder(r).vals == Reverse(qr) by {
        PreorderMirrorsPostorder(l);
        PreorderMirrorsPostorder(r);
      }
      assert Postorder(Mirror(t)).vals == qr + ql + [v] by {
        assert Mirror(t) == Node(v, Mirror(r), Mirror(l));
        PostorderShape(v, Mirror(r), Mirror(l));
      }
      PreorderShape(v, l, r);
      ReverseLast(qr, ql, v);
  }

  /** In-order of the mirror image is in-order read backwards. */
  lemma {:induction false} InorderOfMirror<T>(t: BTree<T>)
    ensures Inorder(Mirror(t)).vals == Reverse(Inorder(t).vals)
  {
    match t
    case Nil =>
    case Node(v, l, r) =>
      var il, ir := Inorder(l).vals, Inorder(r).vals;
      assert Inorder(Mirror(l)).vals == Reverse(il) && Inorder(Mirror(r)).vals == Reverse(ir) by {
        InorderOfMirror(l);
        InorderOfMirror(r);
      }
      assert Inorder(Mirror(t)).vals == Inorder(Mirror(r)).vals + [v] + Inorder(Mirror(l)).vals by {
        assert Mirror(t) == Node(v, Mirror(r), Mirror(l));
        InorderShape(v, Mirror(r), Mirror(l));
      }
      InorderShape(v, l, r);
      ReverseAround(il, v, ir);
  }

  /** No root-to-leaf path is longer than the one `longest` returns. */
  lemma LongestIsLongest<T>(t: BTree<T>, p: seq<T>)
    requires IsRootLeafPath(t, p)
    ensures |p| <= |Longest(t).vals|
  {
    PathWithinHeight(t, p);
  }

  /** When both children are present and the left one is at least as tall, the
      path goes left. */
  lemma LongestPrefersLeft<T>(v: T, l: BTree<T>, r: BTree<T>)
    requires l.Node? && r.Node? && Height(l) >= Height(r)
    ensures Longest(Node(v, l, r)).vals == [v] + Longest(l).vals
  {
  }
}

=== FILE: linked_lists.dfy ===
/** LinkedList/LinkedList.py: a singly linked list with `front`, `back` and `size`
    fields, modelled as a value.

    `vals` lists the values reachable from `front`, in order. `back` says which node
    the `back` reference denotes: none, the node at an index of the chain, or a node
    no longer on the chain (left behind by a removal). An unlinked node still points
    at its old successor, so the nodes reachable from it are some nodes of its own
    followed by a suffix of the live chain; the model records the own values and
    the chain index where they rejoin it, so that later edits to the shared nodes
    are seen from `back` as well. `size` is the stored counter, which some methods
    forget to update, so it is kept separately from `|vals|`.

    Each mutating method becomes a function from the old state to the new one; a
    method that can raise returns a `Result`. */
module LinkedLists {
  import opened Results
  import opened Seqs

  /** `Detached(own, rejoin)`: `back` is off the chain; from it one reaches the
      values `own` (the first is the node's own value) and then the chain from
      index `rejoin` on, where `rejoin == |vals|` stands for `None`. */
  datatype Back<T> = NoBack | At(index: nat) | Detached(own: seq<T>, rejoin: nat)

  datatype LList<T> = LList(vals: seq<T>, back: Back<T>, size: int)

  /** A `back` reference into the chain denotes an existing node. Every state a
      Python program can build satisfies this; it is what makes the index
      representation of `back` meaningful. */
  ghost predicate WellFormed<T>(l: LList<T>) {
    match l.back
    case NoBack => true
    case At(i) => i < |l.vals|
    case Detached(own, j) => |own| >= 1 && j <= |l.vals|
  }

  /** The values reachable from `back`, in order. */
  function BackChain<T>(l: LList<T>): seq<T>
    requires WellFormed(l)
  {
    match l.back
    case NoBack => []
    case At(i) => l.vals[i..]
    case Detached(own, j) => own + l.vals[j..]
  }

  /** The walk from `back` passes through the chain node just before index `k`,
      so it sees a change to that node's link. */
  predicate PassesBefore<T>(b: Back<T>, k: nat) {
    match b
    case NoBack => false
    case At(i) => i < k
    case Detached(_, j) => j < k
  }

  /** The walk from `back` reaches chain node `k`. */
  predicate Reaches<T>(b: Back<T>, k: nat) {
    match b
    case NoBack => false
    case At(i) => i <= k
    case Detached(_, j) => j <= k
  }

  /** The class invariant its docstring states: `size` counts the nodes and
      `back` is the last node (`None` when empty). */
  ghost predicate Valid<T>(l: LList<T>) {
    && l.size == |l.vals|
    && l.back == (if l.vals == [] then NoBack else At(|l.vals| - 1))
  }

  /** `LinkedList()`. */
  function Empty<T>(): (r: LList<T>)
    ensures Valid(r) && r.vals == [] && r.size == 0
  {
    LList([], NoBack, 0)
  }

  /** `self.front == self.back`: node equality compares values and successors
      recursively, so this asks whether the chain from `front` equals the chain
      from `back`. */
  predicate FrontIsBack<T(==)>(l: LList<T>)
    requires WellFormed(l)
  {
    l.back != NoBack && l.vals == BackChain(l)
  }

  /** The index of the first occurrence of `v`, as a walk from `front` finds it. */
  function FirstIndex<T(==)>(s: seq<T>, v: T): (j: nat)
    requires v in s
    ensures j < |s| && s[j] == v && v !in s[..j]
  {
    if s[0] == v then 0 else 1 + FirstIndex(s[1..], v)
  }

  /** `back` after the node at index `k` has been unlinked from the chain. The
      unlinked node keeps its link to the node after it, which is index `k` of the
      shortened chain. */
  function BackAfterRemoval<T>(l: LList<T>, k: nat): (b: Back<T>)
    requires WellFormed(l) && k < |l.vals|
    ensures b.At? ==> b.index < |l.vals| - 1
    ensures b.Detached? ==> |b.own| >= 1 && b.rejoin < |l.vals|
  {
    match l.back
    case NoBack => NoBack
    case At(i) => if i == k then Detached([l.vals[k]], k) else if i > k then At(i - 1) else At(i)
    case Detached(own, j) =>
      if j == k then Detached(own + [l.vals[k]], k) else if j > k then Detached(own, j - 1) else l.back
  }

  /** `back` after a node has been linked in at index `k`, just before the node
      that was there. */
  function BackAfterInsertion<T>(b: Back<T>, k: nat): Back<T> {
    match b
    case NoBack => NoBack
    case At(i) => if i >= k then At(i + 1) else At(i)
    case Detached(own, j) => if j >= k then Detached(own, j + 1) else b
  }

  /** `prepend(value)`. */
  function Prepend<T>(l: LList<T>, v: T): (r: LList<T>)
    requires WellFormed(l)
    ensures WellFormed(r)
    ensures r.vals == [v] + l.vals && r.size == l.size + 1
    ensures Valid(l) ==> Valid(r)
  {
    LList([v] + l.vals, if l.size == 0 then At(0) else BackAfterInsertion(l.back, 0), l.size + 1)
  }

  /** `append(value)`. On a list whose `size` is 0 it asserts that `front` and
      `back` are `None`; otherwise it writes through `back`, which fails when
      `back` is `None` and is lost when `back` is off the chain. */
  function Append<T>(l: LList<T>, v: T): (r: Result<LList<T>>)
    requires WellFormed(l)
    ensures r.Err? <==> (l.size == 0 && (!l.back.NoBack? || l.vals != [])) || (l.size != 0 && l.back.NoBack?)
    ensures r.Ok? ==> WellFormed(r.value) && r.value.size == l.size + 1
    ensures Valid(l) ==> r.Ok? && Valid(r.value) && r.value.vals == l.vals + [v]
  {
    if l.size == 0 then
      if l.back.NoBack? && l.vals == [] then Ok(LList([v], At(0), 1)) else Err(AssertionFailed)
    else
      match l.back
      case NoBack => Err(NoneAccess)
      case At(i) => Ok(LList(l.vals[..i + 1] + [v], At(i + 1), l.size + 1))
      case Detached(_, _) => Ok(LList(l.vals, Detached([v], |l.vals|), l.size + 1))
  }

  /** `delete_front()`: asserts a non-empty chain, clears `back` when the front
      chain equals the back chain, and decrements `size`. */
  function DeleteFront<T(==)>(l: LList<T>): (r: Result<LList<T>>)
    requires WellFormed(l)
    ensures r.Err? <==> l.vals == []
    ensures r.Err? ==> r.error == AssertionFailed
    ensures r.Ok? ==> WellFormed(r.value) && r.value.vals == l.vals[1..] && r.value.size == l.size - 1
    ensures Valid(l) && r.Ok? ==> Valid(r.value)
  {
    if l.vals == [] then Err(AssertionFailed)
    else
      var back := if FrontIsBack(l) then NoBack else BackAfterRemoval(l, 0);
      Ok(LList(l.vals[1..], back, l.size - 1))
  }

  /** The position an index denotes once the range check has passed: negative
      indices count from `size`. */
  function Position(size: int, index: int): int {
    if index < 0 then index + size else index
  }

  /** `__setitem__(index, value)`: `IndexError` unless `-size <= index < size`;
      then a walk of that many steps, asserting a node is there. */
  function SetItem<T>(l: LList<T>, index: int, v: T): (r: Result<LList<T>>)
    requires WellFormed(l)
    ensures r.Err? && r.error == IndexError <==> index >= l.size || index < -l.size
    ensures r.Ok? ==>
      var k := Position(l.size, index);
      && 0 <= k < |l.vals|
      && |r.value.vals| == |l.vals| && r.value.vals[k] == v
      && (forall j | 0 <= j < |l.vals| && j != k :: r.value.vals[j] == l.vals[j])
      && r.value.back == l.back && r.value.size == l.size
    ensures Valid(l) && -l.size <= index < l.size ==> r.Ok? && Valid(r.value)
  {
    if -l.size > index || index >= l.size then Err(IndexError)
    else
      var k := Position(l.size, index);
      if k < |l.vals| then Ok(l.(vals := l.vals[k := v])) else Err(AssertionFailed)
  }

  /** `__getitem__(index)`. Its range check lets `index == size` through; the walk
      then ends on `None` and reading `.value` fails. */
  function GetItem<T>(l: LList<T>, index: int): (r: Result<T>)
    requires WellFormed(l)
    ensures r.Ok? ==> var k := Position(l.size, index); 0 <= k < |l.vals| && r.value == l.vals[k]
    ensures Valid(l) ==>
      && (-l.size <= index < l.size <==> r.Ok?)
      && (index == l.size <==> r == Err(NoneAccess))
      && (index > l.size || index < -l.size <==> r == Err(IndexError))
  {
    if -l.size > index || index > l.size then Err(IndexError)
    else
      var k := Position(l.size, index);
      if k < |l.vals| then Ok(l.vals[k])
      else if k == |l.vals| then Err(NoneAccess)
      else Err(AssertionFailed)
  }

  /** `__contains__(value)`: walk from `front` until a node holds `value`. */
  method Contains<T(==)>(l: LList<T>, v: T) returns (found: bool)
    ensures found <==> v in l.vals
  {
    var i := 0;
    while i < |l.vals|
      invariant 0 <= i <= |l.vals|
      invariant v !in l.vals[..i]
    {
      if l.vals[i] == v {
        return true;
      }
      assert l.vals[..i + 1] == l.vals[..i] + [l.vals[i]];
      i := i + 1;
    }
    assert l.vals[..i] == l.vals;
    return false;
  }

  /** `delete_after(value)`: unlink the node after the first node holding
      `value`, if there is one, and decrement `size`. `back` is left alone, so
      when the unlinked node was the last one `back` now denotes a node off the
      chain. On a list whose `size` is 0 it asserts `front` and `back` are `None`. */
  function DeleteAfter<T(==)>(l: LList<T>, v: T): (r: Result<LList<T>>)
    requires WellFormed(l)
    ensures r.Err? <==> l.size == 0 && (!l.back.NoBack? || l.vals != [])
    ensures r.Ok? ==> WellFormed(r.value)
    ensures r.Ok? && l.size != 0 && v in l.vals && FirstIndex(l.vals, v) + 1 < |l.vals| ==>
      var j := FirstIndex(l.vals, v);
      && r.value.vals == l.vals[..j + 1] + l.vals[j + 2..]
      && r.value.size == l.size - 1
    ensures r.Ok? && (l.size == 0 || v !in l.vals || FirstIndex(l.vals, v) == |l.vals| - 1) ==> r.value == l
  {
    if l.size != 0 then
      if v in l.vals then
        var j := FirstIndex(l.vals, v);
        if j + 1 < |l.vals| then
          Ok(LList(l.vals[..j + 1] + l.vals[j + 2..], BackAfterRemoval(l, j + 1), l.size - 1))
        else Ok(l)
      else Ok(l)
    else if l.back.NoBack? && l.vals == [] then Ok(l)
    else Err(AssertionFailed)
  }

  /** `insert_before(value1, value2)`: put `value1` just before the first
      `value2`. When `size` is 1 or the front holds `value2` it calls `prepend`,
      so a stale `size` of 1 on a longer chain puts `value1` in front even when
      `value2` lies further on; otherwise it links a node in by hand and does not
      touch `size`. */
  function InsertBefore<T(==)>(l: LList<T>, v1: T, v2: T): (r: LList<T>)
    requires WellFormed(l)
    ensures WellFormed(r)
    ensures v2 !in l.vals ==> r == l
    ensures v2 in l.vals && l.size != 1 ==>
      var j := FirstIndex(l.vals, v2);
      r.vals == l.vals[..j] + [v1] + l.vals[j..]
    ensures v2 in l.vals && (l.size == 1 || l.vals[0] == v2) ==>
      r.vals == [v1] + l.vals && r.size == l.size + 1
    ensures v2 in l.vals && l.size != 1 && l.vals[0] != v2 ==> r.size == l.size
  {
    if v2 in l.vals then
      if l.size == 1 || l.vals[0] == v2 then Prepend(l, v1)
      else
        var j := FirstIndex(l.vals, v2);
        LList(l.vals[..j] + [v1] + l.vals[j..], BackAfterInsertion(l.back, j), l.size)
    else l
  }

  /** Append each value of `s` in turn, as the copying loops do. */
  function AppendAll<T>(acc: LList<T>, s: seq<T>): (r: LList<T>)
    requires Valid(acc)
    ensures Valid(r) && r.vals == acc.vals + s
    decreases |s|
  {
    if s == [] then acc
    else
      var next := Append(acc, s[0]).value;
      assert acc.vals + s == next.vals + s[1..];
      AppendAll(next, s[1..])
  }

  /** `copy()`: a fresh list built by appending every value reachable from
      `front`; a list whose `size` is 0 copies as empty. */
  function Copy<T>(l: LList<T>): (r: LList<T>)
    ensures Valid(r)
    ensures r.vals == (if l.size == 0 then [] else l.vals)
  {
    if l.size == 0 then Empty() else AppendAll(Empty(), l.vals)
  }

  /** `__add__(other)`: an operand with an empty chain yields the other operand
      itself; otherwise a fresh list of both chains' values. */
  function Concat<T>(a: LList<T>, b: LList<T>): (r: LList<T>)
    ensures r.vals == a.vals + b.vals
    ensures a.vals != [] && b.vals != [] ==> Valid(r)
    ensures Valid(a) && Valid(b) ==> Valid(r) && r.size == a.size + b.size
  {
    if a.vals == [] then b
    else if b.vals == [] then a
    else AppendAll(AppendAll(Empty(), a.vals), b.vals)
  }

  /** Some value is immediately followed by an equal one. */
  predicate HasDouble<T(==)>(s: seq<T>) {
    exists j :: 0 <= j < |s| - 1 && s[j] == s[j + 1]
  }

  /** The first index whose value equals its successor's. */
  function FirstDouble<T(==)>(s: seq<T>): (j: nat)
    requires HasDouble(s)
    ensures j < |s| - 1 && s[j] == s[j + 1]
    ensures forall i | 0 <= i < j :: s[i] != s[i + 1]
  {
    if s[0] == s[1] then 0
    else
      assert HasDouble(s[1..]) by {
        var j :| 0 <= j < |s| - 1 && s[j] == s[j + 1];
        assert j > 0 && s[1..][j - 1] == s[1..][j];
      }
      1 + FirstDouble(s[1..])
  }

  /** `remove_first_double()`: walk pairs of neighbours until two hold equal
      values and unlink the second; the walk runs off the end (reading a field of
      `None`) when there is no such pair. If the unlinked node was last, `back`
      moves to its predecessor. */
  function RemoveFirstDouble<T(==)>(l: LList<T>): (r: Result<LList<T>>)
    requires WellFormed(l)
    ensures r.Err? <==> !HasDouble(l.vals)
    ensures r.Err? ==> r.error == NoneAccess
    ensures r.Ok? ==>
      var j := FirstDouble(l.vals);
      && WellFormed(r.value)
      && r.value.vals == l.vals[..j + 1] + l.vals[j + 2..]
      && r.value.size == l.size - 1
    ensures Valid(l) && r.Ok? ==> Valid(r.value)
    ensures r.Ok? && FirstDouble(l.vals) + 2 == |l.vals| ==> r.value.back == At(FirstDouble(l.vals))
  {
    if l.vals == [] then Err(NoneAccess)
    else if !HasDouble(l.vals) then Err(NoneAccess)
    else
      var j := FirstDouble(l.vals);
      var back := if j + 2 == |l.vals| then At(j) else BackAfterRemoval(l, j + 1);
      Ok(LList(l.vals[..j + 1] + l.vals[j + 2..], back, l.size - 1))
  }

  /** `__len__()`: the stored counter, which is the node count on a valid list. */
  function Len<T>(l: LList<T>): (n: int)
    ensures Valid(l) ==> n == |l.vals|
  {
    l.size
  }

  /** Where chain node `k` sits in the walk from `back`, counted from `back`,
      when that walk reaches it: the chain suffix from `k` ends the walk. */
  function BackOffset<T>(l: LList<T>, k: nat): int
    requires WellFormed(l)
  {
    |BackChain(l)| - (|l.vals| - k)
  }

  /** Unlinking chain node `k` is seen from `back` exactly when the walk from
      `back` goes through its predecessor; the node then drops out of that walk
      too. Otherwise `back` still reaches the same values, including when `back`
      is the unlinked node itself. */
  lemma UnlinkSeenFromBack<T>(l: LList<T>, k: nat)
    requires WellFormed(l) && k < |l.vals|
    ensures var r := LList(l.vals[..k] + l.vals[k + 1..], BackAfterRemoval(l, k), l.size);
      && WellFormed(r)
      && (PassesBefore(l.back, k) ==>
            var d := BackOffset(l, k);
            0 <= d < |BackChain(l)| && BackChain(r) == BackChain(l)[..d] + BackChain(l)[d + 1..])
      && (!PassesBefore(l.back, k) ==> BackChain(r) == BackChain(l))
  {
    if l.back.At? {
      UnlinkSeenFromAt(l, k);
    } else if l.back.Detached? {
      UnlinkSeenFromDetached(l, k);
    }
  }

  lemma UnlinkSeenFromAt<T>(l: LList<T>, k: nat)
    requires WellFormed(l) && k < |l.vals| && l.back.At?
    ensures var r := LList(l.vals[..k] + l.vals[k + 1..], BackAfterRemoval(l, k), l.size);
      && WellFormed(r)
      && (PassesBefore(l.back, k) ==>
            var d := BackOffset(l, k);
            0 <= d < |BackChain(l)| && BackChain(r) == BackChain(l)[..d] + BackChain(l)[d + 1..])
      && (!PassesBefore(l.back, k) ==> BackChain(r) == BackChain(l))
  {
    var r := LList(l.vals[..k] + l.vals[k + 1..], BackAfterRemoval(l, k), l.size);
    var i := l.back.index;
    UnlinkInSuffix([], l.vals, i, k);
    if i < k {
      assert r.back == At(i) && BackChain(r) == [] + r.vals[i..];
      assert BackOffset(l, k) == k - i;
    } else if i == k {
      assert r.back == Detached([l.vals[k]], k);
      assert BackChain(r) == ([] + [l.vals[k]]) + r.vals[k..];
    } else {
      assert r.back == At(i - 1) && BackChain(r) == [] + r.vals[i - 1..];
    }
  }

  lemma UnlinkSeenFromDetached<T>(l: LList<T>, k: nat)
    requires WellFormed(l) && k < |l.vals| && l.back.Detached?
    ensures var r := LList(l.vals[..k] + l.vals[k + 1..], BackAfterRemoval(l, k), l.size);
      && WellFormed(r)
      && (PassesBefore(l.back, k) ==>
            var d := BackOffset(l, k);
            0 <= d < |BackChain(l)| && BackChain(r) == BackChain(l)[..d] + BackChain(l)[d + 1..])
      && (!PassesBefore(l.back, k) ==> BackChain(r) == BackChain(l))
  {
    var r := LList(l.vals[..k] + l.vals[k + 1..], BackAfterRemoval(l, k), l.size);
    var own, j := l.back.own, l.back.rejoin;
    UnlinkInSuffix(own, l.vals, j, k);
    if j < k {
      assert r.back == Detached(own, j) && BackChain(r) == own + r.vals[j..];
      assert BackOffset(l, k) == |own| + k - j;
    } else if j == k {
      assert r.back == Detached(own + [l.vals[k]], k);
      assert BackChain(r) == (own + [l.vals[k]]) + r.vals[k..];
    } else {
      assert r.back == Detached(own, j - 1) && BackChain(r) == own + r.vals[j - 1..];
    }
  }

  /** The walk `p + vals[j..]` after chain node `k` is unlinked: node `k` drops
      out when the walk joins the chain before it, and the walk is unchanged
      when it joins at `k` or later (joining at `k` now goes through the
      unlinked node, which keeps its link). */
  lemma UnlinkInSuffix<T>(p: seq<T>, vals: seq<T>, j: nat, k: nat)
    requires j <= |vals| && k < |vals|
    ensures var vs := vals[..k] + vals[k + 1..]; var c := p + vals[j..];
      && (j < k ==> p + vs[j..] == c[..|p| + k - j] + c[|p| + k - j + 1..])
      && (j == k ==> (p + [vals[k]]) + vs[k..] == c)
      && (j > k ==> p + vs[j - 1..] == c)
  {
    if j < k {
      UnlinkAhead(p, vals, j, k);
    } else if j == k {
      assert vals[k..] == [vals[k]] + vals[k + 1..];
      assert (vals[..k] + vals[k + 1..])[k..] == vals[k + 1..];
    } else {
      assert (vals[..k] + vals[k + 1..])[j - 1..] == vals[j..];
    }
  }

  lemma UnlinkAhead<T>(p: seq<T>, vals: seq<T>, j: nat, k: nat)
    requires j < k < |vals|
    ensures var c := p + vals[j..];
      p + (vals[..k] + vals[k + 1..])[j..] == c[..|p| + k - j] + c[|p| + k - j + 1..]
  {
    var c := p + vals[j..];
    assert (vals[..k] + vals[k + 1..])[j..] == vals[j..k] + vals[k + 1..];
    assert c[..|p| + k - j] == p + vals[j..k];
    assert c[|p| + k - j + 1..] == vals[k + 1..];
  }

  /** Linking a node holding `v` in before chain node `k` is seen from `back`
      exactly when the walk from `back` goes through the predecessor whose link
      changes. */
  lemma LinkSeenFromBack<T>(l: LList<T>, k: nat, v: T)
    requires WellFormed(l) && k < |l.vals|
    ensures var r := LList(l.vals[..k] + [v] + l.vals[k..], BackAfterInsertion(l.back, k), l.size);
      && WellFormed(r)
      && (PassesBefore(l.back, k) ==>
            var d := BackOffset(l, k);
            0 <= d < |BackChain(l)| && BackChain(r) == BackChain(l)[..d] + [v] + BackChain(l)[d..])
      && (!PassesBefore(l.back, k) ==> BackChain(r) == BackChain(l))
  {
    if l.back.At? {
      LinkSeenFromAt(l, k, v);
    } else if l.back.Detached? {
      LinkSeenFromDetached(l, k, v);
    }
  }

  lemma LinkSeenFromAt<T>(l: LList<T>, k: nat, v: T)
    requires WellFormed(l) && k < |l.vals| && l.back.At?
    ensures var r := LList(l.vals[..k] + [v] + l.vals[k..], BackAfterInsertion(l.back, k), l.size);
      && WellFormed(r)
      && (PassesBefore(l.back, k) ==>
            var d := BackOffset(l, k);
            0 <= d < |BackChain(l)| && BackChain(r) == BackChain(l)[..d] + [v] + BackChain(l)[d..])
      && (!PassesBefore(l.back, k) ==> BackChain(r) == BackChain(l))
  {
    var r := LList(l.vals[..k] + [v] + l.vals[k..], BackAfterInsertion(l.back, k), l.size);
    var i := l.back.index;
    LinkInSuffix([], l.vals, i, k, v);
    if i < k {
      assert r.back == At(i) && BackChain(r) == [] + r.vals[i..];
      assert BackOffset(l, k) == k - i;
    } else {
      assert r.back == At(i + 1) && BackChain(r) == [] + r.vals[i + 1..];
    }
  }

  lemma LinkSeenFromDetached<T>(l: LList<T>, k: nat, v: T)
    requires WellFormed(l) && k < |l.vals| && l.back.Detached?
    ensures var r := LList(l.vals[..k] + [v] + l.vals[k..], BackAfterInsertion(l.back, k), l.size);
      && WellFormed(r)
      && (PassesBefore(l.back, k) ==>
            var d := BackOffset(l, k);
            0 <= d < |BackChain(l)| && BackChain(r) == BackChain(l)[..d] + [v] + BackChain(l)[d..])
      && (!PassesBefore(l.back, k) ==> BackChain(r) == BackChain(l))
  {
    var r := LList(l.vals[..k] + [v] + l.vals[k..], BackAfterInsertion(l.back, k), l.size);
    var own, j := l.back.own, l.back.rejoin;
    LinkInSuffix(own, l.vals, j, k, v);
    if j < k {
      assert r.back == Detached(own, j) && BackChain(r) == own + r.vals[j..];
      assert BackOffset(l, k) == |own| + k - j;
    } else {
      assert r.back == Detached(own, j + 1) && BackChain(r) == own + r.vals[j + 1..];
    }
  }

  /** The walk `p + vals[j..]` after a node holding `v` is linked in before
      chain node `k`. */
  lemma LinkInSuffix<T>(p: seq<T>, vals: seq<T>, j: nat, k: nat, v: T)
    requires j <= |vals| && k < |vals|
    ensures var vs := vals[..k] + [v] + vals[k..]; var c := p + vals[j..];
      && (j < k ==> p + vs[j..] == c[..|p| + k - j] + [v] + c[|p| + k - j..])
      && (j >= k ==> p + vs[j + 1..] == c)
  {
    var vs := vals[..k] + [v] + vals[k..];
    var c := p + vals[j..];
    if j < k {
      assert vs[j..] == vals[j..k] + [v] + vals[k..];
      assert c[..|p| + k - j] == p + vals[j..k];
      assert c[|p| + k - j..] == vals[k..];
    } else {
      assert vs[j + 1..] == vals[j..];
    }
  }

  /** Writing the value of chain node `k` is seen from `back` exactly when the
      walk from `back` reaches that node. */
  lemma WriteSeenFromBack<T>(l: LList<T>, k: nat, v: T)
    requires WellFormed(l) && k < |l.vals|
    ensures var r := l.(vals := l.vals[k := v]);
      && WellFormed(r)
      && (Reaches(l.back, k) ==>
            var d := BackOffset(l, k);
            0 <= d < |BackChain(l)| && BackChain(r) == BackChain(l)[d := v])
      && (!Reaches(l.back, k) ==> BackChain(r) == BackChain(l))
  {
    var vs := l.vals[k := v];
    match l.back
    case NoBack =>
    case At(i) =>
      if i > k {
        assert vs[i..] == l.vals[i..];
      }
    case Detached(own, j) =>
      if j > k {
        assert vs[j..] == l.vals[j..];
      }
  }

  /** `delete_after` unlinks a node that a `back` off the chain may still reach
      through shared successors; the walk from `back` follows the relinking. */
  lemma DeleteAfterSeenFromBack<T>(l: LList<T>, v: T)
    requires WellFormed(l) && l.size != 0 && v in l.vals && FirstIndex(l.vals, v) + 1 < |l.vals|
    ensures var k := FirstIndex(l.vals, v) + 1;
      var r := DeleteAfter(l, v).value;
      && (PassesBefore(l.back, k) ==>
            BackChain(r) == BackChain(l)[..BackOffset(l, k)] + BackChain(l)[BackOffset(l, k) + 1..])
      && (!PassesBefore(l.back, k) ==> BackChain(r) == BackChain(l))
  {
    UnlinkedAt(l, FirstIndex(l.vals, v) + 1, DeleteAfter(l, v).value);
  }

  /** `remove_first_double` unlinks the second node of the first equal pair.
      When that node was last, `back` moves to its predecessor, the new last
      node, whatever it denoted before; otherwise the walk from `back` follows
      the relinking. */
  lemma RemoveFirstDoubleSeenFromBack<T>(l: LList<T>)
    requires WellFormed(l) && HasDouble(l.vals)
    ensures var k := FirstDouble(l.vals) + 1;
      var r := RemoveFirstDouble(l).value;
      && (k + 1 == |l.vals| ==> BackChain(r) == [l.vals[k - 1]])
      && (k + 1 < |l.vals| && PassesBefore(l.back, k) ==>
            BackChain(r) == BackChain(l)[..BackOffset(l, k)] + BackChain(l)[BackOffset(l, k) + 1..])
      && (k + 1 < |l.vals| && !PassesBefore(l.back, k) ==> BackChain(r) == BackChain(l))
  {
    var j := FirstDouble(l.vals);
    if j + 2 < |l.vals| {
      RemoveFirstDoubleUnlinks(l);
      UnlinkedAt(l, j + 1, RemoveFirstDouble(l).value);
    } else {
      var r := RemoveFirstDouble(l).value;
      assert r.back == At(j);
      assert r.vals[j..] == [l.vals[j]];
    }
  }

  lemma RemoveFirstDoubleUnlinks<T>(l: LList<T>)
    requires WellFormed(l) && HasDouble(l.vals) && FirstDouble(l.vals) + 2 < |l.vals|
    ensures var j := FirstDouble(l.vals);
      RemoveFirstDouble(l)
        == Ok(LList(l.vals[..j + 1] + l.vals[j + 1 + 1..], BackAfterRemoval(l, j + 1), l.size - 1))
  {
  }

  /** `UnlinkSeenFromBack` for any list holding the shortened chain and the
      moved `back`, whatever its counter. */
  lemma UnlinkedAt<T>(l: LList<T>, k: nat, r: LList<T>)
    requires WellFormed(l) && k < |l.vals|
    requires r.vals == l.vals[..k] + l.vals[k + 1..] && r.back == BackAfterRemoval(l, k)
    ensures WellFormed(r)
    ensures PassesBefore(l.back, k) ==>
      var d := BackOffset(l, k);
      0 <= d < |BackChain(l)| && BackChain(r) == BackChain(l)[..d] + BackChain(l)[d + 1..]
    ensures !PassesBefore(l.back, k) ==> BackChain(r) == BackChain(l)
  {
    var u := LList(r.vals, r.back, l.size);
    UnlinkSeenFromBack(l, k);
    assert r == u.(size := r.size);
    BackChainIgnoresSize(u, r.size);
  }

  /** `LinkSeenFromBack` for any list holding the lengthened chain and the
      moved `back`, whatever its counter. */
  lemma LinkedAt<T>(l: LList<T>, k: nat, v: T, r: LList<T>)
    requires WellFormed(l) && k < |l.vals|
    requires r.vals == l.vals[..k] + [v] + l.vals[k..] && r.back == BackAfterInsertion(l.back, k)
    ensures WellFormed(r)
    ensures PassesBefore(l.back, k) ==>
      var d := BackOffset(l, k);
      0 <= d < |BackChain(l)| && BackChain(r) == BackChain(l)[..d] + [v] + BackChain(l)[d..]
    ensures !PassesBefore(l.back, k) ==> BackChain(r) == BackChain(l)
  {
    var u := LList(r.vals, r.back, l.size);
    LinkSeenFromBack(l, k, v);
    assert r == u.(size := r.size);
    BackChainIgnoresSize(u, r.size);
  }

  /** The walk from `back` does not read the `size` counter. */
  lemma BackChainIgnoresSize<T>(l: LList<T>, n: int)
    requires WellFormed(l)
    ensures BackChain(l.(size := n)) == BackChain(l)
  {
  }

  /** `delete_front` changes no link, so `back` reaches the same values unless it
      is cleared. */
  lemma DeleteFrontSeenFromBack<T>(l: LList<T>)
    requires WellFormed(l) && l.vals != []
    ensures FrontIsBack(l) ==> DeleteFront(l).value.back == NoBack
    ensures !FrontIsBack(l) ==> BackChain(DeleteFront(l).value) == BackChain(l)
  {
    if !FrontIsBack(l) {
      assert l.vals[..0] + l.vals[0 + 1..] == l.vals[1..];
      UnlinkedAt(l, 0, DeleteFront(l).value);
    }
  }

  /** The hand-linked branch of `insert_before` changes the link of a node that
      a `back` off the chain may share. `prepend` changes no existing link, but
      on a counter of 0 it moves `back` to the new front node. */
  lemma InsertBeforeSeenFromBack<T>(l: LList<T>, v1: T, v2: T)
    requires WellFormed(l) && v2 in l.vals
    ensures var k := FirstIndex(l.vals, v2);
      var r := InsertBefore(l, v1, v2);
      && (l.size == 0 && l.vals[0] == v2 ==> BackChain(r) == [v1] + l.vals)
      && (l.size != 0 && (l.size == 1 || l.vals[0] == v2) ==> BackChain(r) == BackChain(l))
      && (l.size != 1 && l.vals[0] != v2 && !PassesBefore(l.back, k) ==> BackChain(r) == BackChain(l))
      && (l.size != 1 && l.vals[0] != v2 && PassesBefore(l.back, k) ==>
            BackChain(r) == BackChain(l)[..BackOffset(l, k)] + [v1] + BackChain(l)[BackOffset(l, k)..])
  {
    if l.size == 0 && l.vals[0] == v2 {
      assert InsertBefore(l, v1, v2) == LList([v1] + l.vals, At(0), 1);
    } else if l.size == 1 || l.vals[0] == v2 {
      assert l.vals[..0] + [v1] + l.vals[0..] == [v1] + l.vals;
      LinkedAt(l, 0, v1, InsertBefore(l, v1, v2));
    } else {
      LinkSeenFromBack(l, FirstIndex(l.vals, v2), v1);
    }
  }

  /** `__setitem__` writes a node that `back` sees exactly when its walk reaches
      that node. */
  lemma SetItemSeenFromBack<T>(l: LList<T>, index: int, v: T)
    requires WellFormed(l) && SetItem(l, index, v).Ok?
    ensures var k := Position(l.size, index);
      var r := SetItem(l, index, v).value;
      && (Reaches(l.back, k) ==> BackChain(r) == BackChain(l)[BackOffset(l, k) := v])
      && (!Reaches(l.back, k) ==> BackChain(r) == BackChain(l))
  {
    WriteSeenFromBack(l, Position(l.size, index), v);
  }

  /** `append` moves `back` to the new last node, whatever it denoted before. */
  lemma AppendMovesBack<T>(l: LList<T>, v: T)
    requires WellFormed(l) && Append(l, v).Ok?
    ensures BackChain(Append(l, v).value) == [v]
  {
  }

  /** A run of operations in which `back` is left off the chain, still shares
      nodes with it, and sees a later unlinking. On `[5, 5, 3, 3, 2]` with `size` 2
      and `back` on the second 5, `delete_after(5)` unlinks that node, which still
      leads to `3, 3, 2`; `remove_first_double` then unlinks a shared 3, so the
      walk from `back` equals the walk from `front`; `delete_front` therefore
      clears `back`, and `append` reads `None`. */
  lemma SharedBackFollowsUnlinking()
    ensures DeleteAfter(LList([5, 5, 3, 3, 2], At(1), 2), 5) == Ok(LList([5, 3, 3, 2], Detached([5], 1), 1))
    ensures BackChain(LList([5, 3, 3, 2], Detached([5], 1), 1)) == [5, 3, 3, 2]
    ensures RemoveFirstDouble(LList([5, 3, 3, 2], Detached([5], 1), 1)) == Ok(LList([5, 3, 2], Detached([5], 1), 0))
    ensures BackChain(LList([5, 3, 2], Detached([5], 1), 0)) == [5, 3, 2]
    ensures DeleteFront(LList([5, 3, 2], Detached([5], 1), 0)) == Ok(LList([3, 2], NoBack, -1))
    ensures Append(LList([3, 2], NoBack, -1), 6) == Err(NoneAccess)
  {
    SharedStepDeleteAfter();
    SharedStepRemoveDouble();
    SharedStepDeleteFront();
    SharedStepEnds();
  }

  lemma SharedStepEnds()
    ensures BackChain(LList([5, 3, 3, 2], Detached([5], 1), 1)) == [5, 3, 3, 2]
    ensures BackChain(LList([5, 3, 2], Detached([5], 1), 0)) == [5, 3, 2]
    ensures Append(LList([3, 2], NoBack, -1), 6) == Err(NoneAccess)
  {
    assert [5, 3, 3, 2][1..] == [3, 3, 2];
    assert [5, 3, 2][1..] == [3, 2];
  }

  lemma SharedStepDeleteAfter()
    ensures DeleteAfter(LList([5, 5, 3, 3, 2], At(1), 2), 5) == Ok(LList([5, 3, 3, 2], Detached([5], 1), 1))
  {
    var l := LList([5, 5, 3, 3, 2], At(1), 2);
    assert FirstIndex(l.vals, 5) == 0;
    assert l.vals[..1] + l.vals[2..] == [5, 3, 3, 2];
  }

  lemma SharedStepRemoveDouble()
    ensures RemoveFirstDouble(LList([5, 3, 3, 2], Detached([5], 1), 1)) == Ok(LList([5, 3, 2], Detached([5], 1), 0))
  {
    var a: seq<int> := [5, 3, 3, 2];
    assert a[1..] == [3, 3, 2] && a[1..][0] == a[1..][1];
    assert HasDouble(a[1..]);
    assert FirstDouble(a) == 1;
    assert a[..2] + a[3..] == [5, 3, 2];
  }

  lemma SharedStepDeleteFront()
    ensures DeleteFront(LList([5, 3, 2], Detached([5], 1), 0)) == Ok(LList([3, 2], NoBack, -1))
  {
    var b := LList([5, 3, 2], Detached([5], 1), 0);
    assert b.vals[1..] == [3, 2];
    assert FrontIsBack(b);
  }

  /** A hand-linked insertion into nodes that an unlinked `back` shares: with
      `back` reaching `5, 3, 3, 2` from off the chain `[5, 3, 3, 2]`, `prepend(7)`
      and `insert_before(9, 2)` make `back` reach `5, 3, 3, 9, 2`. */
  lemma SharedBackSeesInsertion()
    ensures Prepend(LList([5, 3, 3, 2], Detached([5], 1), 1), 7) == LList([7, 5, 3, 3, 2], Detached([5], 2), 2)
    ensures InsertBefore(LList([7, 5, 3, 3, 2], Detached([5], 2), 2), 9, 2).back == Detached([5], 2)
    ensures InsertBefore(LList([7, 5, 3, 3, 2], Detached([5], 2), 2), 9, 2).vals == [7, 5, 3, 3, 9, 2]
    ensures BackChain(LList([7, 5, 3, 3, 9, 2], Detached([5], 2), 2)) == [5, 3, 3, 9, 2]
  {
    var l := LList([7, 5, 3, 3, 2], Detached([5], 2), 2);
    assert FirstIndex(l.vals, 2) == 4 by {
      assert l.vals[1..][1..][1..][1..] == [2];
    }
    assert l.vals[..4] + [9] + l.vals[4..] == [7, 5, 3, 3, 9, 2];
    assert [7, 5, 3, 3, 9, 2][2..] == [3, 3, 9, 2];
  }

  /** The state that run starts from is reached from an empty list:
      `append(1)`, `append(2)`, `insert_before(3, 2)` twice, `insert_before(4, 3)`,
      `delete_front()` twice, then `prepend(5)` twice. The hand-linked insertions
      leave `size` short, which is what lets `back` end up inside the chain after
      the deletions. */
  lemma SharedBackStartReached()
    ensures InsertBefore(InsertBefore(Append(Append(Empty(), 1).value, 2).value, 3, 2), 3, 2)
         == LList([1, 3, 3, 2], At(3), 2)
    ensures InsertBefore(LList([1, 3, 3, 2], At(3), 2), 4, 3) == LList([1, 4, 3, 3, 2], At(4), 2)
    ensures DeleteFront(LList([1, 4, 3, 3, 2], At(4), 2)) == Ok(LList([4, 3, 3, 2], At(3), 1))
    ensures DeleteFront(LList([4, 3, 3, 2], At(3), 1)) == Ok(LList([3, 3, 2], At(2), 0))
    ensures Prepend(Prepend(LList([3, 3, 2], At(2), 0), 5), 5) == LList([5, 5, 3, 3, 2], At(1), 2)
  {
    InsertionsMiscount();
    StartStepInsert();
    StartStepDeleteFront();
    StartStepPrepend();
  }

  lemma StartStepPrepend()
    ensures Prepend(Prepend(LList([3, 3, 2], At(2), 0), 5), 5) == LList([5, 5, 3, 3, 2], At(1), 2)
  {
  }

  lemma StartStepInsert()
    ensures InsertBefore(LList([1, 3, 3, 2], At(3), 2), 4, 3) == LList([1, 4, 3, 3, 2], At(4), 2)
  {
    assert FirstIndex([1, 3, 3, 2], 3) == 1;
  }

  lemma StartStepDeleteFront()
    ensures DeleteFront(LList([1, 4, 3, 3, 2], At(4), 2)) == Ok(LList([4, 3, 3, 2], At(3), 1))
    ensures DeleteFront(LList([4, 3, 3, 2], At(3), 1)) == Ok(LList([3, 3, 2], At(2), 0))
  {
    var a := LList([1, 4, 3, 3, 2], At(4), 2);
    assert a.vals[4..] == [2] && !FrontIsBack(a);
    var b := LList([4, 3, 3, 2], At(3), 1);
    assert b.vals[3..] == [2] && !FrontIsBack(b);
  }

  /** The first insertions of that run: two hand-linked insertions before 2. */
  lemma InsertionsMiscount()
    ensures InsertBefore(InsertBefore(Append(Append(Empty(), 1).value, 2).value, 3, 2), 3, 2)
         == LList([1, 3, 3, 2], At(3), 2)
  {
    MiscountStepAppends();
    MiscountStepFirst();
    MiscountStepSecond();
  }

  lemma MiscountStepAppends()
    ensures Append(Append(Empty(), 1).value, 2).value == LList([1, 2], At(1), 2)
  {
  }

  lemma MiscountStepFirst()
    ensures InsertBefore(LList([1, 2], At(1), 2), 3, 2) == LList([1, 3, 2], At(2), 2)
  {
    assert FirstIndex([1, 2], 2) == 1;
  }

  lemma MiscountStepSecond()
    ensures InsertBefore(LList([1, 3, 2], At(2), 2), 3, 2) == LList([1, 3, 3, 2], At(3), 2)
  {
    var t := [1, 3, 2];
    assert FirstIndex(t, 2) == 2 by {
      assert t[1..] == [3, 2] && t[1..][1..] == [2];
    }
  }

  /** Removing the front undoes `prepend` on a valid list. */
  lemma DeleteFrontUndoesPrepend<T>(l: LList<T>, v: T)
    requires Valid(l)
    ensures DeleteFront(Prepend(l, v)) == Ok(l)
  {
    var p := Prepend(l, v);
    if l.vals != [] {
      assert |p.vals[|l.vals|..]| == 1 < |p.vals|;
      assert !FrontIsBack(p);
      assert p.vals[1..] == l.vals;
    }
  }

  /** After `append(v)` the last position, by either index, holds `v`. */
  lemma AppendThenGetLast<T>(l: LList<T>, v: T)
    requires Valid(l)
    ensures GetItem(Append(l, v).value, |l.vals|) == Ok(v)
    ensures GetItem(Append(l, v).value, -1) == Ok(v)
  {
  }

  /** Writing a position and reading it back gives the written value, and the
      other positions read as before. */
  lemma SetThenGet<T>(l: LList<T>, index: int, v: T, other: int)
    requires Valid(l) && -l.size <= index < l.size && -l.size <= other < l.size
    ensures GetItem(SetItem(l, index, v).value, index) == Ok(v)
    ensures Position(l.size, other) != Position(l.size, index) ==>
      GetItem(SetItem(l, index, v).value, other) == GetItem(l, other)
  {
  }

  /** Both copying operations produce a valid list with the same values. */
  lemma CopyKeepsValues<T>(l: LList<T>)
    requires Valid(l)
    ensures Copy(l).vals == l.vals && Valid(Copy(l)) && Len(Copy(l)) == Len(l)
  {
  }

  /** `delete_after` as written: when the node it unlinks was the last one, the
      list is no longer valid, because `back` still denotes the unlinked node. */
  lemma DeleteAfterStaleBack<T>(l: LList<T>, v: T)
    requires Valid(l) && v in l.vals && FirstIndex(l.vals, v) == |l.vals| - 2
    ensures DeleteAfter(l, v).Ok?
    ensures DeleteAfter(l, v).value.back.Detached?
    ensures !Valid(DeleteAfter(l, v).value)
  {
  }

  /** Concretely: on `[1, 2]`, `delete_after(1)` then `append(3)` leaves the chain
      `[1]`, with the appended value unreachable and `size` 2. */
  lemma DeleteAfterLosesAppend()
    ensures var d := DeleteAfter(LList([1, 2], At(1), 2), 1).value;
      var a := Append(d, 3).value;
      a.vals == [1] && a.size == 2
  {
    var l := LList([1, 2], At(1), 2);
    assert FirstIndex(l.vals, 1) == 0;
    assert l.vals[..1] + l.vals[2..] == [1];
  }

  /** `delete_after` with `back` moved to the predecessor when the last node is
      unlinked, which keeps the class invariant. */
  function DeleteAfterKeepingBack<T(==)>(l: LList<T>, v: T): (r: Result<LList<T>>)
    requires WellFormed(l)
    ensures Valid(l) ==> r.Ok? && Valid(r.value)
    ensures r.Ok? && DeleteAfter(l, v).Ok? ==> r.value.vals == DeleteAfter(l, v).value.vals
  {
    match DeleteAfter(l, v)
    case Err(e) => Err(e)
    case Ok(d) =>
      if d.back.Detached? && d.vals != [] then Ok(d.(back := At(|d.vals| - 1))) else Ok(d)
  }

  /** `insert_before` as written: when it links the node in by hand, `size` is not
      incremented, so `__len__` undercounts. */
  lemma InsertBeforeMiscounts<T>(l: LList<T>, v1: T, v2: T)
    requires Valid(l) && v2 in l.vals && |l.vals| >= 2 && l.vals[0] != v2
    ensures Len(InsertBefore(l, v1, v2)) == |InsertBefore(l, v1, v2).vals| - 1
    ensures !Valid(InsertBefore(l, v1, v2))
  {
  }

  /** The undercount then misroutes a later insertion: on `[1, 3]`,
      `insert_before(2, 3)` and `delete_front()` leave the chain `[2, 3]` with
      `size` 1, and `insert_before(9, 3)` puts 9 in front instead of before 3. */
  lemma InsertBeforeAfterMiscount()
    ensures var a := InsertBefore(LList([1, 3], At(1), 2), 2, 3);
      && a.vals == [1, 2, 3] && a.size == 2
      && DeleteFront(a).Ok?
      && DeleteFront(a).value.vals == [2, 3] && DeleteFront(a).value.size == 1
      && InsertBefore(DeleteFront(a).value, 9, 3).vals == [9, 2, 3]
  {
    var a := InsertBefore(LList([1, 3], At(1), 2), 2, 3);
    assert FirstIndex([1, 3], 3) == 1;
    assert a.vals == [1, 2, 3];
    assert a.vals[1..] == [2, 3];
  }

  /** `insert_before` counting the new node on every path. */
  function InsertBeforeCounting<T(==)>(l: LList<T>, v1: T, v2: T): (r: LList<T>)
    requires WellFormed(l)
    ensures r.vals == InsertBefore(l, v1, v2).vals
    ensures Valid(l) ==> Valid(r)
  {
    var i := InsertBefore(l, v1, v2);
    if v2 in l.vals && l.size != 1 && l.vals[0] != v2 then i.(size := l.size + 1) else i
  }

  /** `__getitem__` as written: on `[1]`, index 1 passes the range check and fails
      reading a field of `None` instead of raising `IndexError`. */
  lemma GetItemPastEnd()
    ensures GetItem(LList([1], At(0), 1), 1) == Err(NoneAccess)
  {
  }

  /** `__getitem__` with the range check `-size <= index < size`. */
  function GetItemChecked<T>(l: LList<T>, index: int): (r: Result<T>)
    requires WellFormed(l)
    ensures Valid(l) ==> (r.Ok? <==> -l.size <= index < l.size)
    ensures Valid(l) && r.Err? ==> r.error == IndexError
    ensures r.Ok? ==> r == GetItem(l, index)
  {
    if index == l.size then Err(IndexError) else GetItem(l, index)
  }

  /** The merge `merge_list` computes, as a recursive reference: the smaller head
      goes first, and on a tie the head of the second list. */
  ghost function Merge(a: seq<int>, b: seq<int>): seq<int>
    decreases |a| + |b|
  {
    if a == [] then b
    else if b == [] then a
    else if a[0] < b[0] then [a[0]] + Merge(a[1..], b)
    else [b[0]] + Merge(a, b[1..])
  }

  /** `merge_list(L1, L2)`: the two-index merge loop followed by both tails. */
  method MergeList(l1: seq<int>, l2: seq<int>) returns (r: seq<int>)
    ensures r == Merge(l1, l2)
  {
    var i1, i2 := 0, 0;
    r := [];
    while i1 < |l1| && i2 < |l2|
      invariant 0 <= i1 <= |l1| && 0 <= i2 <= |l2|
      invariant r + Merge(l1[i1..], l2[i2..]) == Merge(l1, l2)
      decreases |l1| - i1 + |l2| - i2
    {
      MergeTakes(l1, l2, i1, i2, r);
      if l1[i1] < l2[i2] {
        r := r + [l1[i1]];
        i1 := i1 + 1;
      } else {
        r := r + [l2[i2]];
        i2 := i2 + 1;
      }
    }
    assert r + l1[i1..] + l2[i2..] == Merge(l1, l2) by {
      MergeTail(l1, l2, i1, i2);
    }
    r := r + l1[i1..] + l2[i2..];
  }

  /** The merge loop's output so far, extended by the head it takes, still
      leads to the whole merge. */
  lemma MergeTakes(l1: seq<int>, l2: seq<int>, i1: nat, i2: nat, r: seq<int>)
    requires i1 < |l1| && i2 < |l2| && r + Merge(l1[i1..], l2[i2..]) == Merge(l1, l2)
    ensures l1[i1] < l2[i2] ==> (r + [l1[i1]]) + Merge(l1[i1 + 1..], l2[i2..]) == Merge(l1, l2)
    ensures l1[i1] >= l2[i2] ==> (r + [l2[i2]]) + Merge(l1[i1..], l2[i2 + 1..]) == Merge(l1, l2)
  {
    MergeStep(l1, l2, i1, i2);
    if l1[i1] < l2[i2] {
      assert (r + [l1[i1]]) + Merge(l1[i1 + 1..], l2[i2..]) == r + ([l1[i1]] + Merge(l1[i1 + 1..], l2[i2..]));
    } else {
      assert (r + [l2[i2]]) + Merge(l1[i1..], l2[i2 + 1..]) == r + ([l2[i2]] + Merge(l1[i1..], l2[i2 + 1..]));
    }
  }

  /** One step of the merge loop takes the smaller head of the remaining inputs. */
  lemma MergeStep(a: seq<int>, b: seq<int>, i: nat, j: nat)
    requires i < |a| && j < |b|
    ensures a[i] < b[j] ==> Merge(a[i..], b[j..]) == [a[i]] + Merge(a[i + 1..], b[j..])
    ensures a[i] >= b[j] ==> Merge(a[i..], b[j..]) == [b[j]] + Merge(a[i..], b[j + 1..])
  {
    assert a[i..][1..] == a[i + 1..];
    assert b[j..][1..] == b[j + 1..];
  }

  /** Once one input is used up, the merge is the rest of the other. */
  lemma MergeTail(a: seq<int>, b: seq<int>, i: nat, j: nat)
    requires i <= |a| && j <= |b| && (i == |a| || j == |b|)
    ensures Merge(a[i..], b[j..]) == a[i..] + b[j..]
  {
  }

  /** The merge is a permutation of its inputs. */
  lemma {:induction false} MergePermutes(a: seq<int>, b: seq<int>)
    ensures multiset(Merge(a, b)) == multiset(a) + multiset(b)
    decreases |a| + |b|
  {
    if a == [] || b == [] {
    } else if a[0] < b[0] {
      MergePermutes(a[1..], b);
      assert a == [a[0]] + a[1..];
    } else {
      MergePermutes(a, b[1..]);
      assert b == [b[0]] + b[1..];
    }
  }

  /** The first value of a merge is the first value of one of its inputs. */
  lemma {:induction false} MergeHead(a: seq<int>, b: seq<int>)
    requires Merge(a, b) != []
    ensures (a != [] && Merge(a, b)[0] == a[0]) || (b != [] && Merge(a, b)[0] == b[0])
  {
  }

  /** Merging two sorted lists gives a sorted list. */
  lemma {:induction false} MergeSorted(a: seq<int>, b: seq<int>)
    requires Sorted(a) && Sorted(b)
    ensures Sorted(Merge(a, b))
    decreases |a| + |b|
  {
    if a == [] || b == [] {
    } else if a[0] < b[0] {
      MergeSorted(a[1..], b);
      var m := Merge(a[1..], b);
      if m != [] {
        MergeHead(a[1..], b);
      }
      SortedCons(a[0], m);
    } else {
      MergeSorted(a, b[1..]);
      var m := Merge(a, b[1..]);
      if m != [] {
        MergeHead(a, b[1..]);
      }
      SortedCons(b[0], m);
    }
  }
}

=== FILE: results.dfy ===
/** Python exceptions raised by the modelled code, as values.
    A routine that can raise returns a `Result`; one that cannot returns its value directly. */
module Results {

  /** The exception classes the modelled routines can raise.
      - IndexError: an explicit `raise IndexError(...)` after a range check
      - AssertionFailed: a failing `assert` statement
      - NoneAccess: an attribute looked up on `None` (Python's AttributeError) */
  datatype Error = IndexError | AssertionFailed | NoneAccess

  datatype Result<+R> = Ok(value: R) | Err(error: Error) {
    predicate IsFailure() {
      Err?
    }

    function PropagateFailure<U>(): Result<U>
      requires Err?
    {
      Err(error)
    }

    function Extract(): R
      requires Ok?
    {
      value
    }
  }
}

=== FILE: seqs.dfy ===
/** Sequence helpers shared by the tree and list models: filtering, reversal,
    ordering predicates and character counting. */
module Seqs {

  /** The elements of `s` that satisfy `p`, in their original order (Python's
      `[x for x in s if p(x)]`). */
  function Filter<T>(s: seq<T>, p: T -> bool): (r: seq<T>)
    ensures |r| <= |s|
    ensures forall i :: 0 <= i < |r| ==> r[i] in s && p(r[i])
    ensures forall i :: 0 <= i < |s| && p(s[i]) ==> s[i] in r
  {
    if |s| == 0 then []
    else if p(s[0]) then [s[0]] + Filter(s[1..], p)
    else Filter(s[1..], p)
  }

  lemma {:induction false} FilterConcat<T>(a: seq<T>, b: seq<T>, p: T -> bool)
    ensures Filter(a + b, p) == Filter(a, p) + Filter(b, p)
  {
    if a == [] {
      assert a + b == b;
    } else {
      assert (a + b)[1..] == a[1..] + b;
      FilterConcat(a[1..], b, p);
    }
  }

  /** Filtering distributes over a concatenation of three parts. */
  lemma FilterConcat3<T>(a: seq<T>, b: seq<T>, c: seq<T>, p: T -> bool)
    ensures Filter(a + b + c, p) == Filter(a, p) + Filter(b, p) + Filter(c, p)
  {
    FilterConcat(a + b, c, p);
    FilterConcat(a, b, p);
  }

  /** Filtering a list made of a head and two parts. */
  lemma FilterJoin<T>(v: T, a: seq<T>, b: seq<T>, p: T -> bool)
    ensures Filter([v] + a + b, p) == (if p(v) then [v] else []) + Filter(a, p) + Filter(b, p)
  {
    FilterConcat([v] + a, b, p);
    FilterConcat([v], a, p);
    assert Filter([v], p) == if p(v) then [v] else [];
  }

  /** An element is kept exactly when it occurs and satisfies `p`. */
  lemma FilterMember<T>(s: seq<T>, p: T -> bool, x: T)
    ensures x in Filter(s, p) <==> x in s && p(x)
  {
  }

  /** Filtering keeps a list whose elements all satisfy `p`. */
  lemma {:induction false} FilterKeepsAll<T>(s: seq<T>, p: T -> bool)
    requires forall i | 0 <= i < |s| :: p(s[i])
    ensures Filter(s, p) == s
  {
    if s != [] {
      FilterKeepsAll(s[1..], p);
    }
  }

  /** Every element is kept by exactly one of `p` and its negation. */
  lemma {:induction false} FilterPartition<T>(s: seq<T>, p: T -> bool)
    ensures |Filter(s, p)| + |Filter(s, x => !p(x))| == |s|
  {
    if s != [] {
      FilterPartition(s[1..], p);
    }
  }

  lemma {:induction false} FilterTrue<T>(s: seq<T>)
    ensures Filter(s, x => true) == s
  {
    if s != [] {
      FilterTrue(s[1..]);
    }
  }

  lemma {:induction false} FilterMultiset<T>(s: seq<T>, p: T -> bool)
    ensures multiset(Filter(s, p)) <= multiset(s)
  {
    if s != [] {
      var rest := Filter(s[1..], p);
      assert multiset(rest) <= multiset(s[1..]) by {
        FilterMultiset(s[1..], p);
      }
      assert multiset(s) == multiset{s[0]} + multiset(s[1..]) by {
        assert s == [s[0]] + s[1..];
      }
      if p(s[0]) {
        assert multiset(Filter(s, p)) == multiset{s[0]} + multiset(rest);
      } else {
        assert Filter(s, p) == rest;
      }
    }
  }

  function Reverse<T>(s: seq<T>): (r: seq<T>)
    ensures |r| == |s|
    ensures forall i :: 0 <= i < |s| ==> r[i] == s[|s| - 1 - i]
  {
    if s == [] then [] else Reverse(s[1..]) + [s[0]]
  }

  lemma ReverseConcat<T>(a: seq<T>, b: seq<T>)
    ensures Reverse(a + b) == Reverse(b) + Reverse(a)
  {
  }

  /** Reversal around a middle element swaps the outer parts. */
  lemma ReverseAround<T>(a: seq<T>, v: T, b: seq<T>)
    ensures Reverse(a + [v] + b) == Reverse(b) + [v] + Reverse(a)
  {
    ReverseConcat(a + [v], b);
    ReverseConcat(a, [v]);
    assert Reverse([v]) == [v];
  }

  /** Reversal moves a last element to the front. */
  lemma ReverseLast<T>(a: seq<T>, b: seq<T>, v: T)
    ensures Reverse(a + b + [v]) == [v] + Reverse(b) + Reverse(a)
  {
    ReverseConcat(a + b, [v]);
    ReverseConcat(a, b);
    assert Reverse([v]) == [v];
  }

  lemma ReverseReverse<T>(s: seq<T>)
    ensures Reverse(Reverse(s)) == s
  {
  }

  lemma ReverseMultiset<T>(s: seq<T>)
    ensures multiset(Reverse(s)) == multiset(s)
  {
    if s != [] {
      ReverseMultiset(s[1..]);
      assert s == [s[0]] + s[1..];
    }
  }

  /** Non-decreasing order. */
  ghost predicate Sorted(s: seq<int>) {
    forall i, j :: 0 <= i < j < |s| ==> s[i] <= s[j]
  }

  /** A value no larger than the head of a sorted list extends it. */
  lemma SortedCons(x: int, s: seq<int>)
    requires Sorted(s) && (s != [] ==> x <= s[0])
    ensures Sorted([x] + s)
  {
    forall i, j | 0 <= i < j < |[x] + s|
      ensures ([x] + s)[i] <= ([x] + s)[j]
    {
      if i > 0 {
        assert ([x] + s)[i] == s[i - 1];
      }
    }
  }

  /** Strictly increasing order. */
  ghost predicate Increasing(s: seq<int>) {
    forall i, j :: 0 <= i < j < |s| ==> s[i] < s[j]
  }

  /** The number of occurrences of `c` in `s`. */
  function Occurrences(s: string, c: char): nat {
    if s == [] then 0 else (if s[0] == c then 1 else 0) + Occurrences(s[1..], c)
  }

  lemma {:induction false} OccurrencesConcat(a: string, b: string, c: char)
    ensures Occurrences(a + b, c) == Occurrences(a, c) + Occurrences(b, c)
  {
    if a == [] {
      assert a + b == b;
    } else {
      assert (a + b)[1..] == a[1..] + b;
      OccurrencesConcat(a[1..], b, c);
    }
  }

  lemma {:induction false} OccurrencesAbsent(s: string, c: char)
    requires c !in s
    ensures Occurrences(s, c) == 0
  {
    if s != [] {
      OccurrencesAbsent(s[1..], c);
    }
  }
}

=== FILE: simple_tree.dfy ===
/** Tree/SimpleTree.py: more recursive queries on general trees (internal
    values, arity, predicate search, node count, depth concatenation), list
    gathering, and the `deepen` rewrite. Its `Tree` class is the one of
    Tree/tree.py, modelled by `Trees.Tree`. */
module SimpleTree {
  import opened Results
  import opened Seqs
  import opened Trees
  import TreePy

  /** `list_internal(t)`: `[]` for a leaf, otherwise the root's value followed by
      the present children's internal values. */
  function ListInternal<T>(t: Tree<T>): (r: seq<T>)
    requires t.Node?
    ensures IsLeaf(t) <==> r == []
    decreases t, 1
  {
    if IsLeaf(t) then [] else [t.value] + ListInternalForest(t.children)
  }

  function ListInternalForest<T>(cs: seq<Tree<T>>): seq<T>
    decreases cs
  {
    if |cs| == 0 then []
    else (if cs[0].Nil? then [] else ListInternal(cs[0])) + ListInternalForest(cs[1..])
  }

  /** `arity(t)`: 0 for a leaf, otherwise the larger of the length of the
      children list (`None` entries counted) and the present children's
      arities. */
  function Arity<T>(t: Tree<T>): (r: nat)
    requires t.Node?
    ensures IsInternal(t) ==> |t.children| <= r
    ensures IsLeaf(t) ==> r == 0
    decreases t, 1
  {
    if IsLeaf(t) then 0 else TreePy.Max(|t.children|, ArityForest(t.children))
  }

  function ArityForest<T>(cs: seq<Tree<T>>): nat
    decreases cs
  {
    if |cs| == 0 then 0
    else TreePy.Max(if cs[0].Nil? then 0 else Arity(cs[0]), ArityForest(cs[1..]))
  }

  /** `contains_test_passer(t, test)`: the root's value passes, or some present
      child contains a passer. */
  function ContainsTestPasser<T>(t: Tree<T>, test: T -> bool): (r: bool)
    requires t.Node?
    ensures test(t.value) ==> r
    decreases t, 1
  {
    if IsLeaf(t) then test(t.value)
    else test(t.value) || ContainsTestPasserForest(t.children, test)
  }

  function ContainsTestPasserForest<T>(cs: seq<Tree<T>>, test: T -> bool): bool
    decreases cs
  {
    if |cs| == 0 then false
    else (cs[0].Node? && ContainsTestPasser(cs[0], test)) || ContainsTestPasserForest(cs[1..], test)
  }

  /** `list_if(t, p)`: the root's value if it satisfies `p`, then the present
      children's lists. */
  function ListIf<T>(t: Tree<T>, p: T -> bool): (r: seq<T>)
    requires t.Node?
    ensures forall i | 0 <= i < |r| :: p(r[i])
    decreases t, 1
  {
    if IsLeaf(t) then (if p(t.value) then [t.value] else [])
    else (if p(t.value) then [t.value] else []) + ListIfForest(t.children, p)
  }

  function ListIfForest<T>(cs: seq<Tree<T>>, p: T -> bool): (r: seq<T>)
    ensures forall i | 0 <= i < |r| :: p(r[i])
    decreases cs
  {
    if |cs| == 0 then []
    else (if cs[0].Nil? then [] else ListIf(cs[0], p)) + ListIfForest(cs[1..], p)
  }

  /** `count(t)`: 1 for a leaf, otherwise one more than the sum over present
      children. */
  function Count<T>(t: Tree<T>): (r: nat)
    requires t.Node?
    ensures r >= 1
    decreases t, 1
  {
    if IsLeaf(t) then 1 else 1 + CountForest(t.children)
  }

  function CountForest<T>(cs: seq<Tree<T>>): nat
    decreases cs
  {
    if |cs| == 0 then 0
    else (if cs[0].Nil? then 0 else Count(cs[0])) + CountForest(cs[1..])
  }

  /** `con(t, d)`: `''` for `None`, the root's value at depth 0, otherwise the
      concatenation over every children entry at depth `d - 1`. Values stand for
      their string forms. */
  function Con(t: Tree<string>, d: int): (s: string)
    ensures t.Nil? ==> s == ""
    ensures t.Node? && d == 0 ==> s == t.value
    decreases t
  {
    match t
    case Nil => ""
    case Node(v, cs) => if d == 0 then v else ConForest(cs, d - 1)
  }

  function ConForest(cs: seq<Tree<string>>, d: int): string
    decreases cs
  {
    if |cs| == 0 then "" else Con(cs[0], d) + ConForest(cs[1..], d)
  }

  /** `gather_lists(list_)`: the concatenation of the sublists. */
  function GatherLists<T>(ls: seq<seq<T>>): (r: seq<T>)
    ensures |ls| == 1 ==> r == ls[0]
  {
    if |ls| == 0 then [] else ls[0] + GatherLists(ls[1..])
  }

  /** The total length of a list of lists. */
  function TotalLength<T>(ls: seq<seq<T>>): nat {
    if |ls| == 0 then 0 else |ls[0]| + TotalLength(ls[1..])
  }

  /** `deepen(t)`: every node `T(v, cs)` becomes `T(v, [T(v, cs')])`, where `cs'`
      is `cs` with each entry deepened in place; `None` stays `None`. */
  function Deepen<T>(t: Tree<T>): (r: Tree<T>)
    ensures t.Nil? <==> r.Nil?
    ensures t.Node? ==> r.value == t.value && |r.children| == 1
    decreases t
  {
    match t
    case Nil => Nil
    case Node(v, cs) => Node(v, [Node(v, DeepenForest(cs))])
  }

  function DeepenForest<T>(cs: seq<Tree<T>>): (r: seq<Tree<T>>)
    ensures |r| == |cs|
    ensures forall i | 0 <= i < |cs| :: cs[i].Nil? <==> r[i].Nil?
    decreases cs
  {
    if |cs| == 0 then [] else [Deepen(cs[0])] + DeepenForest(cs[1..])
  }

  /** `list_internal` lists the values of the internal nodes, in preorder. */
  lemma {:induction false} ListInternalIsPreorder<T>(t: Tree<T>)
    requires t.Node?
    ensures ListInternal(t) == ValuesOf(Filter(Nodes(t), IsInternal))
    decreases t, 1
  {
    ListInternalForestIsPreorder(t.children);
    FilterConcat([t], NodesForest(t.children), IsInternal);
    if IsLeaf(t) {
      NodesForestOfAbsent(t.children);
      assert Filter([t], IsInternal) == [];
    } else {
      assert Filter([t], IsInternal) == [t];
      ValuesOfConcat([t], Filter(NodesForest(t.children), IsInternal));
    }
  }

  lemma {:induction false} ListInternalForestIsPreorder<T>(cs: seq<Tree<T>>)
    ensures ListInternalForest(cs) == ValuesOf(Filter(NodesForest(cs), IsInternal))
    decreases cs
  {
    if |cs| > 0 {
      ListInternalForestIsPreorder(cs[1..]);
      FilterConcat(Nodes(cs[0]), NodesForest(cs[1..]), IsInternal);
      ValuesOfConcat(Filter(Nodes(cs[0]), IsInternal), Filter(NodesForest(cs[1..]), IsInternal));
      if cs[0].Node? {
        ListInternalIsPreorder(cs[0]);
      }
    }
  }

  /** `list_if(t, p)` is `flatten(t)` filtered by `p`. */
  lemma {:induction false} ListIfFiltersFlatten<T>(t: Tree<T>, p: T -> bool)
    requires t.Node?
    ensures ListIf(t, p) == Filter(TreePy.Flatten(t), p)
    decreases t, 1
  {
    ListIfForestFiltersFlatten(t.children, p);
    FilterConcat([t.value], TreePy.FlattenForest(t.children), p);
    if IsLeaf(t) {
      FlattenForestOfAbsent(t.children);
    }
  }

  lemma {:induction false} ListIfForestFiltersFlatten<T>(cs: seq<Tree<T>>, p: T -> bool)
    ensures ListIfForest(cs, p) == Filter(TreePy.FlattenForest(cs), p)
    decreases cs
  {
    if |cs| > 0 {
      ListIfForestFiltersFlatten(cs[1..], p);
      var head := if cs[0].Nil? then [] else TreePy.Flatten(cs[0]);
      FilterConcat(head, TreePy.FlattenForest(cs[1..]), p);
      if cs[0].Node? {
        ListIfFiltersFlatten(cs[0], p);
      }
    }
  }

  lemma {:induction false} FlattenForestOfAbsent<T>(cs: seq<Tree<T>>)
    requires forall i | 0 <= i < |cs| :: cs[i].Nil?
    ensures TreePy.FlattenForest(cs) == []
  {
    if |cs| > 0 {
      FlattenForestOfAbsent(cs[1..]);
    }
  }

  /** `count_if` is the length of `list_if`, and `contains_test_passer` holds
      exactly when `list_if` is not empty. */
  lemma PredicateQueriesAgree<T>(t: Tree<T>, p: T -> bool)
    requires t.Node?
    ensures TreePy.CountIf(t, p) == |ListIf(t, p)|
    ensures ContainsTestPasser(t, p) <==> ListIf(t, p) != []
  {
    ListIfFiltersFlatten(t, p);
    TreePy.CountIfCountsFlatten(t, p);
    PasserIsNonEmptyListIf(t, p);
  }

  lemma {:induction false} PasserIsNonEmptyListIf<T>(t: Tree<T>, p: T -> bool)
    requires t.Node?
    ensures ContainsTestPasser(t, p) <==> ListIf(t, p) != []
    decreases t, 1
  {
    PasserForestIsNonEmptyListIf(t.children, p);
  }

  lemma {:induction false} PasserForestIsNonEmptyListIf<T>(cs: seq<Tree<T>>, p: T -> bool)
    ensures ContainsTestPasserForest(cs, p) <==> ListIfForest(cs, p) != []
    decreases cs
  {
    if |cs| > 0 {
      PasserForestIsNonEmptyListIf(cs[1..], p);
      if cs[0].Node? {
        PasserIsNonEmptyListIf(cs[0], p);
      }
    }
  }

  /** `count` is the number of nodes, and every node is a leaf or internal. */
  lemma {:induction false} CountCountsNodes<T>(t: Tree<T>)
    requires t.Node?
    ensures Count(t) == |Nodes(t)| == |TreePy.Flatten(t)|
    decreases t, 1
  {
    CountForestCountsNodes(t.children);
    if IsLeaf(t) {
      NodesForestOfAbsent(t.children);
      FlattenForestOfAbsent(t.children);
    }
  }

  lemma {:induction false} CountForestCountsNodes<T>(cs: seq<Tree<T>>)
    ensures CountForest(cs) == |NodesForest(cs)| == |TreePy.FlattenForest(cs)|
    decreases cs
  {
    if |cs| > 0 {
      CountForestCountsNodes(cs[1..]);
      if cs[0].Node? {
        CountCountsNodes(cs[0]);
      }
    }
  }

  /** Leaves and internal nodes together make up the count. */
  lemma LeavesAndInternalMakeCount<T>(t: Tree<T>)
    requires t.Node?
    ensures Count(t) == TreePy.LeafCount(t) + |ListInternal(t)|
  {
    CountCountsNodes(t);
    TreePy.LeafCountCountsLeaves(t);
    ListInternalIsPreorder(t);
    ValuesOfPresent(Filter(Nodes(t), IsInternal));
    NodesPresent(t);
    LeavesAndInternalPartition(Nodes(t));
  }

  /** Each present node is a leaf or internal, never both. */
  lemma {:induction false} LeavesAndInternalPartition<T>(ns: seq<Tree<T>>)
    requires forall i | 0 <= i < |ns| :: ns[i].Node?
    ensures |Filter(ns, IsLeaf)| + |Filter(ns, IsInternal)| == |ns|
  {
    if |ns| > 0 {
      LeavesAndInternalPartition(ns[1..]);
    }
  }

  /** A list of present nodes has one value per node. */
  lemma {:induction false} ValuesOfPresent<T>(ns: seq<Tree<T>>)
    requires forall i | 0 <= i < |ns| :: ns[i].Node?
    ensures |ValuesOf(ns)| == |ns|
  {
    if |ns| > 0 {
      ValuesOfPresent(ns[1..]);
    }
  }

  /** On a tree without `None` children the two `arity` functions agree. */
  lemma {:induction false} AritiesAgree<T>(t: Tree<T>)
    requires TreePy.Complete(t)
    ensures TreePy.Arity(t) == Ok(Arity(t))
    decreases t, 1
  {
    NodesOfNode(t);
    assert !HasMissingChild(t);
    AritiesAgreeForest(t.children);
  }

  lemma {:induction false} AritiesAgreeForest<T>(cs: seq<Tree<T>>)
    requires TreePy.CompleteForest(cs)
    ensures TreePy.ArityForest(cs) == Ok(ArityForest(cs))
    decreases cs
  {
    if |cs| > 0 {
      assert NodesForest(cs) == Nodes(cs[0]) + NodesForest(cs[1..]);
      assert TreePy.Complete(cs[0]);
      AritiesAgree(cs[0]);
      assert TreePy.CompleteForest(cs[1..]) by {
        forall i | 0 <= i < |cs[1..]| ensures cs[1..][i].Node? {
          assert cs[1..][i] == cs[i + 1];
        }
      }
      AritiesAgreeForest(cs[1..]);
    }
  }

  /** `arity` is the largest children-list length among the internal nodes,
      `None` entries counted, and 0 when there is no internal node: no internal
      node has more entries, and some internal node has exactly that many. */
  lemma {:induction false} ArityIsMaxInternalBranching<T>(t: Tree<T>)
    requires t.Node?
    ensures forall n | n in Nodes(t) && IsInternal(n) :: Branching(n) <= Arity(t)
    ensures Arity(t) > 0 ==> exists n | n in Nodes(t) && IsInternal(n) :: Branching(n) == Arity(t)
    decreases t, 1
  {
    NodesOfNode(t);
    ArityForestIsMaxInternalBranching(t.children);
    if IsLeaf(t) {
      NodesForestOfAbsent(t.children);
    } else {
      assert t in Nodes(t);
    }
  }

  lemma {:induction false} ArityForestIsMaxInternalBranching<T>(cs: seq<Tree<T>>)
    ensures forall n | n in NodesForest(cs) && IsInternal(n) :: Branching(n) <= ArityForest(cs)
    ensures ArityForest(cs) > 0 ==> exists n | n in NodesForest(cs) && IsInternal(n) :: Branching(n) == ArityForest(cs)
    decreases cs
  {
    if |cs| > 0 {
      ArityForestIsMaxInternalBranching(cs[1..]);
      assert NodesForest(cs) == Nodes(cs[0]) + NodesForest(cs[1..]);
      if cs[0].Node? {
        ArityIsMaxInternalBranching(cs[0]);
      }
    }
  }

  /** Only a `None` child in a node that has present children makes the two
      differ: here `tree.py`'s version fails and this one counts the slot. */
  lemma AritiesDifferOnNone()
    ensures Arity(Node(1, [Node(2, []), Nil])) == 2
    ensures TreePy.Arity(Node(1, [Node(2, []), Nil])).Err?
  {
    var t := Node(1, [Node(2, []), Nil]);
    assert t.children[0].Node?;
    assert IsInternal(t);
  }

  /** `con` at depth 0 gives the root, and gives `''` at negative depths and at
      depths beyond the height. */
  lemma {:induction false} ConBeyondHeight(t: Tree<string>, d: int)
    requires t.Node? && (d < 0 || d >= TreePy.Height(t))
    ensures Con(t, d) == ""
    decreases t, 1
  {
    if d != 0 {
      if IsLeaf(t) {
        ConForestOfAbsent(t.children, d - 1);
      } else {
        ConForestBeyondHeight(t.children, d - 1);
      }
    }
  }

  lemma {:induction false} ConForestBeyondHeight(cs: seq<Tree<string>>, d: int)
    requires d < 0 || d >= TreePy.HeightForest(cs)
    ensures ConForest(cs, d) == ""
    decreases cs
  {
    if |cs| > 0 {
      ConForestBeyondHeight(cs[1..], d);
      if cs[0].Node? {
        TreePy.HeightForestBound(cs, 0);
        ConBeyondHeight(cs[0], d);
      }
    }
  }

  lemma {:induction false} ConForestOfAbsent(cs: seq<Tree<string>>, d: int)
    requires forall i | 0 <= i < |cs| :: cs[i].Nil?
    ensures ConForest(cs, d) == ""
  {
    if |cs| > 0 {
      ConForestOfAbsent(cs[1..], d);
    }
  }

  /** The tree of the `con` doctests: the code gives `"bcr"` at depth 1 and `"d"`
      at depth 2, where the doctest expects `"bcr"` at depth 2. */
  lemma ConDoctestTree()
    ensures var t := Node("a", [Node("b", []), Node("c", [Node("d", [])]), Node("r", [])]);
      Con(t, 0) == "a" && Con(t, 1) == "bcr" && Con(t, 2) == "d"
  {
    var t := Node("a", [Node("b", []), Node("c", [Node("d", [])]), Node("r", [])]);
    assert t.children[1..] == [Node("c", [Node("d", [])]), Node("r", [])];
    assert t.children[1..][1..] == [Node("r", [])];
  }

  /** The values of the present nodes in preorder, each with its depth, the
      root counted at depth `k`. */
  ghost function Levelled<T>(t: Tree<T>, k: nat): seq<(T, nat)>
    decreases t
  {
    match t
    case Nil => []
    case Node(v, cs) => [(v, k)] + LevelledForest(cs, k + 1)
  }

  ghost function LevelledForest<T>(cs: seq<Tree<T>>, k: nat): seq<(T, nat)>
    decreases cs
  {
    if |cs| == 0 then [] else Levelled(cs[0], k) + LevelledForest(cs[1..], k)
  }

  /** The strings of `ps` recorded at depth `d`, joined in order. */
  ghost function JoinAt(ps: seq<(string, nat)>, d: nat): string {
    if |ps| == 0 then "" else (if ps[0].1 == d then ps[0].0 else "") + JoinAt(ps[1..], d)
  }

  lemma {:induction false} JoinAtConcat(a: seq<(string, nat)>, b: seq<(string, nat)>, d: nat)
    ensures JoinAt(a + b, d) == JoinAt(a, d) + JoinAt(b, d)
  {
    if a == [] {
      assert a + b == b;
    } else {
      assert (a + b)[1..] == a[1..] + b;
      JoinAtConcat(a[1..], b, d);
    }
  }

  /** Nothing is recorded above the depth the walk starts at. */
  lemma {:induction false} JoinAtAbove(t: Tree<string>, k: nat, d: nat)
    requires d < k
    ensures JoinAt(Levelled(t, k), d) == ""
    decreases t, 1
  {
    if t.Node? {
      JoinAtConcat([(t.value, k)], LevelledForest(t.children, k + 1), d);
      JoinAtAboveForest(t.children, k + 1, d);
    }
  }

  lemma {:induction false} JoinAtAboveForest(cs: seq<Tree<string>>, k: nat, d: nat)
    requires d < k
    ensures JoinAt(LevelledForest(cs, k), d) == ""
    decreases cs
  {
    if |cs| > 0 {
      JoinAtConcat(Levelled(cs[0], k), LevelledForest(cs[1..], k), d);
      JoinAtAbove(cs[0], k, d);
      JoinAtAboveForest(cs[1..], k, d);
    }
  }

  /** `con(t, d)` joins, in preorder, the values of the nodes at depth `d`: a walk
      that starts at depth `k` finds them at depth `k + d`. */
  lemma {:induction false} ConJoinsLevel(t: Tree<string>, k: nat, d: nat)
    ensures Con(t, d) == JoinAt(Levelled(t, k), k + d)
    decreases t, 1
  {
    if t.Node? {
      var rest := LevelledForest(t.children, k + 1);
      JoinAtConcat([(t.value, k)], rest, k + d);
      if d == 0 {
        JoinAtAboveForest(t.children, k + 1, k);
      } else {
        ConForestJoinsLevel(t.children, k + 1, d - 1);
      }
    }
  }

  lemma {:induction false} ConForestJoinsLevel(cs: seq<Tree<string>>, k: nat, d: nat)
    ensures ConForest(cs, d) == JoinAt(LevelledForest(cs, k), k + d)
    decreases cs
  {
    if |cs| > 0 {
      JoinAtConcat(Levelled(cs[0], k), LevelledForest(cs[1..], k), k + d);
      ConJoinsLevel(cs[0], k, d);
      ConForestJoinsLevel(cs[1..], k, d);
    }
  }

  /** Gathering distributes over concatenation of the outer list. */
  lemma {:induction false} GatherListsConcat<T>(a: seq<seq<T>>, b: seq<seq<T>>)
    ensures GatherLists(a + b) == GatherLists(a) + GatherLists(b)
  {
    if |a| == 0 {
      assert a + b == b;
    } else {
      assert (a + b)[1..] == a[1..] + b;
      GatherListsConcat(a[1..], b);
    }
  }

  /** The gathered list is as long as all sublists together, and each sublist
      appears in it at the offset of the lengths before it. */
  lemma {:induction false} GatherListsLayout<T>(ls: seq<seq<T>>, k: nat)
    requires k < |ls|
    ensures |GatherLists(ls)| == TotalLength(ls)
    ensures TotalLength(ls[..k]) + |ls[k]| <= |GatherLists(ls)|
    ensures GatherLists(ls)[TotalLength(ls[..k])..TotalLength(ls[..k]) + |ls[k]|] == ls[k]
  {
    TotalLengthIsGathered(ls);
    assert ls == ls[..k] + [ls[k]] + ls[k + 1..];
    GatherListsConcat(ls[..k] + [ls[k]], ls[k + 1..]);
    GatherListsConcat(ls[..k], [ls[k]]);
    TotalLengthIsGathered(ls[..k]);
  }

  lemma {:induction false} TotalLengthIsGathered<T>(ls: seq<seq<T>>)
    ensures |GatherLists(ls)| == TotalLength(ls)
  {
    if |ls| > 0 {
      TotalLengthIsGathered(ls[1..]);
    }
  }

  /** `deepen` doubles the node count. */
  lemma {:induction false} DeepenDoublesCount<T>(t: Tree<T>)
    requires t.Node?
    ensures Count(Deepen(t)) == 2 * Count(t)
    decreases t, 1
  {
    DeepenForestDoublesCount(t.children);
    var inner := Node(t.value, DeepenForest(t.children));
    assert Deepen(t).children == [inner];
    assert IsLeaf(inner) <==> IsLeaf(t);
    assert CountForest([inner]) == Count(inner);
  }

  lemma {:induction false} DeepenForestDoublesCount<T>(cs: seq<Tree<T>>)
    ensures CountForest(DeepenForest(cs)) == 2 * CountForest(cs)
    decreases cs
  {
    if |cs| > 0 {
      DeepenForestDoublesCount(cs[1..]);
      if cs[0].Node? {
        DeepenDoublesCount(cs[0]);
      }
    }
  }

  /** `deepen` doubles the height. */
  lemma {:induction false} DeepenDoublesHeight<T>(t: Tree<T>)
    requires t.Node?
    ensures TreePy.Height(Deepen(t)) == 2 * TreePy.Height(t)
    decreases t, 1
  {
    DeepenForestDoublesHeight(t.children);
    var inner := Node(t.value, DeepenForest(t.children));
    assert IsLeaf(inner) <==> IsLeaf(t);
    assert TreePy.HeightForest([inner]) == TreePy.Height(inner);
  }

  lemma {:induction false} DeepenForestDoublesHeight<T>(cs: seq<Tree<T>>)
    ensures TreePy.HeightForest(DeepenForest(cs)) == 2 * TreePy.HeightForest(cs)
    decreases cs
  {
    if |cs| > 0 {
      DeepenForestDoublesHeight(cs[1..]);
      if cs[0].Node? {
        DeepenDoublesHeight(cs[0]);
      }
    }
  }

  /** Each value appears twice as often after `deepen`. */
  lemma {:induction false} DeepenDoublesValues<T>(t: Tree<T>)
    requires t.Node?
    ensures multiset(TreePy.Flatten(Deepen(t))) == multiset(TreePy.Flatten(t)) + multiset(TreePy.Flatten(t))
    decreases t, 1
  {
    DeepenForestDoublesValues(t.children);
    var inner := Node(t.value, DeepenForest(t.children));
    assert TreePy.FlattenForest([inner]) == TreePy.Flatten(inner);
  }

  lemma {:induction false} DeepenForestDoublesValues<T>(cs: seq<Tree<T>>)
    ensures multiset(TreePy.FlattenForest(DeepenForest(cs)))
         == multiset(TreePy.FlattenForest(cs)) + multiset(TreePy.FlattenForest(cs))
    decreases cs
  {
    if |cs| > 0 {
      DeepenForestDoublesValues(cs[1..]);
      if cs[0].Node? {
        DeepenDoublesValues(cs[0]);
      }
    }
  }

  /** A deepened tree shows the original's depth `d` at depths `2d` and `2d+1`. */
  lemma {:induction false} DeepenSpreadsLevels(t: Tree<string>, d: nat)
    ensures Con(Deepen(t), 2 * d) == Con(t, d)
    ensures Con(Deepen(t), 2 * d + 1) == Con(t, d)
    decreases t
  {
    match t
    case Nil =>
    case Node(v, cs) =>
      var inner := Node(v, DeepenForest(cs));
      assert ConForest([inner], 2 * d) == Con(inner, 2 * d);
      assert ConForest([inner], 2 * d - 1) == Con(inner, 2 * d - 1);
      if d > 0 {
        DeepenForestSpreadsLevels(cs, d - 1);
        assert 2 * d - 2 == 2 * (d - 1);
      }
  }

  lemma {:induction false} DeepenForestSpreadsLevels(cs: seq<Tree<string>>, d: nat)
    ensures ConForest(DeepenForest(cs), 2 * d) == ConForest(cs, d)
    ensures ConForest(DeepenForest(cs), 2 * d + 1) == ConForest(cs, d)
    decreases cs
  {
    if |cs| > 0 {
      DeepenSpreadsLevels(cs[0], d);
      DeepenForestSpreadsLevels(cs[1..], d);
    }
  }
}

=== FILE: tree_builder.dfy ===
/** `descendants_from_list(t, list_, arity)` of Tree/tree.py and its copy in
    Tree/SimpleTree.py (the two are the same code): grow `t` level by level
    from the values of `list_`, giving each node up to `arity` new children.

    The mutable nodes are modelled as a table from node ids to the ids of the
    children appended to them: id 0 is `t` and id `i >= 1` is the node made from
    `list_[i - 1]`. The FIFO queue of Tree/tree.py is a `seq` of ids. The finished
    table is turned into a value tree by `Realize`. */
module TreeBuilder {
  import opened Seqs
  import opened Trees
  import TreePy
  import SimpleTree

  /** The ids `lo, lo + 1, ..., hi - 1`. */
  function Range(lo: nat, hi: nat): (r: seq<nat>)
    requires lo <= hi
    ensures |r| == hi - lo
    ensures forall i | 0 <= i < |r| :: r[i] == lo + i
  {
    seq(hi - lo, i requires 0 <= i < hi - lo => lo + i)
  }

  function Min(a: int, b: int): int {
    if a < b then a else b
  }

  /** A child table for `n` list values: one entry per id `0..n`, each child id
      larger than its parent's id and at most `n`. */
  ghost predicate WellFormed(kids: seq<seq<nat>>, n: nat) {
    && |kids| == n + 1
    && forall j, i | 0 <= j < |kids| && 0 <= i < |kids[j]| :: j < kids[j][i] < |kids|
  }

  /** The node made from `list[j - 1]`, with the children the table gives it. */
  function Realize<T>(list: seq<T>, kids: seq<seq<nat>>, j: nat): (r: Tree<T>)
    requires WellFormed(kids, |list|) && 1 <= j < |kids|
    ensures r.Node? && r.value == list[j - 1] && |r.children| == |kids[j]|
    decreases |kids| - j
  {
    Node(list[j - 1], seq(|kids[j]|, i requires 0 <= i < |kids[j]| => Realize(list, kids, kids[j][i])))
  }

  /** The nodes for the ids `ids`, in order. */
  function RealizeList<T>(list: seq<T>, kids: seq<seq<nat>>, ids: seq<nat>): (r: seq<Tree<T>>)
    requires WellFormed(kids, |list|)
    requires forall i | 0 <= i < |ids| :: 1 <= ids[i] < |kids|
    ensures |r| == |ids|
    ensures forall i | 0 <= i < |ids| :: r[i] == Realize(list, kids, ids[i])
  {
    seq(|ids|, i requires 0 <= i < |ids| => Realize(list, kids, ids[i]))
  }

  /** The table the builder leaves behind when `arity >= 1`: node `j` receives
      the ids `j*arity + 1 .. j*arity + arity`, cut off after `n`. */
  function ClosedKids(n: nat, a: nat): (kids: seq<seq<nat>>)
    ensures |kids| == n + 1
  {
    seq(n + 1, j requires 0 <= j < n + 1 => Block(n, a, j))
  }

  /** The ids node `j` receives: its block of `a` ids, cut off after `n`. */
  function Block(n: nat, a: nat, j: nat): seq<nat> {
    Range(Min(Start(j, a) + 1, n + 1), Min(Start(j, a) + a + 1, n + 1))
  }

  lemma ClosedKidsWellFormed(n: nat, a: nat)
    requires a >= 1
    ensures WellFormed(ClosedKids(n, a), n)
  {
    var kids := ClosedKids(n, a);
    forall j, i | 0 <= j < |kids| && 0 <= i < |kids[j]| ensures j < kids[j][i] < |kids| {
      assert kids[j] == Block(n, a, j);
      StartAtLeast(j, a);
    }
  }

  /** The tree the builder returns: `t` with the new nodes hanging below it in
      level order. With `arity <= 0` nothing is added. */
  function Grown<T>(t: Tree<T>, list: seq<T>, a: int): (r: Tree<T>)
    requires t.Node?
    ensures r.Node? && r.value == t.value
  {
    if a <= 0 then t
    else
      ClosedKidsWellFormed(|list|, a);
      var kids := ClosedKids(|list|, a);
      Node(t.value, t.children + RealizeList(list, kids, kids[0]))
  }

  /** The builder: dequeue a node, give it up to `arity` children popped from
      the front of the list, enqueue them, and return `t` once the list runs
      out. */
  method DescendantsFromList<T>(t: Tree<T>, list: seq<T>, arity: int) returns (r: Tree<T>)
    requires t.Node?
    ensures r == Grown(t, list, arity)
  {
    if arity <= 0 {
      // `range(0, arity)` is empty: the single pass over the root adds nothing.
      return t;
    }
    var n := |list|;
    var kids: seq<seq<nat>> := seq(n + 1, _ => []);
    var q: seq<nat> := [0];
    var next: nat := 0;  // values popped so far, which is also the last id used
    var done := false;
    ghost var k: nat := 0;  // the id at the front of the queue
    while |q| > 0 && !done
      invariant |kids| == n + 1 && next <= n
      invariant !done ==> next == Start(k, arity) && k <= next && q == Range(k, next + 1)
      invariant !done ==> forall j | 0 <= j < k :: kids[j] == Block(n, arity, j)
      invariant !done ==> forall j | k <= j <= n :: kids[j] == []
      invariant done ==> kids == ClosedKids(n, arity)
      decreases !done, n - next
    {
      var node := q[0];
      kids, q, next, done := FillNode(kids, q[1..], next, node, n, arity);
      if !done {
        k := k + 1;
      }
    }
    ClosedKidsWellFormed(n, arity);
    r := Node(t.value, t.children + RealizeList(list, kids, kids[0]));
  }

  /** The inner loop of the builder on the dequeued id `node`: pop up to
      `arity` values, each becoming a fresh id that is recorded as a child of
      `node` and enqueued. Either the node gets its whole block and the table
      is filled up to it, or the list runs out and the table is complete. */
  method FillNode(kids0: seq<seq<nat>>, q0: seq<nat>, next0: nat, node: nat, n: nat, arity: int)
    returns (kids: seq<seq<nat>>, q: seq<nat>, next: nat, done: bool)
    requires arity >= 1 && |kids0| == n + 1 && node <= next0 <= n
    requires next0 == Start(node, arity) && q0 == Range(node + 1, next0 + 1)
    requires forall j | 0 <= j < node :: kids0[j] == Block(n, arity, j)
    requires forall j | node <= j <= n :: kids0[j] == []
    ensures |kids| == n + 1 && next0 <= next <= n
    ensures !done ==> next == Start(node + 1, arity) && node + 1 <= next && q == Range(node + 1, next + 1)
    ensures !done ==> forall j | 0 <= j < node + 1 :: kids[j] == Block(n, arity, j)
    ensures !done ==> forall j | node + 1 <= j <= n :: kids[j] == []
    ensures done ==> kids == ClosedKids(n, arity)
  {
    kids, q, next, done := kids0, q0, next0, false;
    var i := 0;
    while i < arity && !done
      invariant 0 <= i <= arity && |kids| == n + 1 && next0 <= next <= n
      invariant !done ==> next == Start(node, arity) + i && q == Range(node + 1, next + 1)
      invariant !done ==> kids[node] == Range(Start(node, arity) + 1, next + 1)
      invariant !done ==> forall j | 0 <= j < node :: kids[j] == Block(n, arity, j)
      invariant !done ==> forall j | node < j <= n :: kids[j] == []
      invariant done ==> kids == ClosedKids(n, arity)
      decreases arity - i, !done
    {
      if next == n {
        TableComplete(kids, n, arity, node);
        done := true;
      } else {
        next := next + 1;
        kids := kids[node := kids[node] + [next]];
        q := q + [next];
        i := i + 1;
      }
    }
    if !done {
      assert next == Start(node + 1, arity);
      assert kids[node] == Block(n, arity, node);
      StartAtLeast(node + 1, arity);
    }
  }

  /** When the list runs out while node `k` is being filled, the table is the
      closed form. */
  lemma TableComplete(kids: seq<seq<nat>>, n: nat, a: nat, k: nat)
    requires a >= 1 && |kids| == n + 1 && k <= n
    requires Start(k, a) <= n < Start(k, a) + a
    requires kids[k] == Range(Start(k, a) + 1, n + 1)
    requires forall j | 0 <= j < k :: kids[j] == Block(n, a, j)
    requires forall j | k < j <= n :: kids[j] == []
    ensures kids == ClosedKids(n, a)
  {
    forall j | 0 <= j <= n ensures kids[j] == ClosedKids(n, a)[j] {
      ClosedEntry(n, a, j, k);
    }
  }

  /** Entry `j` of the closed form, relative to the node `k` being filled when
      the list runs out. */
  lemma ClosedEntry(n: nat, a: nat, j: nat, k: nat)
    requires a >= 1 && j <= n && k <= n
    requires Start(k, a) <= n < Start(k, a) + a
    ensures j < k ==> ClosedKids(n, a)[j] == Block(n, a, j)
    ensures j == k ==> ClosedKids(n, a)[j] == Range(Start(k, a) + 1, n + 1)
    ensures j > k ==> ClosedKids(n, a)[j] == []
  {
    assert ClosedKids(n, a)[j] == Block(n, a, j);
    if j < k {
      StartMono(j, k, a);
    } else if j > k {
      StartMono(k, j, a);
    }
  }

  /** `Start(j, a)` is `j * a`, the number of values handed out before node `j`
      is filled; it is built by repeated addition to keep the proofs linear. */
  function Start(j: nat, a: nat): nat {
    if j == 0 then 0 else Start(j - 1, a) + a
  }

  lemma {:induction false} StartIsProduct(j: nat, a: nat)
    ensures Start(j, a) == j * a
  {
    if j > 0 {
      StartIsProduct(j - 1, a);
    }
  }

  lemma {:induction false} StartAtLeast(j: nat, a: nat)
    requires a >= 1
    ensures Start(j, a) >= j
  {
    if j > 0 {
      StartAtLeast(j - 1, a);
    }
  }

  /** A later node starts after an earlier node's block ends. */
  lemma {:induction false} StartMono(j: nat, k: nat, a: nat)
    requires j < k
    ensures Start(j, a) + a <= Start(k, a)
    decreases k
  {
    if j + 1 < k {
      StartMono(j, k - 1, a);
    }
  }

  /** The children of a realized node are the realized ids of its table entry. */
  lemma RealizeChildren<T>(list: seq<T>, kids: seq<seq<nat>>, j: nat)
    requires WellFormed(kids, |list|) && 1 <= j < |kids|
    ensures Realize(list, kids, j).children == RealizeList(list, kids, kids[j])
  {
  }

  lemma RealizeListConcat<T>(list: seq<T>, kids: seq<seq<nat>>, xs: seq<nat>, ys: seq<nat>)
    requires WellFormed(kids, |list|)
    requires forall i | 0 <= i < |xs| :: 1 <= xs[i] < |kids|
    requires forall i | 0 <= i < |ys| :: 1 <= ys[i] < |kids|
    ensures RealizeList(list, kids, xs + ys) == RealizeList(list, kids, xs) + RealizeList(list, kids, ys)
  {
  }

  lemma RangeConcat(lo: nat, mid: nat, hi: nat)
    requires lo <= mid <= hi
    ensures Range(lo, mid) + Range(mid, hi) == Range(lo, hi)
  {
  }

  lemma {:induction false} FlattenForestConcat<T>(xs: seq<Tree<T>>, ys: seq<Tree<T>>)
    ensures TreePy.FlattenForest(xs + ys) == TreePy.FlattenForest(xs) + TreePy.FlattenForest(ys)
  {
    if |xs| == 0 {
      assert xs + ys == ys;
    } else {
      assert (xs + ys)[1..] == xs[1..] + ys;
      FlattenForestConcat(xs[1..], ys);
    }
  }

  /** Where the block of node `k` begins, for the closed-form table. */
  function From(n: nat, a: nat, k: nat): nat {
    Min(Start(k, a) + 1, n + 1)
  }

  /** The values of the subtrees realized from ids `lo .. hi-1`, flattened in
      order. */
  ghost function FlatRange<T>(list: seq<T>, kids: seq<seq<nat>>, lo: nat, hi: nat): seq<T>
    requires WellFormed(kids, |list|) && 1 <= lo <= hi <= |kids|
  {
    TreePy.FlattenForest(RealizeList(list, kids, Range(lo, hi)))
  }

  /** The flattened nodes of an id range split where the range splits. */
  lemma FlattenRangeSplit<T>(list: seq<T>, kids: seq<seq<nat>>, lo: nat, mid: nat, hi: nat)
    requires WellFormed(kids, |list|) && 1 <= lo <= mid <= hi <= |kids|
    ensures FlatRange(list, kids, lo, hi)
         == FlatRange(list, kids, lo, mid)
          + FlatRange(list, kids, mid, hi)
  {
    RangeConcat(lo, mid, hi);
    RealizeListConcat(list, kids, Range(lo, mid), Range(mid, hi));
    FlattenForestConcat(RealizeList(list, kids, Range(lo, mid)), RealizeList(list, kids, Range(mid, hi)));
  }

  /** A realized node flattens to its value followed by its table entry's nodes. */
  lemma FlattenRealized<T>(list: seq<T>, kids: seq<seq<nat>>, k: nat)
    requires WellFormed(kids, |list|) && 1 <= k < |kids|
    ensures FlatRange(list, kids, k, k + 1)
         == [list[k - 1]] + TreePy.FlattenForest(RealizeList(list, kids, kids[k]))
  {
    var node := Realize(list, kids, k);
    assert Range(k, k + 1) == [k];
    assert RealizeList(list, kids, [k]) == [node];
    RealizeChildren(list, kids, k);
    assert TreePy.FlattenForest([node]) == TreePy.Flatten(node) + TreePy.FlattenForest([]);
  }

  /** The nodes still waiting in the queue when node `k` is dequeued, together
      with everything below them, hold exactly the values from `list[k - 1]` on. */
  lemma {:induction false} QueueHoldsRest<T>(list: seq<T>, a: nat, k: nat)
    requires a >= 1 && 1 <= k <= |list| + 1
    ensures WellFormed(ClosedKids(|list|, a), |list|) && k <= From(|list|, a, k) <= |list| + 1
    ensures multiset(FlatRange(list, ClosedKids(|list|, a), k, From(|list|, a, k)))
         == multiset(list[k - 1..])
    decreases |list| + 1 - k
  {
    var n := |list|;
    ClosedKidsWellFormed(n, a);
    StartAtLeast(k, a);
    if k == n + 1 {
      assert Range(k, From(n, a, k)) == [];
      assert RealizeList(list, ClosedKids(n, a), []) == [];
    } else {
      QueueHoldsRest(list, a, k + 1);
      QueueStep(list, a, k);
    }
  }

  /** One dequeue: node `k` leaves the front of the queue and its block joins
      the back. */
  lemma QueueStep<T>(list: seq<T>, a: nat, k: nat)
    requires a >= 1 && 1 <= k <= |list|
    requires WellFormed(ClosedKids(|list|, a), |list|)
    requires k + 1 <= From(|list|, a, k + 1) <= |list| + 1
    requires multiset(FlatRange(list, ClosedKids(|list|, a), k + 1, From(|list|, a, k + 1)))
          == multiset(list[k..])
    ensures k <= From(|list|, a, k) <= |list| + 1
    ensures multiset(FlatRange(list, ClosedKids(|list|, a), k, From(|list|, a, k)))
         == multiset(list[k - 1..])
  {
    var n := |list|;
    BlockBounds(n, a, k);
    QueueStepOnTable(list, ClosedKids(n, a), k, From(n, a, k), From(n, a, k + 1));
  }

  /** `QueueStep` for any well-formed table whose entry `k` is `f .. g-1`. */
  lemma QueueStepOnTable<T>(list: seq<T>, kids: seq<seq<nat>>, k: nat, f: nat, g: nat)
    requires WellFormed(kids, |list|) && 1 <= k < f <= g <= |kids|
    requires kids[k] == Range(f, g)
    requires multiset(FlatRange(list, kids, k + 1, g)) == multiset(list[k..])
    ensures multiset(FlatRange(list, kids, k, f)) == multiset(list[k - 1..])
  {
    var whole := FlatRange(list, kids, k, f);
    var below := FlatRange(list, kids, f, g);
    var rest := FlatRange(list, kids, k + 1, f);
    assert whole == [list[k - 1]] + below + rest by {
      DequeueShape(list, kids, k, f, g);
    }
    assert multiset(rest + below) == multiset(list[k..]) by {
      FlattenRangeSplit(list, kids, k + 1, f, g);
    }
    DropOne(list, k);
    MultisetStep(whole, list[k - 1], below, rest, list[k..], list[k - 1..]);
  }

  lemma DropOne<T>(s: seq<T>, k: nat)
    requires 1 <= k <= |s|
    ensures s[k - 1..] == [s[k - 1]] + s[k..]
  {
  }

  /** Node `k`'s block in the closed-form table lies between the two bounds. */
  lemma BlockBounds(n: nat, a: nat, k: nat)
    requires a >= 1 && 1 <= k <= n
    ensures k + 1 <= From(n, a, k) <= From(n, a, k + 1) <= n + 1
    ensures ClosedKids(n, a)[k] == Range(From(n, a, k), From(n, a, k + 1))
  {
    StartAtLeast(k, a);
    assert ClosedKids(n, a)[k] == Block(n, a, k);
  }

  /** Dequeuing node `k`: the range from `k` flattens to node `k`'s value, its
      block, then the rest of the queue. */
  lemma DequeueShape<T>(list: seq<T>, kids: seq<seq<nat>>, k: nat, f: nat, g: nat)
    requires WellFormed(kids, |list|) && 1 <= k < f <= g <= |kids|
    requires kids[k] == Range(f, g)
    ensures FlatRange(list, kids, k, f)
         == [list[k - 1]] + FlatRange(list, kids, f, g)
          + FlatRange(list, kids, k + 1, f)
  {
    FlattenRangeSplit(list, kids, k, k + 1, f);
    FlattenRealized(list, kids, k);
  }

  lemma MultisetStep<T>(whole: seq<T>, x: T, below: seq<T>, rest: seq<T>, tail: seq<T>, full: seq<T>)
    requires whole == [x] + below + rest
    requires multiset(rest + below) == multiset(tail)
    requires full == [x] + tail
    ensures multiset(whole) == multiset(full)
  {
  }

  /** With `arity >= 1` the builder adds one node per list value: the values of
      the grown tree are those of `t` and those of `list`. */
  lemma GrownAddsList<T>(t: Tree<T>, list: seq<T>, a: int)
    requires t.Node? && a >= 1
    ensures multiset(TreePy.Flatten(Grown(t, list, a))) == multiset(TreePy.Flatten(t)) + multiset(list)
    ensures SimpleTree.Count(Grown(t, list, a)) == SimpleTree.Count(t) + |list|
  {
    var n := |list|;
    var kids := ClosedKids(n, a);
    ClosedKidsWellFormed(n, a);
    assert kids[0] == Block(n, a, 0) == Range(1, From(n, a, 1));
    QueueHoldsRest(list, a, 1);
    var added := RealizeList(list, kids, kids[0]);
    FlattenForestConcat(t.children, added);
    assert list[0..] == list;
    var r := Grown(t, list, a);
    assert TreePy.Flatten(r) == [t.value] + TreePy.FlattenForest(t.children) + TreePy.FlattenForest(added);
    SimpleTree.CountCountsNodes(r);
    SimpleTree.CountCountsNodes(t);
    assert |multiset(TreePy.Flatten(r))| == |TreePy.Flatten(r)|;
  }

  /** With `arity <= 0` the builder returns `t` unchanged. */
  lemma GrownWithoutArity<T>(t: Tree<T>, list: seq<T>, a: int)
    requires t.Node? && a <= 0
    ensures Grown(t, list, a) == t
  {
  }

  /** No entry of the closed-form table holds more than `a` ids. */
  lemma BlocksWithinArity(n: nat, a: nat)
    requires a >= 1
    ensures forall j | 0 <= j < |ClosedKids(n, a)| :: |ClosedKids(n, a)[j]| <= a
  {
    forall j | 0 <= j < |ClosedKids(n, a)| ensures |ClosedKids(n, a)[j]| <= a {
      assert ClosedKids(n, a)[j] == Block(n, a, j);
    }
  }

  lemma {:induction false} ArityRealize<T>(list: seq<T>, kids: seq<seq<nat>>, a: nat, j: nat)
    requires WellFormed(kids, |list|) && 1 <= j < |kids|
    requires forall i | 0 <= i < |kids| :: |kids[i]| <= a
    ensures SimpleTree.Arity(Realize(list, kids, j)) <= a
    decreases |kids| - j, 1
  {
    RealizeChildren(list, kids, j);
    ArityRealizeList(list, kids, a, kids[j], j);
  }

  lemma {:induction false} ArityRealizeList<T>(list: seq<T>, kids: seq<seq<nat>>, a: nat, ids: seq<nat>, bound: nat)
    requires WellFormed(kids, |list|)
    requires forall i | 0 <= i < |kids| :: |kids[i]| <= a
    requires forall i | 0 <= i < |ids| :: bound < ids[i] < |kids|
    ensures SimpleTree.ArityForest(RealizeList(list, kids, ids)) <= a
    decreases |kids| - bound, 0, |ids|
  {
    if |ids| > 0 {
      var cs := RealizeList(list, kids, ids);
      assert cs[1..] == RealizeList(list, kids, ids[1..]);
      ArityRealize(list, kids, a, ids[0]);
      ArityRealizeList(list, kids, a, ids[1..], bound);
    }
  }

  /** Growing a single node with `arity >= 1` gives at most `arity` children to
      every node. */
  lemma GrownWithinArity<T>(v: T, list: seq<T>, a: int)
    requires a >= 1
    ensures SimpleTree.Arity(Grown(Node(v, []), list, a)) <= a
  {
    var kids := ClosedKids(|list|, a);
    ClosedKidsWellFormed(|list|, a);
    BlocksWithinArity(|list|, a);
    ArityRealizeList(list, kids, a, kids[0], 0);
    assert Grown(Node(v, []), list, a).children == RealizeList(list, kids, kids[0]);
  }

  lemma TableOfFour()
    ensures ClosedKids(4, 2) == [[1, 2], [3, 4], [], [], []]
  {
    var kids := ClosedKids(4, 2);
    assert kids[0] == Block(4, 2, 0) == [1, 2];
    assert kids[1] == Block(4, 2, 1) == [3, 4];
    assert kids[2] == Block(4, 2, 2) == [];
    assert kids[3] == Block(4, 2, 3) == [];
    assert kids[4] == Block(4, 2, 4) == [];
  }

  lemma TableOfEight()
    ensures ClosedKids(8, 3) == [[1, 2, 3], [4, 5, 6], [7, 8], [], [], [], [], [], []]
  {
    var kids := ClosedKids(8, 3);
    assert kids[0] == Block(8, 3, 0) == [1, 2, 3];
    assert kids[1] == Block(8, 3, 1) == [4, 5, 6];
    assert kids[2] == Block(8, 3, 2) == [7, 8];
    forall j | 3 <= j <= 8 ensures kids[j] == [] {
      assert kids[j] == Block(8, 3, j);
      StartMono(2, j, 3);
    }
  }

  /** Four values with arity 2: two children below the root, and the next two
      below the first of them. */
  lemma GrownFour<T>(v: T, x1: T, x2: T, x3: T, x4: T)
    ensures Grown(Node(v, []), [x1, x2, x3, x4], 2) == Node(v, [Node(x1, [Node(x3, []), Node(x4, [])]), Node(x2, [])])
  {
    var list := [x1, x2, x3, x4];
    var kids := ClosedKids(4, 2);
    ClosedKidsWellFormed(4, 2);
    TableOfFour();
    var r3, r4 := Realize(list, kids, 3), Realize(list, kids, 4);
    assert r3 == Node(x3, []) && r4 == Node(x4, []);
    assert Realize(list, kids, 2) == Node(x2, []);
    assert Realize(list, kids, 1) == Node(x1, [r3, r4]);
    assert RealizeList(list, kids, kids[0]) == [Realize(list, kids, 1), Realize(list, kids, 2)];
  }

  /** The doctest of both copies. */
  lemma BuilderDoctest()
    ensures Grown(Node(0, []), [1, 2, 3, 4], 2) == Node(0, [Node(1, [Node(3, []), Node(4, [])]), Node(2, [])])
  {
    GrownFour(0, 1, 2, 3, 4);
  }

  /** The three subtrees below the root when eight values are grown with
      arity 3. */
  lemma EightSubtrees<T>(list: seq<T>)
    requires |list| == 8
    ensures ClosedKids(8, 3)[0] == [1, 2, 3]
    ensures WellFormed(ClosedKids(8, 3), 8)
    ensures Realize(list, ClosedKids(8, 3), 1) == Node(list[0], [Node(list[3], []), Node(list[4], []), Node(list[5], [])])
    ensures Realize(list, ClosedKids(8, 3), 2) == Node(list[1], [Node(list[6], []), Node(list[7], [])])
    ensures Realize(list, ClosedKids(8, 3), 3) == Node(list[2], [])
  {
    var kids := ClosedKids(8, 3);
    ClosedKidsWellFormed(8, 3);
    TableOfEight();
    RealizeLeaf(list, kids, 3);
    FirstOfEight(list);
    SecondOfEight(list);
  }

  lemma FirstOfEight<T>(list: seq<T>)
    requires |list| == 8
    ensures WellFormed(ClosedKids(8, 3), 8)
    ensures Realize(list, ClosedKids(8, 3), 1) == Node(list[0], [Node(list[3], []), Node(list[4], []), Node(list[5], [])])
  {
    ClosedKidsWellFormed(8, 3);
    TableOfEight();
    RealizeTriple(list, ClosedKids(8, 3), 1, 4, 5, 6);
  }

  lemma SecondOfEight<T>(list: seq<T>)
    requires |list| == 8
    ensures WellFormed(ClosedKids(8, 3), 8)
    ensures Realize(list, ClosedKids(8, 3), 2) == Node(list[1], [Node(list[6], []), Node(list[7], [])])
  {
    ClosedKidsWellFormed(8, 3);
    TableOfEight();
    RealizePair(list, ClosedKids(8, 3), 2, 7, 8);
  }

  /** An id whose entry lists three ids with empty entries becomes a node over
      three childless nodes. */
  lemma RealizeTriple<T>(list: seq<T>, kids: seq<seq<nat>>, j: nat, x: nat, y: nat, z: nat)
    requires WellFormed(kids, |list|) && 1 <= j < |kids| && kids[j] == [x, y, z]
    requires 1 <= x < |kids| && 1 <= y < |kids| && 1 <= z < |kids| && kids[x] == kids[y] == kids[z] == []
    ensures Realize(list, kids, j) == Node(list[j - 1], [Node(list[x - 1], []), Node(list[y - 1], []), Node(list[z - 1], [])])
  {
    RealizeLeaf(list, kids, x);
    RealizeLeaf(list, kids, y);
    RealizeLeaf(list, kids, z);
    RealizeChildren(list, kids, j);
    assert RealizeList(list, kids, [x, y, z]) == [Realize(list, kids, x), Realize(list, kids, y), Realize(list, kids, z)];
  }

  /** An id whose entry lists two ids with empty entries becomes a node over
      two childless nodes. */
  lemma RealizePair<T>(list: seq<T>, kids: seq<seq<nat>>, j: nat, x: nat, y: nat)
    requires WellFormed(kids, |list|) && 1 <= j < |kids| && kids[j] == [x, y]
    requires 1 <= x < |kids| && 1 <= y < |kids| && kids[x] == kids[y] == []
    ensures Realize(list, kids, j) == Node(list[j - 1], [Node(list[x - 1], []), Node(list[y - 1], [])])
  {
    RealizeLeaf(list, kids, x);
    RealizeLeaf(list, kids, y);
    RealizeChildren(list, kids, j);
    assert RealizeList(list, kids, [x, y]) == [Realize(list, kids, x), Realize(list, kids, y)];
  }

  /** An id with an empty table entry becomes a childless node. */
  lemma RealizeLeaf<T>(list: seq<T>, kids: seq<seq<nat>>, j: nat)
    requires WellFormed(kids, |list|) && 1 <= j < |kids| && kids[j] == []
    ensures Realize(list, kids, j) == Node(list[j - 1], [])
  {
  }

  /** Eight values with arity 3: three children below the root, the next three
      below the first of them and the last two below the second. */
  lemma GrownEight<T>(v: T, list: seq<T>)
    requires |list| == 8
    ensures Grown(Node(v, []), list, 3) == EightShape(v, list)
  {
    var kids := ClosedKids(8, 3);
    EightSubtrees(list);
    assert RealizeList(list, kids, kids[0]) == [Realize(list, kids, 1), Realize(list, kids, 2), Realize(list, kids, 3)];
  }

  /** The shape eight values grown with arity 3 take. */
  function EightShape<T>(v: T, list: seq<T>): Tree<T>
    requires |list| == 8
  {
    Node(v, [Node(list[0], [Node(list[3], []), Node(list[4], []), Node(list[5], [])]),
             Node(list[1], [Node(list[6], []), Node(list[7], [])]),
             Node(list[2], [])])
  }

  /** That shape has six leaves, height 3, and internal values `v`, `list[0]`
      and `list[1]` in preorder. */
  lemma EightShapeQueries<T>(v: T, list: seq<T>)
    requires |list| == 8
    ensures TreePy.LeafCount(EightShape(v, list)) == 6
    ensures TreePy.Height(EightShape(v, list)) == 3
    ensures SimpleTree.ListInternal(EightShape(v, list)) == [v, list[0], list[1]]
  {
    var a := Node(list[0], [Node(list[3], []), Node(list[4], []), Node(list[5], [])]);
    var b := Node(list[1], [Node(list[6], []), Node(list[7], [])]);
    var c := Node(list[2], []);
    assert EightShape(v, list) == Node(v, [a, b, c]);
    ThreeRows(v, a, b, c);
  }

  /** A root over a row of three, a row of two and a childless node: six
      leaves, height 3, and the root and the two row parents internal. */
  lemma ThreeRows<T>(v: T, a: Tree<T>, b: Tree<T>, c: Tree<T>)
    requires a.Node? && |a.children| == 3 && LeafRow(a.children)
    requires b.Node? && |b.children| == 2 && LeafRow(b.children)
    requires c.Node? && c.children == []
    ensures TreePy.LeafCount(Node(v, [a, b, c])) == 6
    ensures TreePy.Height(Node(v, [a, b, c])) == 3
    ensures SimpleTree.ListInternal(Node(v, [a, b, c])) == [v, a.value, b.value]
  {
    var t := Node(v, [a, b, c]);
    assert !IsLeaf(t) by { assert t.children[0].Node?; }
    RowParent(a);
    RowParent(b);
    assert IsLeaf(c);
    ThreeLeafCounts(a, b, c);
    ThreeHeights(a, b, c);
    ThreeInternals(a, b, c);
  }

  /** A node whose children are childless: as many leaves as children, height
      2, and only its own value internal. */
  lemma RowParent<T>(t: Tree<T>)
    requires t.Node? && |t.children| > 0 && LeafRow(t.children)
    ensures TreePy.LeafCount(t) == |t.children|
    ensures TreePy.Height(t) == 2
    ensures SimpleTree.ListInternal(t) == [t.value]
  {
    LeafRowQueries(t.children);
    assert !IsLeaf(t) by { assert t.children[0].Node?; }
  }

  /** A row of childless nodes. */
  ghost predicate LeafRow<T>(cs: seq<Tree<T>>) {
    forall i | 0 <= i < |cs| :: cs[i].Node? && cs[i].children == []
  }

  /** Below a node whose children are childless, each child is one leaf of
      height 1 and no child is internal. */
  lemma {:induction false} LeafRowQueries<T>(cs: seq<Tree<T>>)
    requires LeafRow(cs)
    ensures TreePy.LeafCountForest(cs) == |cs|
    ensures TreePy.HeightForest(cs) == if |cs| == 0 then 0 else 1
    ensures SimpleTree.ListInternalForest(cs) == []
  {
    if |cs| > 0 {
      assert IsLeaf(cs[0]);
      LeafRowQueries(cs[1..]);
    }
  }

  /** Leaf counts add up over three present children. */
  lemma ThreeLeafCounts<T>(a: Tree<T>, b: Tree<T>, c: Tree<T>)
    requires a.Node? && b.Node? && c.Node?
    ensures TreePy.LeafCountForest([a, b, c]) == TreePy.LeafCount(a) + TreePy.LeafCount(b) + TreePy.LeafCount(c)
  {
    LeafCountCons(c, []);
    assert [c] + [] == [c];
    LeafCountCons(b, [c]);
    assert [b] + [c] == [b, c];
    LeafCountCons(a, [b, c]);
    assert [a] + [b, c] == [a, b, c];
  }

  /** The tallest of three present children. */
  lemma ThreeHeights<T>(a: Tree<T>, b: Tree<T>, c: Tree<T>)
    requires a.Node? && b.Node? && c.Node?
    ensures TreePy.HeightForest([a, b, c]) == TreePy.Max(TreePy.Height(a), TreePy.Max(TreePy.Height(b), TreePy.Height(c)))
  {
    HeightCons(c, []);
    assert [c] + [] == [c];
    HeightCons(b, [c]);
    assert [b] + [c] == [b, c];
    HeightCons(a, [b, c]);
    assert [a] + [b, c] == [a, b, c];
  }

  /** Internal values below two row parents and a childless node. */
  lemma ThreeInternals<T>(a: Tree<T>, b: Tree<T>, c: Tree<T>)
    requires a.Node? && b.Node? && c.Node? && c.children == []
    requires SimpleTree.ListInternal(a) == [a.value] && SimpleTree.ListInternal(b) == [b.value]
    ensures SimpleTree.ListInternalForest([a, b, c]) == [a.value, b.value]
  {
    assert SimpleTree.ListInternalForest([c]) == [] by {
      InternalCons(c, []);
      assert [c] + [] == [c];
      assert IsLeaf(c);
    }
    assert SimpleTree.ListInternalForest([b, c]) == [b.value] by {
      InternalCons(b, [c]);
      assert [b] + [c] == [b, c];
    }
    InternalCons(a, [b, c]);
    assert [a] + [b, c] == [a, b, c];
  }

  lemma LeafCountCons<T>(c: Tree<T>, cs: seq<Tree<T>>)
    requires c.Node?
    ensures TreePy.LeafCountForest([c] + cs) == TreePy.LeafCount(c) + TreePy.LeafCountForest(cs)
  {
    assert ([c] + cs)[0] == c;
    assert ([c] + cs)[1..] == cs;
  }

  lemma HeightCons<T>(c: Tree<T>, cs: seq<Tree<T>>)
    requires c.Node?
    ensures TreePy.HeightForest([c] + cs) == TreePy.Max(TreePy.Height(c), TreePy.HeightForest(cs))
  {
    assert ([c] + cs)[0] == c;
    assert ([c] + cs)[1..] == cs;
  }

  lemma InternalCons<T>(c: Tree<T>, cs: seq<Tree<T>>)
    requires c.Node?
    ensures SimpleTree.ListInternalForest([c] + cs) == SimpleTree.ListInternal(c) + SimpleTree.ListInternalForest(cs)
  {
    assert ([c] + cs)[0] == c;
    assert ([c] + cs)[1..] == cs;
  }

  /** The `leaf_count` and `height` doctests of Tree/tree.py: 6 leaves, height 3. */
  lemma LeafCountAndHeightDoctests()
    ensures TreePy.LeafCount(Grown(Node(7, []), [0, 1, 3, 5, 7, 9, 11, 13], 3)) == 6
    ensures TreePy.Height(Grown(Node(7, []), [0, 1, 3, 5, 7, 9, 11, 13], 3)) == 3
  {
    GrownEight(7, [0, 1, 3, 5, 7, 9, 11, 13]);
    EightShapeQueries(7, [0, 1, 3, 5, 7, 9, 11, 13]);
  }

  /** The `count_if` doctest of Tree/tree.py: three values above 6. */
  lemma CountIfDoctest()
    ensures TreePy.CountIf(Grown(Node(9, []), [3, 5, 7, 11], 2), v => v > 6) == 3
  {
    GrownFour(9, 3, 5, 7, 11);
    var p := (v: int) => v > 6;
    var a := Node(3, [Node(7, []), Node(11, [])]);
    assert TreePy.CountIf(a, p) == 2 by {
      assert a.children[1..] == [Node(11, [])];
    }
    var t := Node(9, [a, Node(5, [])]);
    assert t.children[1..] == [Node(5, [])];
    assert TreePy.CountIf(Node(5, []), p) == 0;
    assert TreePy.CountIfForest(t.children, p) == 2 by {
      assert TreePy.CountIfForest([Node(5, [])], p) == 0;
    }
  }

  /** The `count` doctest of Tree/SimpleTree.py: seven values below a root give
      eight nodes. */
  lemma CountDoctest()
    ensures SimpleTree.Count(Grown(Node(17, []), [0, 2, 4, 6, 8, 10, 11], 4)) == 8
  {
    GrownAddsList(Node(17, []), [0, 2, 4, 6, 8, 10, 11], 4);
    assert IsLeaf(Node(17, []));
  }

  /** The `list_internal` doctest of Tree/SimpleTree.py: the internal values of
      eight values grown with arity 3 below a root 0 are 0, 1 and 2. */
  lemma ListInternalDoctest()
    ensures SimpleTree.ListInternal(Grown(Node(0, []), [1, 2, 3, 4, 5, 6, 7, 8], 3)) == [0, 1, 2]
  {
    GrownEight(0, [1, 2, 3, 4, 5, 6, 7, 8]);
    EightShapeQueries(0, [1, 2, 3, 4, 5, 6, 7, 8]);
  }

  /** The predicates of the `list_if` doctests. */
  predicate AboveFour(v: int) {
    v > 4
  }

  predicate Even(v: int) {
    v % 2 == 0
  }

  /** A value occurs in a tree grown from a single node exactly when it is the
      root's or one of the list's. */
  lemma GrownValues<T>(v: T, list: seq<T>, a: int, x: T)
    requires a >= 1
    ensures x in TreePy.Flatten(Grown(Node(v, []), list, a)) <==> x == v || x in list
  {
    var f := TreePy.Flatten(Grown(Node(v, []), list, a));
    GrownAddsList(Node(v, []), list, a);
    assert TreePy.Flatten(Node(v, [])) == [v];
    assert x in f <==> x in multiset(f);
  }

  /** `list_if` on a tree grown from a single node keeps the root's value and
      the list's values that satisfy `p`. */
  lemma ListIfOfGrown<T>(v: T, list: seq<T>, a: int, p: T -> bool, x: T)
    requires a >= 1
    ensures x in SimpleTree.ListIf(Grown(Node(v, []), list, a), p) <==> (x == v || x in list) && p(x)
  {
    var t := Grown(Node(v, []), list, a);
    GrownValues(v, list, a, x);
    SimpleTree.ListIfFiltersFlatten(t, p);
    FilterMember(TreePy.Flatten(t), p, x);
  }

  /** The `list_if` doctests of Tree/SimpleTree.py, which compare sets: values
      above 4 and even values of eight values grown below a root 0. */
  lemma ListIfDoctests(x: int)
    ensures x in SimpleTree.ListIf(Grown(Node(0, []), [1, 2, 3, 4, 5, 6, 7, 8], 3), AboveFour) <==> 5 <= x <= 8
    ensures x in SimpleTree.ListIf(Grown(Node(0, []), [1, 2, 3, 4, 5, 6, 7, 8], 3), Even) <==> x in [0, 2, 4, 6, 8]
  {
    var list := [1, 2, 3, 4, 5, 6, 7, 8];
    assert x in list <==> 1 <= x <= 8;
    assert Even(x) && (x == 0 || 1 <= x <= 8) <==> x in [0, 2, 4, 6, 8];
    ListIfOfGrown(0, list, 3, AboveFour, x);
    ListIfOfGrown(0, list, 3, Even, x);
  }
}

=== FILE: tree_py.dfy ===
/** Tree/tree.py: structural equality and membership on general trees, the
    `BinaryTree` subclass, and the recursive queries `leaf_count`, `height`,
    `flatten`, `count_if` and `arity`. */
module TreePy {
  import opened Results
  import opened Seqs
  import opened Trees

  /** `__eq__`: equal values and equal children lists, where list equality
      compares entries pairwise (`None` equals only `None`). */
  function Equal<T(==)>(a: Tree<T>, b: Tree<T>): (r: bool)
    ensures r <==> a == b
    decreases a
  {
    match a
    case Nil => b.Nil?
    case Node(v, cs) => b.Node? && v == b.value && EqualForest(cs, b.children)
  }

  function EqualForest<T(==)>(xs: seq<Tree<T>>, ys: seq<Tree<T>>): (r: bool)
    ensures r <==> xs == ys
    decreases xs
  {
    if |xs| == 0 then |ys| == 0
    else if |ys| == 0 then false
    else
      assert xs == [xs[0]] + xs[1..] && ys == [ys[0]] + ys[1..];
      Equal(xs[0], ys[0]) && EqualForest(xs[1..], ys[1..])
  }

  /** `__contains__(v)`: the root holds `v` or some present child contains it. */
  function Contains<T(==)>(t: Tree<T>, v: T): (r: bool)
    requires t.Node?
    ensures r <==> v in Flatten(t)
    decreases t, 1
  {
    t.value == v || ContainsForest(t.children, v)
  }

  function ContainsForest<T(==)>(cs: seq<Tree<T>>, v: T): (r: bool)
    ensures r <==> v in FlattenForest(cs)
    decreases cs
  {
    if |cs| == 0 then false
    else (cs[0].Node? && Contains(cs[0], v)) || ContainsForest(cs[1..], v)
  }

  /** `BinaryTree(value, left, right)`: a tree with exactly two child slots. Its
      `left` and `right` properties read and write slots 0 and 1. */
  function BinaryNode<T>(v: T, left: Tree<T>, right: Tree<T>): Tree<T> {
    Node(v, [left, right])
  }

  function Left<T>(t: Tree<T>): (r: Tree<T>)
    requires t.Node? && |t.children| == 2
    ensures t == BinaryNode(t.value, r, t.children[1])
  {
    t.children[0]
  }

  function Right<T>(t: Tree<T>): (r: Tree<T>)
    requires t.Node? && |t.children| == 2
    ensures t == BinaryNode(t.value, t.children[0], r)
  {
    t.children[1]
  }

  function SetLeft<T>(t: Tree<T>, left: Tree<T>): (r: Tree<T>)
    requires t.Node? && |t.children| == 2
    ensures r.Node? && |r.children| == 2 && r.value == t.value
    ensures Left(r) == left && Right(r) == Right(t)
  {
    t.(children := t.children[0 := left])
  }

  function SetRight<T>(t: Tree<T>, right: Tree<T>): (r: Tree<T>)
    requires t.Node? && |t.children| == 2
    ensures r.Node? && |r.children| == 2 && r.value == t.value
    ensures Right(r) == right && Left(r) == Left(t)
  {
    t.(children := t.children[1 := right])
  }

  /** The properties read back what the constructor and the setters store, and
      a setter leaves the other slot and the value alone. */
  lemma BinarySlots<T>(v: T, l: Tree<T>, r: Tree<T>, x: Tree<T>)
    ensures Left(BinaryNode(v, l, r)) == l && Right(BinaryNode(v, l, r)) == r
    ensures Left(SetLeft(BinaryNode(v, l, r), x)) == x && Right(SetLeft(BinaryNode(v, l, r), x)) == r
    ensures Right(SetRight(BinaryNode(v, l, r), x)) == x && Left(SetRight(BinaryNode(v, l, r), x)) == l
  {
  }

  /** `leaf_count(t)`: 1 for a leaf, otherwise the sum over present children. */
  function LeafCount<T>(t: Tree<T>): (r: nat)
    requires t.Node?
    ensures r >= 1
    decreases t, 1
  {
    if IsLeaf(t) then 1 else LeafCountForest(t.children)
  }

  function LeafCountForest<T>(cs: seq<Tree<T>>): (r: nat)
    ensures (exists i | 0 <= i < |cs| :: cs[i].Node?) ==> r >= 1
    decreases cs
  {
    if |cs| == 0 then 0
    else (if cs[0].Nil? then 0 else LeafCount(cs[0])) + LeafCountForest(cs[1..])
  }

  /** `height(t)`: 1 for a leaf, otherwise one more than the tallest present
      child. */
  function Height<T>(t: Tree<T>): (r: nat)
    requires t.Node?
    ensures r >= 1
    decreases t, 1
  {
    if IsLeaf(t) then 1 else 1 + HeightForest(t.children)
  }

  /** The tallest present child's height; 0 when none is present. */
  function HeightForest<T>(cs: seq<Tree<T>>): nat
    decreases cs
  {
    if |cs| == 0 then 0
    else Max(if cs[0].Nil? then 0 else Height(cs[0]), HeightForest(cs[1..]))
  }

  function Max(a: int, b: int): int {
    if a < b then b else a
  }

  /** `flatten(t)`: the root's value, then the values of the present children's
      subtrees from left to right. */
  function Flatten<T>(t: Tree<T>): (r: seq<T>)
    requires t.Node?
    ensures |r| >= 1 && r[0] == t.value
    decreases t, 1
  {
    [t.value] + FlattenForest(t.children)
  }

  function FlattenForest<T>(cs: seq<Tree<T>>): seq<T>
    decreases cs
  {
    if |cs| == 0 then []
    else (if cs[0].Nil? then [] else Flatten(cs[0])) + FlattenForest(cs[1..])
  }

  /** `count_if(t, p)`: 1 for a root satisfying `p`, plus the counts of the
      present children. */
  function CountIf<T>(t: Tree<T>, p: T -> bool): (r: nat)
    requires t.Node?
    ensures p(t.value) ==> r >= 1
    ensures r <= |Flatten(t)|
    decreases t, 1
  {
    (if p(t.value) then 1 else 0) + CountIfForest(t.children, p)
  }

  function CountIfForest<T>(cs: seq<Tree<T>>, p: T -> bool): (r: nat)
    ensures r <= |FlattenForest(cs)|
    decreases cs
  {
    if |cs| == 0 then 0
    else (if cs[0].Nil? then 0 else CountIf(cs[0], p)) + CountIfForest(cs[1..], p)
  }

  /** `arity(t)`: 0 for an empty children list; otherwise the largest of the
      children's arities and the number of children. It recurses into every
      entry, `None` included, so a `None` child fails reading its `children`. */
  function Arity<T>(t: Tree<T>): (r: Result<nat>)
    ensures t.Node? && r.Ok? ==> |t.children| <= r.value
    ensures t.Node? && |t.children| == 0 ==> r == Ok(0)
    decreases t
  {
    match t
    case Nil => Err(NoneAccess)
    case Node(_, cs) =>
      if |cs| == 0 then Ok(0)
      else
        match ArityForest(cs)
        case Err(e) => Err(e)
        case Ok(m) => Ok(Max(m, |cs|))
  }

  /** The largest arity among the entries, failing at the first entry that
      fails. */
  function ArityForest<T>(cs: seq<Tree<T>>): Result<nat>
    decreases cs
  {
    if |cs| == 0 then Ok(0)
    else
      match Arity(cs[0])
      case Err(e) => Err(e)
      case Ok(a) =>
        match ArityForest(cs[1..])
        case Err(e) => Err(e)
        case Ok(b) => Ok(Max(a, b))
  }

  /** Every node of `t` is present and has only present children. */
  ghost predicate Complete<T>(t: Tree<T>) {
    t.Node? && forall n | n in Nodes(t) :: !HasMissingChild(n)
  }

  ghost predicate CompleteForest<T>(cs: seq<Tree<T>>) {
    (forall i | 0 <= i < |cs| :: cs[i].Node?) && forall n | n in NodesForest(cs) :: !HasMissingChild(n)
  }

  /** `flatten` lists the values of the preorder node list. */
  lemma {:induction false} FlattenIsPreorder<T>(t: Tree<T>)
    requires t.Node?
    ensures Flatten(t) == ValuesOf(Nodes(t))
    decreases t, 1
  {
    FlattenForestIsPreorder(t.children);
    ValuesOfConcat([t], NodesForest(t.children));
  }

  lemma {:induction false} FlattenForestIsPreorder<T>(cs: seq<Tree<T>>)
    ensures FlattenForest(cs) == ValuesOf(NodesForest(cs))
    decreases cs
  {
    if |cs| > 0 {
      FlattenForestIsPreorder(cs[1..]);
      ValuesOfConcat(Nodes(cs[0]), NodesForest(cs[1..]));
      if cs[0].Node? {
        FlattenIsPreorder(cs[0]);
      }
    }
  }

  /** `leaf_count` counts the leaves among the nodes. */
  lemma {:induction false} LeafCountCountsLeaves<T>(t: Tree<T>)
    requires t.Node?
    ensures LeafCount(t) == |Filter(Nodes(t), IsLeaf)|
    decreases t, 1
  {
    LeafCountForestCountsLeaves(t.children);
    FilterConcat([t], NodesForest(t.children), IsLeaf);
    if IsLeaf(t) {
      NodesForestOfAbsent(t.children);
    } else {
      assert Filter([t], IsLeaf) == [];
    }
  }

  lemma {:induction false} LeafCountForestCountsLeaves<T>(cs: seq<Tree<T>>)
    ensures LeafCountForest(cs) == |Filter(NodesForest(cs), IsLeaf)|
    decreases cs
  {
    if |cs| > 0 {
      LeafCountForestCountsLeaves(cs[1..]);
      FilterConcat(Nodes(cs[0]), NodesForest(cs[1..]), IsLeaf);
      if cs[0].Node? {
        LeafCountCountsLeaves(cs[0]);
      }
    }
  }

  /** `count_if(t, p)` counts the values of `flatten(t)` that satisfy `p`. */
  lemma {:induction false} CountIfCountsFlatten<T>(t: Tree<T>, p: T -> bool)
    requires t.Node?
    ensures CountIf(t, p) == |Filter(Flatten(t), p)|
    decreases t, 1
  {
    CountIfForestCountsFlatten(t.children, p);
    FilterConcat([t.value], FlattenForest(t.children), p);
  }

  lemma {:induction false} CountIfForestCountsFlatten<T>(cs: seq<Tree<T>>, p: T -> bool)
    ensures CountIfForest(cs, p) == |Filter(FlattenForest(cs), p)|
    decreases cs
  {
    if |cs| > 0 {
      CountIfForestCountsFlatten(cs[1..], p);
      var head := if cs[0].Nil? then [] else Flatten(cs[0]);
      FilterConcat(head, FlattenForest(cs[1..]), p);
      if cs[0].Node? {
        CountIfCountsFlatten(cs[0], p);
      }
    }
  }

  /** No root-to-leaf path is longer than the height. */
  lemma {:induction false} PathWithinHeight<T>(t: Tree<T>, p: seq<T>)
    requires IsRootLeafPath(t, p)
    ensures |p| <= Height(t)
    decreases t
  {
    if !IsLeaf(t) {
      var i :| 0 <= i < |t.children| && IsRootLeafPath(t.children[i], p[1..]);
      PathWithinHeight(t.children[i], p[1..]);
      HeightForestBound(t.children, i);
    }
  }

  /** Some root-to-leaf path is exactly as long as the height, so the height
      is the longest path's length. */
  lemma {:induction false} HeightIsReached<T>(t: Tree<T>)
    requires t.Node?
    ensures exists p :: IsRootLeafPath(t, p) && |p| == Height(t)
    decreases t
  {
    if IsLeaf(t) {
      assert IsRootLeafPath(t, [t.value]);
    } else {
      var k :| 0 <= k < |t.children| && t.children[k].Node?;
      HeightForestBound(t.children, k);
      var i := TallestChild(t.children);
      HeightIsReached(t.children[i]);
      var q :| IsRootLeafPath(t.children[i], q) && |q| == Height(t.children[i]);
      assert ([t.value] + q)[1..] == q;
      assert IsRootLeafPath(t, [t.value] + q);
    }
  }

  /** A present child whose height is the tallest child's. */
  lemma {:induction false} TallestChild<T>(cs: seq<Tree<T>>) returns (i: nat)
    requires HeightForest(cs) > 0
    ensures i < |cs| && cs[i].Node? && Height(cs[i]) == HeightForest(cs)
    decreases cs
  {
    if cs[0].Node? && HeightForest(cs[1..]) <= Height(cs[0]) {
      i := 0;
    } else {
      var j := TallestChild(cs[1..]);
      i := j + 1;
    }
  }

  /** The tallest child is at least as tall as each present child. */
  lemma {:induction false} HeightForestBound<T>(cs: seq<Tree<T>>, i: nat)
    requires i < |cs| && cs[i].Node?
    ensures Height(cs[i]) <= HeightForest(cs)
  {
    if i > 0 {
      HeightForestBound(cs[1..], i - 1);
    }
  }

  /** `arity` fails exactly when a `None` child is reachable; otherwise it is
      the largest number of children of any node, and some node has that many
      (or the tree is a single node with an empty children list). */
  lemma {:induction false} ArityIsMaxBranching<T>(t: Tree<T>)
    requires t.Node?
    ensures Arity(t).Ok? <==> Complete(t)
    ensures Arity(t).Ok? ==> forall n | n in Nodes(t) :: Branching(n) <= Arity(t).value
    ensures Arity(t).Ok? ==> exists n | n in Nodes(t) :: Branching(n) == Arity(t).value
    decreases t, 1
  {
    NodesOfNode(t);
    ArityForestIsMaxBranching(t.children);
    if |t.children| == 0 {
      assert NodesForest(t.children) == [];
      assert t in Nodes(t);
    } else if ArityForest(t.children).Ok? {
      assert t in Nodes(t);
    } else {
      assert t in Nodes(t);
      if forall i | 0 <= i < |t.children| :: t.children[i].Node? {
        assert !CompleteForest(t.children);
        var n :| n in NodesForest(t.children) && HasMissingChild(n);
        assert n in Nodes(t);
      } else {
        assert HasMissingChild(t);
      }
    }
  }

  lemma {:induction false} ArityForestIsMaxBranching<T>(cs: seq<Tree<T>>)
    ensures ArityForest(cs).Ok? <==> CompleteForest(cs)
    ensures ArityForest(cs).Ok? ==> forall n | n in NodesForest(cs) :: Branching(n) <= ArityForest(cs).value
    ensures ArityForest(cs).Ok? && ArityForest(cs).value > 0 ==>
      exists n | n in NodesForest(cs) :: Branching(n) == ArityForest(cs).value
    decreases cs
  {
    if |cs| > 0 {
      ArityForestIsMaxBranching(cs[1..]);
      var rest := NodesForest(cs[1..]);
      assert NodesForest(cs) == Nodes(cs[0]) + rest;
      if cs[0].Node? {
        ArityIsMaxBranching(cs[0]);
        if CompleteForest(cs) {
          assert Complete(cs[0]);
          assert CompleteForest(cs[1..]);
        }
      } else {
        assert !CompleteForest(cs);
      }
    }
  }
}

=== FILE: trees.dfy ===
/** The general tree shared by Tree/tree.py and Tree/SimpleTree.py, with the
    reference notions (preorder node list, leaves, internal nodes, root-to-leaf
    paths) that the contracts of `TreePy`, `SimpleTree` and `TreeBuilder` are
    stated against. */
module Trees {
  import opened Seqs

  /** A `Tree(value, children)` node, or `Nil` for a `None` entry of a children
      list. The constructor's copy of the children list is invisible to a value
      model, so `Tree(5)` and `Tree(5, [])` are the same `Node(5, [])`. */
  datatype Tree<T> = Nil | Node(value: T, children: seq<Tree<T>>)

  /** A node none of whose children is present: the test in Tree/tree.py and Tree/SimpleTree.py,
      `len([c for c in t.children if c is not None]) == 0`. */
  predicate IsLeaf<T>(t: Tree<T>) {
    t.Node? && forall i | 0 <= i < |t.children| :: t.children[i].Nil?
  }

  /** A node with at least one present child. */
  predicate IsInternal<T>(t: Tree<T>) {
    t.Node? && !IsLeaf(t)
  }

  /** A node with a `None` entry among its children. */
  predicate HasMissingChild<T>(t: Tree<T>) {
    t.Node? && exists i | 0 <= i < |t.children| :: t.children[i].Nil?
  }

  /** The length of a node's children list, `None` entries included. */
  function Branching<T>(t: Tree<T>): nat {
    if t.Nil? then 0 else |t.children|
  }

  /** Every present node (as the subtree rooted there), in preorder: a node, then
      its children's nodes from left to right. */
  ghost function Nodes<T>(t: Tree<T>): seq<Tree<T>>
    decreases t
  {
    match t
    case Nil => []
    case Node(_, cs) => [t] + NodesForest(cs)
  }

  ghost function NodesForest<T>(cs: seq<Tree<T>>): seq<Tree<T>>
    decreases cs
  {
    if |cs| == 0 then [] else Nodes(cs[0]) + NodesForest(cs[1..])
  }

  /** The values of the present nodes of `ns`, in order. */
  ghost function ValuesOf<T>(ns: seq<Tree<T>>): seq<T> {
    if |ns| == 0 then []
    else if ns[0].Node? then [ns[0].value] + ValuesOf(ns[1..])
    else ValuesOf(ns[1..])
  }

  /** `p` lists the values met on a walk from the root of `t` down to a leaf,
      stepping only to present children. */
  ghost predicate IsRootLeafPath<T>(t: Tree<T>, p: seq<T>)
    decreases t
  {
    && t.Node? && |p| >= 1 && p[0] == t.value
    && if IsLeaf(t) then |p| == 1
       else exists i | 0 <= i < |t.children| :: IsRootLeafPath(t.children[i], p[1..])
  }

  lemma {:induction false} ValuesOfConcat<T>(a: seq<Tree<T>>, b: seq<Tree<T>>)
    ensures ValuesOf(a + b) == ValuesOf(a) + ValuesOf(b)
  {
    if |a| == 0 {
      assert a + b == b;
    } else {
      assert (a + b)[1..] == a[1..] + b;
      ValuesOfConcat(a[1..], b);
    }
  }

  lemma {:induction false} NodesForestConcat<T>(a: seq<Tree<T>>, b: seq<Tree<T>>)
    ensures NodesForest(a + b) == NodesForest(a) + NodesForest(b)
  {
    if |a| == 0 {
      assert a + b == b;
    } else {
      assert (a + b)[1..] == a[1..] + b;
      NodesForestConcat(a[1..], b);
    }
  }

  /** A children list without present entries contributes no nodes. */
  lemma {:induction false} NodesForestOfAbsent<T>(cs: seq<Tree<T>>)
    requires forall i | 0 <= i < |cs| :: cs[i].Nil?
    ensures NodesForest(cs) == []
  {
    if |cs| > 0 {
      NodesForestOfAbsent(cs[1..]);
    }
  }

  /** The nodes of a tree are the root followed by the nodes of its children. */
  lemma NodesOfNode<T>(t: Tree<T>)
    requires t.Node?
    ensures Nodes(t) == [t] + NodesForest(t.children)
    ensures forall n :: n in Nodes(t) <==> n == t || n in NodesForest(t.children)
  {
  }

  /** A node of one child is a node of the forest. */
  lemma {:induction false} NodesForestMember<T>(cs: seq<Tree<T>>, i: nat, n: Tree<T>)
    requires i < |cs| && n in Nodes(cs[i])
    ensures n in NodesForest(cs)
  {
    if i > 0 {
      NodesForestMember(cs[1..], i - 1, n);
    }
  }

  /** A node of the forest is a node of one of its children. */
  lemma {:induction false} NodesForestWitness<T>(cs: seq<Tree<T>>, n: Tree<T>) returns (i: nat)
    requires n in NodesForest(cs)
    ensures i < |cs| && n in Nodes(cs[i])
  {
    if n in Nodes(cs[0]) {
      i := 0;
    } else {
      var j := NodesForestWitness(cs[1..], n);
      i := j + 1;
    }
  }

  /** Every entry of a preorder node list is a present node. */
  lemma {:induction false} NodesPresent<T>(t: Tree<T>)
    ensures forall n | n in Nodes(t) :: n.Node?
    decreases t
  {
    if t.Node? {
      NodesForestPresent(t.children);
    }
  }

  lemma {:induction false} NodesForestPresent<T>(cs: seq<Tree<T>>)
    ensures forall n | n in NodesForest(cs) :: n.Node?
    decreases cs
  {
    if |cs| > 0 {
      NodesPresent(cs[0]);
      NodesForestPresent(cs[1..]);
    }
  }
}
